=== FILE: README.md ===
# Inliner, block builder, module table and scope stack — a Dafny model

This project models four pieces of the CinderX compiler and JIT and proves
properties of them:

- **The LIR inliner** (`Jit/codegen/inliner.cpp`). It looks up the callee of
  a LIR `Call` through its address. It decides whether the callee can be
  inlined: one entry with no predecessors, one empty exit, and every
  `Return` leading to the exit. The call's arguments must be immediates or
  virtual registers, and every `LoadArg` must be well indexed and come
  before any other instruction. It then splits the caller's block before
  the call and copies the callee in. Each `LoadArg` is resolved against the
  argument list: an immediate becomes a `Move`, a register is forwarded to
  every use. Finally it merges the callee's `Return`s into a phi in the
  exit block, and the call becomes a `Move` of that phi, or a `Nop`.
- **The LIR graph** that the inliner edits (module `Lir`). This covers
  operands, instructions, blocks, splitting a block, and copying a function
  into another.
- **The LIR basic-block builder** (`cinderx/Jit/lir/block_builder.cpp`).
  It covers:
  - blocks allocated by label;
  - appending and switching blocks, with the two-successor limit;
  - looking up the LIR definition of a HIR register through the copy-propagation chain;
  - recording outputs in SSA form;
  - per-instruction deopt metadata;
  - hot/cold section placement.
- **The Static Python module table** (`Lib/compiler/static/module_table.py`).
  It covers:
  - declaring classes, functions (overloads grouped into a function group) and variables;
  - the end of the first pass (`finish_bind`), which re-binds or deletes members;
  - the first-pass guard on annotation resolution;
  - name resolution with builtins as fallback;
  - `Final` literal lookup.
- **The strict-modules scope stack** (`StrictModules/scope.h`). It covers:
  - construction, push and pop;
  - the current class and name mangling;
  - the dotted qualified name of the current scope;
  - the RAII scope manager that enters a scope and restores the stack on exit.

The model is functional. A LIR function is an arena. A block is named by its
index in the function's block list. An instruction is named by an id unique
in its function. Linked operands, predecessor lists and successor lists hold
those names instead of pointers. `SplitBefore` appends the new tail block at
the end of the arena. `CopyFrom` appends the callee's blocks after it and
shifts the copied instruction ids past every id the caller uses.

A LIR function's edges are stored twice: block `p` lists `j` among its
successors, and `j` lists `p` among its predecessors, once per edge
(`Lir.WellLinked`). LIR edges are made by `addSuccessor`, which writes both
ends (`BlockBuilder.AddSuccessorKeepsEdgesMatch`), so the inliner takes
every function it can parse to be well linked. This is what makes a block
that ends in a `Return`, with its single successor, appear at most once
among the exit's predecessors.

Some behaviours of the code are easy to misread. The model follows the code:

- `getDefInstr` (block_builder.cpp:76-94) looks up the output map only for
  the register at the END of the copy-propagation chain, not for each
  register along it. `BlockBuilder.DefOf` does the same.
- `SetBlockSection` (block_builder.cpp:115-123) goes through
  `getBasicBlockByLabel`, which allocates a block for a label it has not
  seen. So an unknown label gets a fresh block with the section set; it is
  not a no-op. The null check in the source can never fire.
- `checkLoadArg` (inliner.cpp:117-150) computes the argument count as
  `getNumInputs() - 1` in `size_t`. For a call with no inputs this wraps to
  2^64-1. `Inliner.WrappedArgCount` writes the wrap out.
  `findFunction` rejects such calls first, so `InlineCall` never meets it.
- `resolveReturnValue` (inliner.cpp:293-303) aborts the process, via
  `JIT_CHECK`, when a `Return` reaching the exit has no input. Nothing
  earlier rules that out, so the model returns `None`. `InlineCall` reports
  it as the `Fatal` status instead of assuming it away.
- `createInstrOutput` (block_builder.cpp:102-113) only `JIT_DCHECK`s that
  the destination is new. In a release build `emplace` keeps the first
  definition. `BlockBuilder.CreateInstrOutput` keeps the first entry and
  reports the duplicate as `false`.
- `finish_bind` (module_table.py:227-237) executes `del self.children[name]`.
  That raises `KeyError` when the name is already unbound, for instance
  when two deletions hit the same name. `ModuleTable.FinishDecl` returns
  `KeyError` there.

## Model

| member | source | states |
|---|---|---|
| Inliner.ParseFunction | Jit/codegen/inliner.cpp:173-197 | A cached name is returned from the cache, which is left unchanged. Otherwise the library's function is returned and stored under the name. A name in neither is not found and leaves the cache unchanged. The cache only ever grows. |
| Inliner.ParseFunctionIsCached | Jit/codegen/inliner.cpp:173-197 | Once a name has been parsed, asking again returns the same function and cache, whatever the library now says. |
| Inliner.FindFunction | Jit/codegen/inliner.cpp:152-171 | A callee is found only when the call's first input is an immediate address with a symbol. That symbol's name is then parsed. A call whose first input is missing or not an immediate finds nothing. Whenever nothing is found, the cache is unchanged. |
| Inliner.CheckEntryExitReturn | Jit/codegen/inliner.cpp:60-103 | Accepts exactly the callees with an entry that has no predecessors, an empty exit that has no successors, no other block without predecessors or without successors, and every `Return` last in a block whose only successor is the exit. |
| Inliner.CheckArguments | Jit/codegen/inliner.cpp:105-115 | Accepts exactly the calls whose arguments (inputs after the address) are all immediates or virtual registers. On success it returns that argument list. |
| Inliner.CheckLoadArg | Jit/codegen/inliner.cpp:117-150 | Accepts exactly the callees in which every `LoadArg` is indexed by an immediate below the (wrapping) argument count, and no `LoadArg` follows another instruction. |
| Inliner.LoadArgIndexInRange | Jit/codegen/inliner.cpp:117-150 | For a call with at least one input, an accepted callee's `LoadArg` indices are all below the length of the argument list that the splice uses. |
| Inliner.ResolveLoadArg | Jit/codegen/inliner.cpp:221-251 | A `LoadArg` of an immediate becomes a `Move` of it, keeping its id and trailing inputs, and the map is unchanged. A `LoadArg` of a register disappears and binds its id to the register's definition; a binding already present is kept. |
| Inliner.ResolveLinkedUses | Jit/codegen/inliner.cpp:253-282 | Each operand keeps its shape. The instructions it refers to are replaced by their bindings. A memory operand stays one; its base is relinked to the binding of the base's own definition, and its index, kept present or absent, to the binding of the index's own. An operand that refers to nothing bound is unchanged. |
| Inliner.RelinkOperandDefs | Jit/codegen/inliner.cpp:253-282 | The definitions an operand refers to after relinking are exactly the images of those it referred to before. |
| Inliner.ResolveArguments | Jit/codegen/inliner.cpp:199-219 | Only the copied blocks change, and only in their instructions, which do not grow. After resolution no copied block holds a `LoadArg`. |
| Inliner.ResolveInstrsMatchesReference | Jit/codegen/inliner.cpp:199-251 | Resolving one instruction at a time in a single pass equals the reference: first collect every register binding, then rewrite each instruction with the complete map. This holds because `LoadArg`s come first. |
| Inliner.ResolveRangeMatchesReference | Jit/codegen/inliner.cpp:199-219 | The same agreement with the reference holds across a range of blocks walked in layout order. The map threaded across blocks equals the bindings of the whole instruction stream. |
| Inliner.ResolveArgumentsMatchesReference | Jit/codegen/inliner.cpp:199-219 | Resolving the copied blocks rewrites each one exactly as the reference does with the bindings of all copied blocks. |
| Inliner.LoadArgIndicesOkFlatten | Jit/codegen/inliner.cpp:117-150 | The `LoadArg` index check holds for a function's instruction stream iff it holds for each block. |
| Inliner.LoadArgPrefixConcat | Jit/codegen/inliner.cpp:133-147 | When `LoadArg`s come first in a stream, they come first in each part. Either the first part is all `LoadArg` or the second part has none. |
| Inliner.BindingsConcat | Jit/codegen/inliner.cpp:199-219 | Collecting bindings over a concatenated stream equals collecting over the first part, then continuing over the second. |
| Inliner.MergeReturnsTrims | Jit/codegen/inliner.cpp:293-303 | Merging returns only removes the final `Return` from blocks that end in one. The block count and every block's edges are kept. |
| Inliner.MergeReturnsFrame | Jit/codegen/inliner.cpp:293-303 | A block that is not a listed predecessor, or does not end in a `Return`, is unchanged. |
| Inliner.MergeReturnsExtends | Jit/codegen/inliner.cpp:293-303 | The phi inputs gathered so far are a prefix of the result. Nothing is added iff no listed predecessor ends in a `Return`. |
| Inliner.MergeReturnsPairs | Jit/codegen/inliner.cpp:293-303 | Phi inputs are added in (block label, value) pairs, so an even-length input list stays even. |
| Inliner.MergeReturnsOnce | Jit/codegen/inliner.cpp:293-303 | When no block that ends in a `Return` is listed twice, the merge succeeds iff every returning predecessor's `Return` has a value. The result then drops every such `Return` and appends, in predecessor order, one label/value pair per returning predecessor. |
| Inliner.ReturningPredsMembers | Jit/codegen/inliner.cpp:293-303 | A block contributes to the phi iff it is a listed predecessor that ends in a `Return`. |
| Inliner.PhiInputsAt | Jit/codegen/inliner.cpp:293-303 | The phi has two inputs per returning predecessor. The k-th pair is that block's label followed by its `Return`'s first input. |
| Inliner.ResolveReturnValueFrame | Jit/codegen/inliner.cpp:284-318 | Resolving the return value keeps every block's edges. Other blocks only lose trailing instructions, and blocks that do not precede the exit are unchanged. |
| Inliner.ResolveReturnValueCall | Jit/codegen/inliner.cpp:284-318 | If no `Return` reaches the exit, the call becomes a `Nop` and the exit is unchanged. Otherwise the exit gains one phi with a nonempty, even list of inputs, and the call becomes a `Move` of that phi. Either way the call keeps its id and what follows it is unchanged. |
| Inliner.ResolveReturnValueOnce | Jit/codegen/inliner.cpp:284-318 | When no block that ends in a `Return` enters the exit twice, resolution succeeds iff every `Return` reaching the exit has a value. Each such `Return` is removed, and the exit's phi lists exactly the returning blocks with their values. |
| Inliner.SplitAtCall | Jit/codegen/inliner.cpp:30-32 | The call's block keeps the instructions before the call, its predecessors and its section, and jumps only to a new block. The new block holds the call and the rest, takes over the old successors, and is entered only from the call's block. Each old successor lists the new block in the call block's place among its predecessors (`SplitPreds`); every other block is unchanged. A well-linked graph stays well linked. |
| Inliner.CopyCallee | Jit/codegen/inliner.cpp:34-38 | The callee's blocks are appended after the split blocks, with the split edge rerouted through them: the call's block is unchanged except that it now jumps only to the copied entry, and the new block is unchanged except that it is now entered only from the copied exit. The other caller blocks are unchanged, and a well-linked graph stays well linked. The copy's exit is empty. Copied `LoadArg`s stay well indexed and first in their blocks. The copy's exit is entered from the call's block or from copied blocks, from the call's block iff the callee has one block; no returning block enters it twice, and the `Return`s entering it are those of `ExitFeed`. Each copied block is exactly `Lir.CopiedBlock` of the callee's block (`Lir.CopiesAt`): block references shifted to the copy, instruction ids moved past every id of the split function, the copied entry also entered from the call's block and the copied exit also leading to the new block. |
| Inliner.ResolveCopy | Jit/codegen/inliner.cpp:199-219 | Argument resolution over a copy of the callee keeps every block before the copy. Each copied block keeps its edges and section, holds no `LoadArg` afterwards, and becomes `ResolvedCopyBlock`: the callee's block copied as `Lir.CopiedBlock` copies it and resolved in order with the bindings of the blocks before it. The exit's predecessors are kept, and every one of them ends in the same `Return`, with the same input count, as before, so the exit stays fed as `ExitFeed` says. A well-linked graph stays well linked. |
| Inliner.CopyAndResolve | Jit/codegen/inliner.cpp:34-40 | After copying and resolving, the caller's blocks other than the call's block and the new block are unchanged; the call's block only jumps to the copied entry instead, and the new block is only entered from the copied exit instead. The copy holds no `LoadArg`, its exit is empty, entered from the call's block iff the callee has one block, and fed as `ExitFeed` says; the k-th copied block is `ResolvedCopyBlock` of the callee's k-th block placed after the split function. A well-linked graph stays well linked. |
| Inliner.SplitAndCopy | Jit/codegen/inliner.cpp:30-40 | Splitting, copying and resolving, as the caller sees them: the call's block holds the instructions before the call, keeps its predecessors and section and jumps only to the copied entry; the new block holds the call and the rest, leaves where the call's block left and is entered only from the copied exit; every other caller block only has the new block in the call block's place among its predecessors when the call's block jumped to it. The copy is as `CopyAndResolve` states, at the caller's offsets. A well-linked caller gives a well-linked result. |
| Inliner.MergeIntoEpilogue | Jit/codegen/inliner.cpp:284-318 | On the spliced function, resolving the return value succeeds iff every `Return` entering the exit has an input. It then removes each such `Return`. The call becomes a `Nop`, with the exit left empty, iff no `Return` enters the exit; otherwise the exit holds exactly one phi whose inputs are `PhiInputs` of the exit's predecessors, and the call becomes a `Move` of it. Every block keeps its edges. The call's block is kept, less its `Return` when it ends in one that enters the exit; every other caller block is kept, and no `LoadArg` is put back into the copy. Every copied block other than the exit is unchanged unless it ends in a `Return` that enters the exit, and the exit keeps its edges and section. |
| Inliner.Splice | Jit/codegen/inliner.cpp:30-42 | The splice completes iff every `Return` that reaches the copied exit (`ExitFeed` of the callee and of the instructions before the call) has an input. A completed splice has the inlined shape (`SpliceShape`): every caller block is its `SplicedCallerBlock`, so the call's block holds exactly the instructions before the call, less a `Return` that a single-block callee merged, keeps its predecessors and section and jumps only to the copied entry; each of its old successors lists the new block in its place among its predecessors; every other caller block is unchanged. The new block holds the call and what followed it, is entered only from the copied exit and leaves where the call's block left; the copy holds no `LoadArg`. The call became a `Nop` iff no `Return` reaches the exit, and reads the exit's phi otherwise. The exit holds nothing, or one phi whose inputs are `PhiInputs` of its predecessors read before merging (`ReturnsMerged`): the call's block cut before the call and the resolved copies. The copied blocks are as `CalleePlaced` states: the k-th is `ResolvedCopyBlock` of the callee's k-th block, with instruction ids moved past every id of the caller, less its `Return` when that `Return` enters the exit; the exit keeps the copied edges. A well-linked caller stays well linked. |
| Inliner.SpliceShapeOfMerged | Jit/codegen/inliner.cpp:30-42 | What merging keeps of the new block and the copy, together with the caller blocks as `SplicedCallerBlock` gives them, is the inlined shape `SpliceShape`. |
| Inliner.CallerBlocksSpliced | Jit/codegen/inliner.cpp:30-42 | The caller blocks after splitting, copying and merging are their `SplicedCallerBlock`: the call's block loses a trailing `Return` only when it enters the exit, which happens iff the callee has one block. |
| Inliner.PhiFromResolved | Jit/codegen/inliner.cpp:284-318 | The exit's phi after merging, stated over the resolved function, is the one `ReturnsMerged` states over `BeforeMerge`: the two agree on the instructions of every predecessor of the exit. |
| Inliner.BeforeMergeAgrees | Jit/codegen/inliner.cpp:30-40 | The resolved function agrees with `BeforeMerge` on the call's block cut before the call and on every copied block. |
| Inliner.InlineCall | Jit/codegen/inliner.cpp:15-58 | A call is declined iff no callee is found or the callee fails an eligibility check. It is inlined iff the callee is found and eligible and every `Return` reaching the copied exit has an input; the remaining case is the `Fatal` abort. A declined call leaves the caller unchanged. On `Fatal` the model also returns the caller unchanged; this is the model's convention, since the source aborts the process at inliner.cpp:297-299 after the block was split and the callee copied. An inlined call yields the spliced shape with the callee that was found, the call is a `Nop` iff no `Return` reaches the exit, the callee's blocks are placed with their content as `CalleePlaced` states, and the exit's phi is as `ReturnsMerged` states. Whatever the outcome, a well-linked caller stays well linked. Parsing keeps every cached function well linked. |
| Inliner.ResolveRangeIsResolveBlocks | Jit/codegen/inliner.cpp:199-219 | Resolving a range of blocks, with the binding map threaded through them in order, gives each block of the range what `ResolveBlocks` gives for the range's blocks on their own: blocks outside the range play no part. |
| Inliner.ResolveCopyAt | Jit/codegen/inliner.cpp:199-219 | Resolving the arguments over a copy of the callee gives, for each copied block, its `ResolvedCopy`: the copies resolved in order from an empty binding map. |
| Inliner.ResolveCopyAll | Jit/codegen/inliner.cpp:199-219 | The same for every copied block at once. |
| Inliner.CopyAtCallerOffsets | Jit/codegen/inliner.cpp:30-38 | When the split creates no instruction id, the resolved copies placed after the split are those placed after the caller itself. |
| Inliner.MergedCopies | Jit/codegen/inliner.cpp:293-303 | Per copied block before the exit, return merging leaves the block as it was, or removes its `Return` when it is a returning predecessor of the exit. |
| Inliner.PlacedFromResolved | Jit/codegen/inliner.cpp:30-42 | Resolved copies at the caller's offsets, merged as `MergedCopies` says and with the exit's edges kept, are placed as `CalleePlaced` states. |
| Inliner.ReturnsOfMeans | Jit/codegen/inliner.cpp:293-305 | The list of trailing `Return`s of the exit's predecessors decides both outcomes of the merge: every returning block has an input iff every listed `Return` has one, and a `Return` reaches the exit iff the list has one. |
| Inliner.CalleeReturnsOnce | Jit/codegen/inliner.cpp:60-103 | In a well-linked callee that passes the entry/exit/return check, the exit's predecessors are in range, do not include the exit, and no block ending in a `Return` appears among them twice: such a block has exactly one successor edge. |
| Inliner.CopyExitReturns | Jit/codegen/inliner.cpp:34-38 | After copying, the copied exit is entered from the call's block or from copied blocks, no returning block enters it twice, and the `Return`s entering it are the callee's own (shifted), or the trailing `Return` of the call's block for a single-block callee. |
| Inliner.ResolveInstrsKeepsReturn | Jit/codegen/inliner.cpp:199-251 | Resolving a block whose `LoadArg`s come first keeps its trailing `Return` and that `Return`'s input count, and empties only a block of `LoadArg`s. |
| Inliner.ResolveArgumentsKeepsReturns | Jit/codegen/inliner.cpp:199-219 | Argument resolution changes neither which listed blocks end in a `Return` nor how many inputs those `Return`s have, so it keeps the merge's outcome. |
| Inliner.PhiInputsFrame | Jit/codegen/inliner.cpp:293-303 | Changing a block that is not listed changes neither whether the listed `Return`s have values, whether one is listed twice, nor the phi inputs they give. |
| Lir.SplitBefore | Jit/codegen/inliner.cpp:30-32 | Splitting adds one block. The head keeps the instructions before the split point, the tail the rest, and together they give back the original. The tail takes the head's successors, and the head's place in their predecessor lists. |
| Lir.SplitBeforeWellLinked | Jit/codegen/inliner.cpp:30-32 | Splitting a block keeps a well-linked graph well linked: the tail inherits the head's outgoing edges at both ends, and the head-to-tail edge is recorded once at each end. |
| Lir.SplitKeepsFreshInstrId | Jit/codegen/inliner.cpp:30-32 | Splitting a block moves its instructions between two blocks but creates none, so the first unused instruction id is unchanged. |
| Lir.CopyFromCopies | Jit/codegen/inliner.cpp:34-38 | Each copied block is the callee's block with block references shifted by the copy's start and instruction ids shifted past every id in the caller. |
| Lir.CopyFromReroutes | Jit/codegen/inliner.cpp:34-38 | Copying reroutes the edge between the split blocks through the copy: the head is unchanged except that it leads to the copied entry in place of the tail, and the tail is unchanged except that it is entered from the copied exit in place of the head. Every other caller block is unchanged. |
| Lir.CopyBlocks | Jit/codegen/inliner.cpp:34-38 | The callee's blocks are copied in order after the caller's (`Lir.CopiesAt`). The head is unchanged except that it leads to the copied entry in place of the tail, the tail is unchanged except that it is entered from the copied exit in place of the head, and every other caller block is unchanged. |
| Lir.CopiedWellLinked | Jit/codegen/inliner.cpp:34-38 | Copying a well-linked callee into a well-linked function, along an edge recorded once, keeps every edge recorded equally often at both ends. |
| Lir.SameEdgesWellLinked | Jit/codegen/inliner.cpp:199-219 | A function with the same blocks and edges as a well-linked one is well linked, whatever its instructions: changing only instructions, as resolution and return merging do, keeps the graph well linked. |
| Lir.FreshInstrIdIsFresh | Jit/codegen/inliner.cpp:34-38 | The id offset used for the copy exceeds every instruction id in the caller. |
| BlockBuilder.AllocateBlock | cinderx/Jit/lir/block_builder.cpp:37-43 | A known label returns its block and changes nothing. A new label appends one empty block and binds the label to it; nothing else changes. The builder's invariants are kept. |
| BlockBuilder.AllocateBlockIdempotent | cinderx/Jit/lir/block_builder.cpp:37-43 | Allocating the same label twice gives the same block, and the second call changes nothing. |
| BlockBuilder.GetBasicBlockByLabelIsAllocateBlock | cinderx/Jit/lir/block_builder.cpp:65-74 | Looking up a block by label behaves exactly like allocating it. |
| BlockBuilder.AllocateAllCount | cinderx/Jit/lir/block_builder.cpp:37-43 | Allocating a list of labels adds one block per distinct label not yet bound. Every label ends up bound and no binding is lost. |
| BlockBuilder.AppendBlock | cinderx/Jit/lir/block_builder.cpp:45-50 | The appended block becomes current and is recorded. If the previous current block had fewer than two successors, the graph gains exactly the edge from it, appended at both ends (`AddSuccessor`); otherwise the graph is unchanged. |
| BlockBuilder.AppendBlockKeepsBranchLimit | cinderx/Jit/lir/block_builder.cpp:45-50 | Appending never gives a block more than two successors. |
| BlockBuilder.SwitchBlock | cinderx/Jit/lir/block_builder.cpp:52-55 | The block becomes current and is recorded. The graph, labels and outputs are unchanged. |
| BlockBuilder.AppendLabel | cinderx/Jit/lir/block_builder.cpp:57-59 | The label's block, new or existing, becomes current and is recorded. A new block is added only for a new label. |
| BlockBuilder.AddSuccessor | cinderx/Jit/lir/block_builder.cpp:45-50 | Adding an edge appends the target to the source's successors and the source to the target's predecessors. All instructions, all other edge lists and all other blocks are unchanged. |
| BlockBuilder.AddSuccessorKeepsEdgesMatch | cinderx/Jit/lir/block_builder.cpp:45-50 | Adding an edge keeps every edge recorded as often at its source as at its target, so a well-linked function stays well linked. |
| BlockBuilder.GetDefInstr | cinderx/Jit/lir/block_builder.cpp:76-94 | Returns the register's recorded definition if it has one. Otherwise it returns the definition recorded for the end of its copy-propagation chain, and nothing for an unrecorded register with no copy. |
| BlockBuilder.DefOfRecorded | cinderx/Jit/lir/block_builder.cpp:76-94 | A definition that is found is one recorded in the output map. A register with its own entry gets exactly that entry. |
| BlockBuilder.CreateInstrOutput | cinderx/Jit/lir/block_builder.cpp:102-113 | A new destination is bound to the instruction. A destination already bound keeps its first definition and the call reports a non-SSA output. No other binding changes. |
| BlockBuilder.CreateInstrOutputThenLookup | cinderx/Jit/lir/block_builder.cpp:76-113 | After an output is recorded, looking up its register yields that instruction, and recording it again is refused. |
| BlockBuilder.CreateOutputsSsa | cinderx/Jit/lir/block_builder.cpp:102-113 | A sequence of outputs is accepted iff every destination is new and the destinations are pairwise distinct (SSA form). |
| BlockBuilder.MakeDeoptMetadata | cinderx/Jit/lir/block_builder.cpp:23-35 | Fails without a current HIR instruction or if it cannot deoptimize. Otherwise it returns the cached index, or appends the instruction's metadata, caches its index and returns it. |
| BlockBuilder.MakeDeoptMetadataCached | cinderx/Jit/lir/block_builder.cpp:23-35 | For one HIR instruction, repeated requests return the same metadata index and add nothing. |
| BlockBuilder.SetBlockSection | cinderx/Jit/lir/block_builder.cpp:115-123 | The label's block, allocated if unknown, gets the section. Every other block is unchanged. |
| ModuleTable.DeclareClass | Lib/compiler/static/module_table.py:201-203 | The class is bound under its name and a declaration is recorded. Other names keep their bindings. |
| ModuleTable.DeclareFunction | Lib/compiler/static/module_table.py:205-220 | Fails iff the name is bound to something other than a function or group. An unbound name gets the function; a function becomes a group of both; a group gets the function appended. Exactly one declaration is recorded. |
| ModuleTable.DeclareFunctionsGroups | Lib/compiler/static/module_table.py:205-220 | Overloads declared under a fresh name end as the single function, or as one group holding all of them in declaration order. |
| ModuleTable.GroupAppends | Lib/compiler/static/module_table.py:205-220 | Further overloads of a grouped name are appended to the same group in order. |
| ModuleTable.DeclareVariable | Lib/compiler/static/module_table.py:345-346 | Records an unnamed declaration and binds nothing. |
| ModuleTable.FinishDecl | Lib/compiler/static/module_table.py:229-237 | A member that finishes to nothing is deleted; deleting an unbound name is a `KeyError`. A member that finishes to a different object is re-bound; one that finishes to itself leaves the table unchanged. Other names are untouched. |
| ModuleTable.FinishBind | Lib/compiler/static/module_table.py:227-237 | On success the first pass is marked done and the declarations are cleared. Nothing else but the bindings changes. |
| ModuleTable.FinishDeclsFrame | Lib/compiler/static/module_table.py:227-237 | Finishing leaves every name that no declaration mentions bound exactly as before. |
| ModuleTable.FinishDeclsIdentity | Lib/compiler/static/module_table.py:227-237 | When every member finishes to itself, finishing succeeds and leaves the bindings unchanged. |
| ModuleTable.FinishDeclsSkipsUnbound | Lib/compiler/static/module_table.py:229-237 | Re-binding members passes over a declaration that bound no member, as `declare_variable` records: appending one changes neither the outcome nor the bindings. |
| ModuleTable.ResolveAnnotation | Lib/compiler/static/module_table.py:305-315 | Resolving an annotation fails with an assertion error iff the first pass is not done; otherwise it returns the visitor's answer. |
| ModuleTable.FinishBindEnablesAnnotations | Lib/compiler/static/module_table.py:227-315 | After a successful `finish_bind`, annotations always resolve. |
| ModuleTable.ResolveNameWithDescr | Lib/compiler/static/module_table.py:317-324 | A name in the module resolves to its member with the descriptor (module, name). Otherwise a builtin resolves without a descriptor, and any other name to nothing. |
| ModuleTable.ResolveName | Lib/compiler/static/module_table.py:326-327 | A name resolves iff it is bound in the module or among the builtins; the module takes precedence. |
| ModuleTable.DeclareClassResolves | Lib/compiler/static/module_table.py:201-203 | A declared class resolves by its name to itself with its descriptor. Every other name resolves as before. |
| ModuleTable.GetFinalLiteral | Lib/compiler/static/module_table.py:329-343 | A literal is returned iff the node is a loaded name with a recorded `Final` literal that the local scope does not shadow. It is that literal. |
| ModuleTable.DeclarationsKeepFinalLiterals | Lib/compiler/static/module_table.py:201-220 | Declaring a class, a function or a variable leaves every `Final` literal lookup answering as before. |
| Scopes.FromScopes | StrictModules/scope.h:104-108 | The stack holds the given scopes and no current class. |
| Scopes.FromTop | StrictModules/scope.h:110-128 | The stack holds only the top scope and no current class. |
| Scopes.CurrentScope | StrictModules/scope.h:200-202 | The current scope is the last one pushed. |
| Scopes.PopPush | StrictModules/scope.h:151-152 | Pushing and then popping restores the stack, and the pushed scope is current in between. |
| Scopes.SetThenGetCurrentClass | StrictModules/scope.h:168-173 | The class that was set is the one read back, and setting the old class back restores the stack. |
| Scopes.MangleName | StrictModules/scope.h:174-179 | Outside a class the name is unchanged; inside a class it is mangled with that class. |
| Scopes.SplitJoin | StrictModules/scope.h:185-194 | Dot-joining names without dots can be undone by splitting at the dots, so the qualified name determines the scope names. |
| Scopes.JoinDotEnds | StrictModules/scope.h:185-194 | A qualified name of nonempty names neither starts nor ends with a dot. |
| Scopes.GetQualifiedScopeName | StrictModules/scope.h:185-194 | Returns the names of all scopes but the first, in order, joined by dots. |
| Scopes.QualifiedNameOfTop | StrictModules/scope.h:185-194 | A stack holding only the top scope has an empty qualified name. |
| Scopes.Enter | StrictModules/scope.h:224-233 | Entering pushes the scope and makes it current. A given class replaces the current class; without one the current class is kept. The manager remembers the previous class. |
| Scopes.Exit | StrictModules/scope.h:235-238 | Leaving pops the scope and restores the class that was current on entry. |
| Scopes.EnterExit | StrictModules/scope.h:224-238 | Entering then leaving a scope restores the stack exactly. |
| Scopes.MangleAcrossEnterExit | StrictModules/scope.h:224-238 | Inside a scope entered with a class, names are mangled with that class; a scope entered without one mangles as its parent did; once the scope is left, names are mangled as before it was entered. |
| Scopes.EnterAllExitAll | StrictModules/scope.h:224-238 | Any nest of scope entries, left in reverse order, restores the stack exactly. |
| Scopes.ExitAllLength | StrictModules/scope.h:235-238 | Leaving k scopes shortens the stack by k. |

## Left out

- Symbol lookup through `dladdr` and parsing LIR text from a file (inliner.cpp:152-197) are modelled as two maps: an address-to-name table and a name-to-function library. The parse cache is a value that is passed in and returned.
- The mutex that guards the parse cache is not modelled: the model is single-threaded.
- `createInstr`, `createInstrInput` and instruction allocation (block_builder.cpp:61-63, 96-100) only forward to the LIR API. They are not modelled separately; `GetDefInstr` covers their lookup.
- The output's virtual-register flag and its data type, from `hirTypeToDataType` (block_builder.cpp:110-112), are not modelled: the HIR type system is not part of this model.
- `DeoptMetadata::fromInstr` and `addDeoptMetadata` are modelled as appending the current HIR instruction to a list. The list index is the id they return. Clearing the cached id when the HIR instruction changes happens outside this file and is not modelled.
- The `AnnAssign` half of `finish_bind` (module_table.py:239-268) is not modelled: it needs the annotation visitor and the class hierarchy. `finish_decorator`, `resolve_type` and `resolve_decorator` are not modelled either. Each member's own `finish_bind` is a function parameter.
- ModuleTable.FinishBind: leaves the recorded `Final` literals unchanged only because the `AnnAssign` half, which records them at module_table.py:268, is not modelled; no lemma claims `finish_bind` keeps them.
- ModuleTable.FinishDeclsSkipsUnbound: covers only the member re-binding loop (module_table.py:229-237). The `AnnAssign` half handles the unnamed declarations that `declare_variable` records, and it is not modelled.
- `declare_variables` (module_table.py:348-349) does nothing and has no model.
- `mangle` is a function parameter of `Scopes.MangleName`, because its definition is outside scope.h.
- The scope stack's symbol table, scope factory, variable maps (`set`, `at`, `erase`, `clear`), `getFunctionScope` and `enterScopeByAst` are not modelled. A scope is represented by its name only.
- `push` and `pop` are declared at scope.h:151-152 but their bodies are not part of this model. They are modelled as appending and removing the last scope.
- The layout position of new blocks is not modelled. The split-off tail and the copied callee blocks are appended at the end of the arena, not placed after the split block.
- The two `JIT_DCHECK`s of `resolveLoadArg` are not modelled as checks; the model proves they cannot fire. The one at inliner.cpp:226-228 (the `LoadArg` has an immediate first input) is the requires `LoadArgWellIndexed` of `Inliner.ResolveLoadArg`, which `checkLoadArg` establishes. The one at inliner.cpp:244-245 (a non-immediate argument is linked) is its requires `IsImmOrVreg`, which `checkArguments` establishes (`ArgsImmOrVreg`).
- `Inliner.MergeReturnsOnce` and `Inliner.ResolveReturnValueOnce` assume no block that ends in a `Return` is listed twice among the exit's predecessors; blocks without a `Return` may repeat. `Inliner.CalleeReturnsOnce` proves this for every well-linked callee that passes `checkEntryExitReturn`. For a list that breaks it, the second visit sees the block after its `Return` was removed; `Inliner.MergeReturnsTrims`, `Inliner.MergeReturnsFrame` and `Inliner.MergeReturnsExtends` still cover that case.
- `Inliner.InlineCall` requires every function in the library and the parse cache to be well linked (`Lir.WellLinked`), which the model's arena representation does not enforce by itself; in the source every edge is made by `addSuccessor`, which records it at both ends.
- `Inliner.Splice` and `Inliner.InlineCall` state the content of the copied blocks through `ResolvedCopyBlock`, which resolves the copies with `Inliner.ResolveBlocks`, and not through the reference semantics of resolution directly. `Inliner.ResolveRangeIsResolveBlocks` ties `ResolveBlocks` to the range resolution of `Inliner.ResolveArguments`, and `Inliner.ResolveArgumentsMatchesReference` ties that to the reference; no single lemma composes the two.
- `Inliner.ResolveCopy` is resolution as the splice applies it: it requires that the blocks it resolves are the copy of a callee (`Lir.CopiesAt`), so that it can say what each block becomes. `Inliner.ResolveArguments` is the same resolution over any range of blocks.
- `BlockBuilder.GetDefInstr` requires a rank on the copy-propagation map that decreases along every link (`Ranked`), so the map has no cycle. The loop at block_builder.cpp:83-86 would never end on a cyclic chain, and the model does not describe that. The requires also rules out cycles the register's own chain never reaches, and it is demanded even when the register has its own output entry and the source returns at once.
- `isVreg()` in `checkArguments` (inliner.cpp:109) is modelled as the operand being `Linked`, the only operand form that names a virtual register in this model (`Inliner.IsImmOrVreg`).
- The walrus tests in `resolve_name_with_descr` (module_table.py:320-322) use the truthiness of the value found. The model tests membership (`name in t.children`): members are modelled as always truthy, so a bound member that is falsy is not modelled.

=== FILE: block_builder.dfy ===
/** The LIR basic-block builder: the state kept while a function is lowered
    from the higher-level IR one instruction at a time. Blocks are found by
    name, appended in order and linked to the block before them; producers
    of higher-level registers are found through the output map and the copy
    propagation chain; deoptimization records are made once per lowered
    instruction. */
module BlockBuilder {
  import opened Wrappers
  import opened Lir

  type Label = string

  /** A register of the higher-level IR, by identity. */
  type HirReg = nat

  /** The higher-level instruction being lowered. Whether it can deoptimize
      is all the builder asks of it. */
  datatype HirInstr = HirInstr(id: nat, canDeopt: bool)

  /** The builder together with the parts of its environment it reads and
      writes: the output map, the copy propagation map and the runtime's
      deoptimization record list. */
  datatype Builder = Builder(
    func: Function,                  // the function being built
    labels: map<Label, BlockId>,     // every block handed out for a name
    cur: BlockId,                    // the current block
    bbs: seq<BlockId>,               // the blocks in the order they were entered
    outputMap: map<HirReg, InstrId>, // the LIR instruction producing each register
    copyMap: map<HirReg, HirReg>,    // register copied from register
    curHir: Option<HirInstr>,        // the instruction being lowered, if any
    curDeopt: Option<nat>,           // its deoptimization record, once made
    deopts: seq<HirInstr>)           // the runtime's records, by handle

  /** Every block the builder names is a block of the function. */
  predicate Valid(b: Builder)
  {
    && b.cur < |b.func.blocks|
    && LabelsInRange(b)
    && (forall k :: 0 <= k < |b.bbs| ==> b.bbs[k] < |b.func.blocks|)
    && EdgesInRange(b.func)
    && (b.curDeopt.Some? ==> b.curDeopt.value < |b.deopts|)
  }

  /** Every block bound to a label is a block of the function. */
  predicate LabelsInRange(b: Builder)
  {
    forall l :: l in b.labels ==> b.labels[l] < |b.func.blocks|
  }

  /** No block has more than two successors. */
  predicate AtMostTwoSuccessors(f: Function)
  {
    forall j :: 0 <= j < |f.blocks| ==> |f.blocks[j].succs| <= 2
  }

  // -------------------------------------------------------------------------
  // Blocks by name

  /** The block bound to `name`, allocating an empty one at the end of the
      function and binding it when the name is new. */
  function AllocateBlock(b: Builder, name: Label): (r: (Builder, BlockId))
    ensures name in r.0.labels && r.0.labels == b.labels[name := r.1]
    ensures name in b.labels ==> r == (b, b.labels[name])
    ensures name !in b.labels ==>
              && r.0.func.blocks == b.func.blocks + [EmptyBlock()]
              && r.1 == |b.func.blocks|
              && r.0 == b.(func := r.0.func, labels := r.0.labels)
    ensures LabelsInRange(b) ==> LabelsInRange(r.0) && r.1 < |r.0.func.blocks|
    ensures Valid(b) ==> Valid(r.0)
  {
    if name in b.labels then (b, b.labels[name])
    else
      var id := |b.func.blocks|;
      var f := Function(b.func.blocks + [EmptyBlock()]);
      assert forall j :: 0 <= j < id ==> f.blocks[j] == b.func.blocks[j];
      (b.(func := f, labels := b.labels[name := id]), id)
  }

  /** Asking twice for the same name gives the same block and changes
      nothing the second time. */
  lemma AllocateBlockIdempotent(b: Builder, name: Label)
    ensures var (b1, id1) := AllocateBlock(b, name);
            AllocateBlock(b1, name) == (b1, id1)
  {
  }

  /** The same lookup written as a find followed by an insert. */
  function GetBasicBlockByLabel(b: Builder, name: Label): (r: (Builder, BlockId))
  {
    match Find(b.labels, name)
    case None =>
      var id := |b.func.blocks|;
      (b.(func := Function(b.func.blocks + [EmptyBlock()]), labels := b.labels[name := id]), id)
    case Some(id) => (b, id)
  }

  function Find(m: map<Label, BlockId>, name: Label): (r: Option<BlockId>)
    ensures r.Some? <==> name in m
    ensures r.Some? ==> r.value == m[name]
  {
    if name in m then Some(m[name]) else None
  }

  /** Both name lookups share one map and behave the same on every input:
      neither ever comes back without a block. */
  lemma GetBasicBlockByLabelIsAllocateBlock(b: Builder, name: Label)
    ensures GetBasicBlockByLabel(b, name) == AllocateBlock(b, name)
  {
  }

  /** Allocating for a list of labels in turn. */
  function AllocateAll(b: Builder, ls: seq<Label>): (r: Builder)
    decreases |ls|
  {
    if |ls| == 0 then b else AllocateAll(AllocateBlock(b, ls[0]).0, ls[1..])
  }

  /** The labels of `ls` that `m` does not bind yet. */
  function NewLabels(m: map<Label, BlockId>, ls: seq<Label>): set<Label>
  {
    set l | l in ls && l !in m
  }

  /** Allocation for a list of labels grows the function by exactly one block
      per name not bound before, however often each name is repeated. */
  lemma {:induction false} AllocateAllCount(b: Builder, ls: seq<Label>)
    ensures |AllocateAll(b, ls).func.blocks| == |b.func.blocks| + |NewLabels(b.labels, ls)|
    ensures forall l :: l in ls ==> l in AllocateAll(b, ls).labels
    ensures forall l :: l in b.labels ==> l in AllocateAll(b, ls).labels
    decreases |ls|
  {
    if |ls| > 0 {
      var b1 := AllocateBlock(b, ls[0]).0;
      AllocateAllCount(b1, ls[1..]);
      var rest := NewLabels(b1.labels, ls[1..]);
      assert forall l :: l in ls ==> l == ls[0] || l in ls[1..];
      if ls[0] in b.labels {
        assert NewLabels(b.labels, ls) == rest;
      } else {
        assert NewLabels(b.labels, ls) == rest + {ls[0]};
        assert ls[0] !in rest;
      }
    }
  }

  // -------------------------------------------------------------------------
  // Appending blocks

  /** The edge `from -> to`, recorded on both ends. */
  function AddSuccessor(f: Function, from: BlockId, to: BlockId): (r: Function)
    requires from < |f.blocks| && to < |f.blocks|
    ensures |r.blocks| == |f.blocks|
    ensures r.blocks[from].succs == f.blocks[from].succs + [to]
    ensures r.blocks[to].preds == f.blocks[to].preds + [from]
    ensures forall j :: 0 <= j < |f.blocks| ==> r.blocks[j].instrs == f.blocks[j].instrs
    ensures forall j :: 0 <= j < |f.blocks| && j != from ==> r.blocks[j].succs == f.blocks[j].succs
    ensures forall j :: 0 <= j < |f.blocks| && j != to ==> r.blocks[j].preds == f.blocks[j].preds
    ensures forall j :: 0 <= j < |f.blocks| && j != from && j != to ==> r.blocks[j] == f.blocks[j]
    ensures EdgesInRange(f) ==> EdgesInRange(r)
  {
    var g := f.blocks[from := f.blocks[from].(succs := f.blocks[from].succs + [to])];
    Function(g[to := g[to].(preds := g[to].preds + [from])])
  }

  /** An edge recorded at both ends keeps every edge counted equally often
      at its two ends. */
  lemma AddSuccessorKeepsEdgesMatch(f: Function, from: BlockId, to: BlockId)
    requires from < |f.blocks| && to < |f.blocks|
    requires EdgesMatch(f)
    ensures WellLinked(f) ==> WellLinked(AddSuccessor(f, from, to))
    ensures EdgesMatch(AddSuccessor(f, from, to))
  {
    var r := AddSuccessor(f, from, to);
    forall j, p | 0 <= j < |r.blocks| && 0 <= p < |r.blocks|
      ensures multiset(r.blocks[j].preds)[p] == multiset(r.blocks[p].succs)[j]
    {
      assert multiset(f.blocks[j].preds)[p] == multiset(f.blocks[p].succs)[j];
    }
  }

  /** Makes `block` current and records it in the block order. */
  function SwitchBlock(b: Builder, block: BlockId): (r: Builder)
    ensures r.cur == block && r.bbs == b.bbs + [block]
    ensures r.func == b.func && r.labels == b.labels && r.outputMap == b.outputMap
  {
    b.(bbs := b.bbs + [block], cur := block)
  }

  /** Links the current block to `block` unless it already has two
      successors, then switches to `block`. */
  function AppendBlock(b: Builder, block: BlockId): (r: Builder)
    requires Valid(b) && block < |b.func.blocks|
    ensures Valid(r) && r.cur == block && r.bbs == b.bbs + [block]
    ensures |r.func.blocks| == |b.func.blocks| && r.labels == b.labels
    ensures forall j :: 0 <= j < |b.func.blocks| ==> r.func.blocks[j].instrs == b.func.blocks[j].instrs
    ensures |b.func.blocks[b.cur].succs| < 2 ==> r.func == AddSuccessor(b.func, b.cur, block)
    ensures |b.func.blocks[b.cur].succs| < 2 ==>
              r.func.blocks[b.cur].succs == b.func.blocks[b.cur].succs + [block] &&
              r.func.blocks[block].preds == b.func.blocks[block].preds + [b.cur]
    ensures |b.func.blocks[b.cur].succs| >= 2 ==> r.func == b.func
  {
    var f := if |b.func.blocks[b.cur].succs| < 2 then AddSuccessor(b.func, b.cur, block) else b.func;
    SwitchBlock(b.(func := f), block)
  }

  /** Appending never gives a block a third successor. */
  lemma AppendBlockKeepsBranchLimit(b: Builder, block: BlockId)
    requires Valid(b) && block < |b.func.blocks|
    requires AtMostTwoSuccessors(b.func)
    ensures AtMostTwoSuccessors(AppendBlock(b, block).func)
  {
    var r := AppendBlock(b, block);
    forall j | 0 <= j < |r.func.blocks|
      ensures |r.func.blocks[j].succs| <= 2
    {
      if |b.func.blocks[b.cur].succs| < 2 && j != b.cur {
        assert r.func.blocks[j].succs == b.func.blocks[j].succs;
      }
    }
  }

  /** The block for name `s`, allocated if new, appended and made current. */
  function AppendLabel(b: Builder, s: Label): (r: Builder)
    requires Valid(b)
    ensures Valid(r) && s in r.labels && r.cur == r.labels[s]
    ensures r.bbs == b.bbs + [r.labels[s]]
    ensures s in b.labels ==> r.labels == b.labels && |r.func.blocks| == |b.func.blocks|
    ensures s !in b.labels ==> |r.func.blocks| == |b.func.blocks| + 1 && r.cur == |b.func.blocks|
  {
    var (b1, block) := AllocateBlock(b, s);
    AppendBlock(b1, block)
  }

  // -------------------------------------------------------------------------
  // Def lookup

  /** `rank` strictly decreases along every copy link that stays inside the
      copy map: the map has no cycle, so every chain ends. */
  predicate Ranked(cm: map<HirReg, HirReg>, rank: map<HirReg, nat>)
  {
    forall r :: r in cm ==> r in rank && (cm[r] in cm ==> cm[r] in rank && rank[cm[r]] < rank[r])
  }

  /** The register at the end of the copy chain that starts at `x`. */
  function ChainEnd(cm: map<HirReg, HirReg>, rank: map<HirReg, nat>, x: HirReg): (r: HirReg)
    requires Ranked(cm, rank)
    ensures r !in cm
    ensures x !in cm ==> r == x
    decreases if x in cm then rank[x] + 1 else 0
  {
    if x in cm then ChainEnd(cm, rank, cm[x]) else x
  }

  /** The producer of `reg`: its own entry in the output map, else, when
      `reg` was copied, the entry of the register the chain ends at. */
  function DefOf(out: map<HirReg, InstrId>, cm: map<HirReg, HirReg>, rank: map<HirReg, nat>, reg: HirReg): (r: Option<InstrId>)
    requires Ranked(cm, rank)
  {
    if reg in out then Some(out[reg])
    else if reg in cm && ChainEnd(cm, rank, reg) in out then Some(out[ChainEnd(cm, rank, reg)])
    else None
  }

  /** A lookup finds a producer only in the output map, and finds the
      register's own producer whenever it is recorded. */
  lemma DefOfRecorded(out: map<HirReg, InstrId>, cm: map<HirReg, HirReg>, rank: map<HirReg, nat>, reg: HirReg)
    requires Ranked(cm, rank)
    ensures DefOf(out, cm, rank, reg).Some? ==> DefOf(out, cm, rank, reg).value in out.Values
    ensures reg in out ==> DefOf(out, cm, rank, reg) == Some(out[reg])
    ensures reg !in out && reg !in cm ==> DefOf(out, cm, rank, reg).None?
  {
  }

  /** The producer lookup: the output map first; failing that, the copy
      chain is walked to its end and only the last register is looked up. */
  method GetDefInstr(b: Builder, reg: HirReg, ghost rank: map<HirReg, nat>) returns (d: Option<InstrId>)
    requires Ranked(b.copyMap, rank)
    ensures d == DefOf(b.outputMap, b.copyMap, rank, reg)
  {
    if reg in b.outputMap {
      return Some(b.outputMap[reg]);
    }
    var defReg: Option<HirReg> := None;
    var x := reg;
    while x in b.copyMap
      invariant defReg.None? ==> x == reg
      invariant defReg.Some? ==> defReg.value == x && reg in b.copyMap
      invariant ChainEnd(b.copyMap, rank, x) == ChainEnd(b.copyMap, rank, reg)
      decreases if x in b.copyMap then rank[x] + 1 else 0
    {
      x := b.copyMap[x];
      defReg := Some(x);
    }
    d := None;
    if defReg.Some? && defReg.value in b.outputMap {
      d := Some(b.outputMap[defReg.value]);
    }
  }

  /** Records `instr` as the producer of `dst`. The second result is false
      when `dst` already had a producer, which breaks SSA form: the source
      reports it in debug builds, and the map keeps its first entry. */
  function CreateInstrOutput(b: Builder, instr: InstrId, dst: HirReg): (r: (Builder, bool))
    ensures r.1 <==> dst !in b.outputMap
    ensures dst in r.0.outputMap && r.0.outputMap[dst] == (if r.1 then instr else b.outputMap[dst])
    ensures forall x :: x != dst ==> (x in r.0.outputMap <==> x in b.outputMap)
    ensures forall x :: x in b.outputMap ==> x in r.0.outputMap && r.0.outputMap[x] == b.outputMap[x]
    ensures r.0 == b.(outputMap := r.0.outputMap)
  {
    if dst in b.outputMap then (b, false)
    else (b.(outputMap := b.outputMap[dst := instr]), true)
  }

  /** Once an output is registered, the producer lookup for that register
      yields it, and registering the register again fails and changes
      nothing. */
  lemma CreateInstrOutputThenLookup(b: Builder, instr: InstrId, dst: HirReg, rank: map<HirReg, nat>)
    requires Ranked(b.copyMap, rank)
    requires dst !in b.outputMap
    ensures var b1 := CreateInstrOutput(b, instr, dst).0;
            && DefOf(b1.outputMap, b1.copyMap, rank, dst) == Some(instr)
            && forall other: InstrId :: CreateInstrOutput(b1, other, dst) == (b1, false)
  {
  }

  /** Registers outputs for a list of destinations in order. */
  function CreateOutputs(b: Builder, outs: seq<(InstrId, HirReg)>): (r: (Builder, bool))
    decreases |outs|
  {
    if |outs| == 0 then (b, true)
    else
      var (b1, ok1) := CreateInstrOutput(b, outs[0].0, outs[0].1);
      var (b2, ok2) := CreateOutputs(b1, outs[1..]);
      (b2, ok1 && ok2)
  }

  /** Registering outputs succeeds throughout exactly when the destinations
      are distinct and none was registered before: the SSA condition. */
  lemma {:induction false} CreateOutputsSsa(b: Builder, outs: seq<(InstrId, HirReg)>)
    ensures CreateOutputs(b, outs).1 <==>
              (forall i :: 0 <= i < |outs| ==> outs[i].1 !in b.outputMap) &&
              (forall i, j :: 0 <= i < j < |outs| ==> outs[i].1 != outs[j].1)
    decreases |outs|
  {
    if |outs| > 0 {
      var b1 := CreateInstrOutput(b, outs[0].0, outs[0].1).0;
      CreateOutputsSsa(b1, outs[1..]);
      var tl := outs[1..];
      assert forall i :: 1 <= i < |outs| ==> outs[i] == tl[i - 1];
      if (forall i :: 0 <= i < |outs| ==> outs[i].1 !in b.outputMap) &&
         (forall i, j :: 0 <= i < j < |outs| ==> outs[i].1 != outs[j].1) {
        forall i | 0 <= i < |tl|
          ensures tl[i].1 !in b1.outputMap
        {
          assert tl[i] == outs[i + 1];
        }
        forall i, j | 0 <= i < j < |tl|
          ensures tl[i].1 != tl[j].1
        {
          assert tl[i] == outs[i + 1] && tl[j] == outs[j + 1];
        }
      }
      if CreateOutputs(b, outs).1 {
        forall i | 0 <= i < |outs|
          ensures outs[i].1 !in b.outputMap
        {
          if i > 0 {
            assert tl[i - 1].1 !in b1.outputMap;
          }
        }
        forall i, j | 0 <= i < j < |outs|
          ensures outs[i].1 != outs[j].1
        {
          if i > 0 {
            assert tl[i - 1].1 != tl[j - 1].1;
          } else {
            assert tl[j - 1].1 !in b1.outputMap;
          }
        }
      }
    }
  }

  // -------------------------------------------------------------------------
  // Deoptimization records and sections

  datatype DeoptError =
    | NoCurrentInstr  // nothing is being lowered
    | CannotDeopt     // the instruction being lowered cannot deoptimize

  /** The handle of the current instruction's deoptimization record: made and
      registered on the first request, reused afterwards. Registration
      appends to the runtime's list and answers with the new position. */
  function MakeDeoptMetadata(b: Builder): (r: Result<(Builder, nat), DeoptError>)
    ensures r.Success? <==> b.curHir.Some? && b.curHir.value.canDeopt
    ensures b.curHir.None? ==> r == Failure(NoCurrentInstr)
    ensures b.curHir.Some? && !b.curHir.value.canDeopt ==> r == Failure(CannotDeopt)
    ensures r.Success? ==> r.value.0.curDeopt == Some(r.value.1)
    ensures r.Success? && b.curDeopt.Some? ==> r.value == (b, b.curDeopt.value)
    ensures r.Success? && b.curDeopt.None? ==>
              && r.value.0.deopts == b.deopts + [b.curHir.value]
              && r.value.1 == |b.deopts|
              && r.value.0.deopts[r.value.1] == b.curHir.value
              && r.value.0 == b.(curDeopt := r.value.0.curDeopt, deopts := r.value.0.deopts)
    ensures r.Success? && Valid(b) ==> Valid(r.value.0)
  {
    match b.curHir
    case None => Failure(NoCurrentInstr)
    case Some(h) =>
      if !h.canDeopt then Failure(CannotDeopt)
      else if b.curDeopt.Some? then Success((b, b.curDeopt.value))
      else
        var id := |b.deopts|;
        Success((b.(curDeopt := Some(id), deopts := b.deopts + [h]), id))
  }

  /** A second request gives the same handle and registers nothing. */
  lemma MakeDeoptMetadataCached(b: Builder)
    requires MakeDeoptMetadata(b).Success?
    ensures var (b1, id) := MakeDeoptMetadata(b).value;
            MakeDeoptMetadata(b1) == Success((b1, id))
  {
  }

  /** Puts the block bound to `name` in `section`, allocating the block
      first when the name is new: the lookup never fails, so the source's
      early return for a missing block is never taken. */
  function SetBlockSection(b: Builder, name: Label, section: Section): (r: Builder)
    requires LabelsInRange(b)
    ensures name in r.labels && r.labels == AllocateBlock(b, name).0.labels
    ensures |r.func.blocks| == |AllocateBlock(b, name).0.func.blocks|
    ensures r.labels[name] < |r.func.blocks|
    ensures r.func.blocks[r.labels[name]] == AllocateBlock(b, name).0.func.blocks[r.labels[name]].(section := section)
    ensures forall j :: 0 <= j < |r.func.blocks| && j != r.labels[name] ==>
              r.func.blocks[j] == AllocateBlock(b, name).0.func.blocks[j]
    ensures Valid(b) ==> Valid(r)
  {
    GetBasicBlockByLabelIsAllocateBlock(b, name);
    var (b1, block) := GetBasicBlockByLabel(b, name);
    b1.(func := Function(b1.func.blocks[block := b1.func.blocks[block].(section := section)]))
  }
}

=== FILE: inliner.dfy ===
/** The LIR call inliner: find the callee of a call instruction, check that
    its shape can be spliced in, split the caller at the call, copy the
    callee between the two halves, turn LoadArg pseudo-instructions into
    direct value flow and merge the callee's returns into one phi that the
    call instruction then reads. All checks run before the first change to
    the caller, so a refused call leaves the caller as it was. */
module Inliner {
  import opened Wrappers
  import opened Lir

  // -------------------------------------------------------------------------
  // Callee lookup

  /** Parsed helper functions by name, filled lazily and never invalidated. */
  type Cache = map<string, Function>

  /** `m2` keeps every binding of `m1`. */
  predicate Extends<K, V(==)>(m1: map<K, V>, m2: map<K, V>)
  {
    forall k :: k in m1 ==> k in m2 && m2[k] == m1[k]
  }

  /** The callee named `name`: the cached function if there is one; otherwise
      the parse of the helper file, which `library` holds for every name that
      has a readable file, and which is then cached. */
  function ParseFunction(name: string, library: map<string, Function>, cache: Cache): (r: (Option<Function>, Cache))
    ensures Extends(cache, r.1) && r.1.Keys <= cache.Keys + {name}
    ensures r.0.Some? <==> name in cache || name in library
    ensures r.0.Some? ==> name in r.1 && r.1[name] == r.0.value
    ensures r.0.None? ==> r.1 == cache
    ensures name in cache ==> r.1 == cache
    ensures name !in cache && name in library ==> r.0 == Some(library[name])
  {
    if name in cache then (Some(cache[name]), cache)
    else if name !in library then (None, cache)
    else (Some(library[name]), cache[name := library[name]])
  }

  /** A second lookup of a name that was found returns the very same function
      and leaves the cache alone, whatever the helper file now holds. */
  lemma ParseFunctionIsCached(name: string, library: map<string, Function>, later: map<string, Function>, cache: Cache)
    requires ParseFunction(name, library, cache).0.Some?
    ensures var (f1, c1) := ParseFunction(name, library, cache);
            ParseFunction(name, later, c1) == (f1, c1)
  {
  }

  /** The callee of `call`: its first input must be an immediate address that
      `symbols` (the dynamic linker's address-to-symbol table) names. */
  function FindFunction(call: Instr, symbols: map<U64, string>, library: map<string, Function>, cache: Cache)
    : (r: (Option<Function>, Cache))
    ensures Extends(cache, r.1)
    ensures r.0.None? ==> r.1 == cache
    ensures r.0.Some? ==> |call.inputs| >= 1 && call.inputs[0].Imm? && call.inputs[0].value in symbols
    ensures !(|call.inputs| >= 1 && call.inputs[0].Imm?) ==> r == (None, cache)
    ensures |call.inputs| >= 1 && call.inputs[0].Imm? && call.inputs[0].value in symbols ==>
              r == ParseFunction(symbols[call.inputs[0].value], library, cache)
  {
    if |call.inputs| < 1 then (None, cache)
    else
      var dest := call.inputs[0];
      if !dest.Imm? then (None, cache)
      else if dest.value !in symbols then (None, cache)
      else ParseFunction(symbols[dest.value], library, cache)
  }

  // -------------------------------------------------------------------------
  // Eligibility

  /** Return at position `k` of block `j` is last in its block and the block's
      only successor is the exit. */
  predicate ReturnPlacedOk(bs: seq<Block>, j: nat, k: nat)
    requires j < |bs|
  {
    k == |bs[j].instrs| - 1 && bs[j].succs == [|bs| - 1]
  }

  /** Block `j` is not a second entry or a second exit, and its Returns are
      placed correctly. */
  predicate BlockShapeOk(bs: seq<Block>, j: nat)
    requires j < |bs|
  {
    && (|bs[j].preds| == 0 ==> j == 0)
    && (|bs[j].succs| == 0 ==> j == |bs| - 1)
    && forall k :: 0 <= k < |bs[j].instrs| && bs[j].instrs[k].op == Return ==> ReturnPlacedOk(bs, j, k)
  }

  /** The callee is a single-entry single-exit graph whose Returns all flow
      straight into an empty exit block. */
  predicate EntryExitReturnOk(callee: Function)
  {
    var bs := callee.blocks;
    && |bs| > 0
    && |bs[0].preds| == 0
    && |bs[|bs| - 1].succs| == 0
    && (forall j :: 0 <= j < |bs| ==> BlockShapeOk(bs, j))
    && |bs[|bs| - 1].instrs| == 0
  }

  method CheckEntryExitReturn(callee: Function) returns (ok: bool)
    ensures ok <==> EntryExitReturnOk(callee)
  {
    var bs := callee.blocks;
    if |bs| == 0 {
      return false;
    }
    var entry, exit := 0, |bs| - 1;
    if |bs[entry].preds| != 0 {
      return false;
    }
    if |bs[exit].succs| != 0 {
      return false;
    }
    var j := 0;
    while j < |bs|
      invariant 0 <= j <= |bs|
      invariant forall j' :: 0 <= j' < j ==> BlockShapeOk(bs, j')
    {
      var bb := bs[j];
      if |bb.preds| == 0 && j != entry {
        assert !BlockShapeOk(bs, j);
        return false;
      }
      if |bb.succs| == 0 && j != exit {
        assert !BlockShapeOk(bs, j);
        return false;
      }
      var k := 0;
      while k < |bb.instrs|
        invariant 0 <= k <= |bb.instrs|
        invariant forall k' :: 0 <= k' < k && bb.instrs[k'].op == Return ==> ReturnPlacedOk(bs, j, k')
      {
        if bb.instrs[k].op == Return {
          if k != |bb.instrs| - 1 || |bb.succs| != 1 || bb.succs[0] != exit {
            assert !ReturnPlacedOk(bs, j, k);
            assert !BlockShapeOk(bs, j);
            return false;
          }
        }
        k := k + 1;
      }
      j := j + 1;
    }
    if |bs[exit].instrs| != 0 {
      return false;
    }
    return true;
  }

  /** An operand an inlined call may pass: an immediate or a virtual register
      (caller-side virtual registers are linked to their definition). */
  predicate IsImmOrVreg(o: Operand)
  {
    o.Imm? || o.Linked?
  }

  predicate ArgsImmOrVreg(args: seq<Operand>)
  {
    forall k :: 0 <= k < |args| ==> IsImmOrVreg(args[k])
  }

  /** Every input after the callee address is an immediate or a register. */
  predicate ArgumentsOk(call: Instr)
  {
    forall i :: 1 <= i < |call.inputs| ==> IsImmOrVreg(call.inputs[i])
  }

  /** The actual arguments of `call`: its inputs after the callee address. */
  function ArgumentList(call: Instr): seq<Operand>
  {
    if |call.inputs| == 0 then [] else call.inputs[1..]
  }

  method CheckArguments(call: Instr) returns (ok: bool, args: seq<Operand>)
    ensures ok <==> ArgumentsOk(call)
    ensures ok ==> args == ArgumentList(call)
    ensures ArgsImmOrVreg(args)
  {
    var n := |call.inputs|;
    args := [];
    var i := 1;
    while i < n
      invariant 1 <= i <= if n == 0 then 1 else n
      invariant |args| == i - 1
      invariant forall k :: 0 <= k < |args| ==> args[k] == call.inputs[k + 1] && IsImmOrVreg(args[k])
    {
      var input := call.inputs[i];
      if !input.Imm? && !input.Linked? {
        return false, args;
      }
      args := args + [input];
      i := i + 1;
    }
    if n > 0 {
      assert args == call.inputs[1..];
    }
    return true, args;
  }

  /** The argument count the LoadArg check compares against:
      `getNumInputs() - 1` in size_t arithmetic, so it wraps to 2^64 - 1 for
      a call without inputs. */
  function WrappedArgCount(call: Instr): nat
  {
    if |call.inputs| == 0 then U64_MAX else |call.inputs| - 1
  }

  /** A LoadArg's first input is an immediate argument index below `n`. */
  predicate LoadArgWellIndexed(i: Instr, n: nat)
  {
    |i.inputs| >= 1 && i.inputs[0].Imm? && i.inputs[0].value < n
  }

  predicate LoadArgIndicesOk(s: seq<Instr>, n: nat)
  {
    forall k :: 0 <= k < |s| && s[k].op == LoadArg ==> LoadArgWellIndexed(s[k], n)
  }

  /** No LoadArg comes after an instruction that is not a LoadArg. */
  predicate LoadArgPrefix(s: seq<Instr>)
  {
    forall i, j :: 0 <= i < j < |s| && s[j].op == LoadArg ==> s[i].op == LoadArg
  }

  /** The callee's LoadArgs open its instruction stream and each names an
      argument below `n`. */
  predicate LoadArgOk(callee: Function, n: nat)
  {
    var s := Flatten(callee.blocks);
    LoadArgPrefix(s) && LoadArgIndicesOk(s, n)
  }

  /** Scans the callee's instruction stream, block by block, while it is
      still in the LoadArg prefix. */
  method CheckLoadArg(callee: Function, call: Instr) returns (ok: bool)
    ensures ok <==> LoadArgOk(callee, WrappedArgCount(call))
  {
    var n := WrappedArgCount(call);
    var stream := Flatten(callee.blocks);
    var checkLoadArg := true;
    var k := 0;
    while k < |stream|
      invariant 0 <= k <= |stream|
      invariant forall i, j :: 0 <= i < j < k && stream[j].op == LoadArg ==> stream[i].op == LoadArg
      invariant forall j :: 0 <= j < k && stream[j].op == LoadArg ==> LoadArgWellIndexed(stream[j], n)
      invariant checkLoadArg <==> forall j :: 0 <= j < k ==> stream[j].op == LoadArg
    {
      var instr := stream[k];
      if checkLoadArg {
        if instr.op == LoadArg {
          if |instr.inputs| < 1 {
            return false;
          }
          if !instr.inputs[0].Imm? {
            return false;
          }
          if instr.inputs[0].value >= n {
            return false;
          }
        } else {
          checkLoadArg := false;
        }
      } else if instr.op == LoadArg {
        var i :| 0 <= i < k && stream[i].op != LoadArg;
        assert !LoadArgPrefix(stream);
        return false;
      }
      k := k + 1;
    }
    return true;
  }

  /** All three checks, in the order the inliner runs them. */
  predicate Inlineable(callee: Function, call: Instr)
  {
    EntryExitReturnOk(callee) && ArgumentsOk(call) && LoadArgOk(callee, WrappedArgCount(call))
  }

  // -------------------------------------------------------------------------
  // Argument resolution

  /** LoadArg output (by instruction id) to the definition of the argument it
      stands for. */
  type VregMap = map<InstrId, InstrId>

  /** `m` with `k` bound to `v` unless `k` is already bound, as `emplace` does. */
  function Emplace(m: VregMap, k: InstrId, v: InstrId): VregMap
  {
    if k in m then m else m[k := v]
  }

  /** One LoadArg: with an immediate argument it becomes a Move of that
      constant, kept in place; with a linked argument it is dropped and its
      output is bound to the argument's definition. */
  function ResolveLoadArg(i: Instr, args: seq<Operand>, m: VregMap): (r: (Option<Instr>, VregMap))
    requires i.op == LoadArg && LoadArgWellIndexed(i, |args|)
    requires IsImmOrVreg(args[i.inputs[0].value])
    ensures var a := args[i.inputs[0].value];
            && (r.0.Some? <==> a.Imm?)
            && (r.0.Some? ==> r.0.value == Instr(i.id, Move, [a] + i.inputs[1..]) && r.1 == m)
            && (r.0.None? ==> a.Linked? && i.id in r.1 && Extends(m, r.1) && r.1.Keys == m.Keys + {i.id})
            && (r.0.None? && i.id !in m ==> r.1[i.id] == a.def)
  {
    var param := args[i.inputs[0].value];
    if param.Imm? then
      (Some(Instr(i.id, Move, i.inputs[0 := Imm(param.value)])), m)
    else
      (None, Emplace(m, i.id, param.def))
  }

  function RelinkDef(d: InstrId, m: VregMap): InstrId
  {
    if d in m then m[d] else d
  }

  function RelinkReg(r: MemReg, m: VregMap): MemReg
  {
    match r
    case VReg(d) => VReg(RelinkDef(d, m))
    case PhysReg(_) => r
  }

  function RelinkOperand(o: Operand, m: VregMap): Operand
  {
    match o
    case Linked(d) => Linked(RelinkDef(d, m))
    case Ind(base, index) => Ind(RelinkReg(base, m), if index.Some? then Some(RelinkReg(index.value, m)) else None)
    case _ => o
  }

  /** The instructions an operand reads: a linked operand's definition, or
      the definitions of a memory operand's base and index registers. */
  function RegDefs(r: MemReg): set<InstrId>
  {
    if r.VReg? then {r.def} else {}
  }

  function Defs(o: Operand): set<InstrId>
  {
    match o
    case Linked(d) => {d}
    case Ind(base, index) => RegDefs(base) + (if index.Some? then RegDefs(index.value) else {})
    case _ => {}
  }

  /** `o` with every instruction reference replaced by 0: what relinking must
      not change. */
  function Skeleton(o: Operand): Operand
  {
    match o
    case Linked(_) => Linked(0)
    case Ind(base, index) =>
      Ind(if base.VReg? then VReg(0) else base,
          if index.Some? && index.value.VReg? then Some(VReg(0)) else index)
    case _ => o
  }

  /** The image of a set of definitions under the binding `m`. */
  function Image(ds: set<InstrId>, m: VregMap): set<InstrId>
  {
    set d | d in ds :: RelinkDef(d, m)
  }

  /** A non-LoadArg instruction: every linked input, and every linked base or
      index of a memory input, whose definition is bound in `m` is relinked to
      the bound definition; nothing else changes. */
  function ResolveLinkedUses(i: Instr, m: VregMap): (r: Instr)
    ensures r.id == i.id && r.op == i.op && |r.inputs| == |i.inputs|
    ensures forall k :: 0 <= k < |i.inputs| ==>
              && Skeleton(r.inputs[k]) == Skeleton(i.inputs[k])
              && Defs(r.inputs[k]) == Image(Defs(i.inputs[k]), m)
    ensures forall k :: 0 <= k < |i.inputs| && i.inputs[k].Ind? ==>
              && r.inputs[k].Ind?
              && RegDefs(r.inputs[k].base) == Image(RegDefs(i.inputs[k].base), m)
              && r.inputs[k].index.Some? == i.inputs[k].index.Some?
              && (i.inputs[k].index.Some? ==>
                    RegDefs(r.inputs[k].index.value) == Image(RegDefs(i.inputs[k].index.value), m))
    ensures forall k :: 0 <= k < |i.inputs| && Defs(i.inputs[k]) !! m.Keys ==> r.inputs[k] == i.inputs[k]
  {
    var r := Instr(i.id, i.op, seq(|i.inputs|, k requires 0 <= k < |i.inputs| => RelinkOperand(i.inputs[k], m)));
    forall k | 0 <= k < |i.inputs|
      ensures Defs(r.inputs[k]) == Image(Defs(i.inputs[k]), m)
    {
      RelinkOperandDefs(i.inputs[k], m);
    }
    forall k | 0 <= k < |i.inputs| && i.inputs[k].Ind?
      ensures RegDefs(r.inputs[k].base) == Image(RegDefs(i.inputs[k].base), m)
      ensures i.inputs[k].index.Some? ==>
                RegDefs(r.inputs[k].index.value) == Image(RegDefs(i.inputs[k].index.value), m)
    {
      RelinkRegDefs(i.inputs[k].base, m);
      if i.inputs[k].index.Some? {
        RelinkRegDefs(i.inputs[k].index.value, m);
      }
    }
    r
  }

  lemma RelinkRegDefs(x: MemReg, m: VregMap)
    ensures RegDefs(RelinkReg(x, m)) == Image(RegDefs(x), m)
  {
    if x.VReg? {
      assert Image({x.def}, m) == {RelinkDef(x.def, m)};
    }
  }

  lemma RelinkOperandDefs(o: Operand, m: VregMap)
    ensures Defs(RelinkOperand(o, m)) == Image(Defs(o), m)
  {
    match o
    case Linked(d) =>
      assert Image({d}, m) == {RelinkDef(d, m)};
    case Ind(base, index) =>
      var bd := RegDefs(base);
      var id := if index.Some? then RegDefs(index.value) else {};
      assert Image(bd + id, m) == Image(bd, m) + Image(id, m);
      assert Image(bd, m) == RegDefs(RelinkReg(base, m));
      if index.Some? {
        assert Image(id, m) == RegDefs(RelinkReg(index.value, m));
      }
    case _ =>
  }

  /** Resolves a run of instructions in program order, threading the binding
      so that it is visible to every later instruction. */
  function ResolveInstrs(s: seq<Instr>, args: seq<Operand>, m: VregMap): (r: (seq<Instr>, VregMap))
    requires ArgsImmOrVreg(args) && LoadArgIndicesOk(s, |args|)
    ensures |r.0| <= |s|
    ensures forall k :: 0 <= k < |r.0| ==> r.0[k].op != LoadArg
    ensures Extends(m, r.1)
    decreases |s|
  {
    if |s| == 0 then ([], m)
    else
      var i := s[0];
      assert LoadArgIndicesOk(s[1..], |args|) by {
        forall k | 0 <= k < |s[1..]| && s[1..][k].op == LoadArg
          ensures LoadArgWellIndexed(s[1..][k], |args|)
        {
          assert s[1..][k] == s[k + 1];
        }
      }
      if i.op == LoadArg then
        var (kept, m1) := ResolveLoadArg(i, args, m);
        var (rest, m2) := ResolveInstrs(s[1..], args, m1);
        ((if kept.Some? then [kept.value] else []) + rest, m2)
      else
        var (rest, m2) := ResolveInstrs(s[1..], args, m);
        ([ResolveLinkedUses(i, m)] + rest, m2)
  }

  /** Blocks `lo` to `hi - 1` resolved in order, one binding threaded
      through all of them. */
  function ResolveRange(bs: seq<Block>, lo: nat, hi: nat, args: seq<Operand>, m: VregMap): (r: (seq<Block>, VregMap))
    requires lo <= hi <= |bs|
    requires ArgsImmOrVreg(args)
    requires forall j :: lo <= j < hi ==> LoadArgIndicesOk(bs[j].instrs, |args|)
    ensures |r.0| == |bs|
    ensures forall j :: 0 <= j < |bs| && !(lo <= j < hi) ==> r.0[j] == bs[j]
    ensures forall j :: lo <= j < hi ==>
              r.0[j] == bs[j].(instrs := r.0[j].instrs) && |r.0[j].instrs| <= |bs[j].instrs|
    ensures forall j :: lo <= j < hi ==> NoLoadArg(r.0[j].instrs)
    ensures Extends(m, r.1)
    decreases hi - lo
  {
    if lo == hi then (bs, m)
    else
      var (out, m1) := ResolveInstrs(bs[lo].instrs, args, m);
      ResolveRange(bs[lo := bs[lo].(instrs := out)], lo + 1, hi, args, m1)
  }

  /** Argument resolution over the copied callee blocks `[begin, end)`. */
  function ResolveArguments(f: Function, begin: nat, end: nat, args: seq<Operand>): (r: Function)
    requires begin <= end <= |f.blocks|
    requires ArgsImmOrVreg(args)
    requires forall j :: begin <= j < end ==> LoadArgIndicesOk(f.blocks[j].instrs, |args|)
    ensures |r.blocks| == |f.blocks|
    ensures forall j :: 0 <= j < |f.blocks| && !(begin <= j < end) ==> r.blocks[j] == f.blocks[j]
    ensures forall j :: begin <= j < end ==>
              r.blocks[j] == f.blocks[j].(instrs := r.blocks[j].instrs) && |r.blocks[j].instrs| <= |f.blocks[j].instrs|
    ensures forall j :: begin <= j < end ==> NoLoadArg(r.blocks[j].instrs)
  {
    Function(ResolveRange(f.blocks, begin, end, args, map[]).0)
  }

  // Reference semantics of argument resolution -------------------------------

  /** The complete binding resolution builds over stream `s` from `m`: each
      LoadArg whose argument is linked binds its id, the first binding of an
      id winning. */
  function Bindings(s: seq<Instr>, args: seq<Operand>, m: VregMap): VregMap
    requires LoadArgIndicesOk(s, |args|)
    decreases |s|
  {
    if |s| == 0 then m
    else
      var i := s[0];
      assert LoadArgIndicesOk(s[1..], |args|) by {
        forall k | 0 <= k < |s[1..]| && s[1..][k].op == LoadArg
          ensures LoadArgWellIndexed(s[1..][k], |args|)
        {
          assert s[1..][k] == s[k + 1];
        }
      }
      var m1 := if i.op == LoadArg && args[i.inputs[0].value].Linked?
                then Emplace(m, i.id, args[i.inputs[0].value].def) else m;
      Bindings(s[1..], args, m1)
  }

  /** What resolution makes of one instruction once the binding is complete:
      a LoadArg of an immediate becomes a Move of it, a LoadArg of a register
      disappears, and any other instruction is relinked through `M`. */
  function RefInstr(i: Instr, args: seq<Operand>, M: VregMap): seq<Instr>
    requires i.op == LoadArg ==> LoadArgWellIndexed(i, |args|)
  {
    if i.op == LoadArg then
      var a := args[i.inputs[0].value];
      if a.Imm? then [Instr(i.id, Move, [a] + i.inputs[1..])] else []
    else [ResolveLinkedUses(i, M)]
  }

  function RefStream(s: seq<Instr>, args: seq<Operand>, M: VregMap): seq<Instr>
    requires LoadArgIndicesOk(s, |args|)
    decreases |s|
  {
    if |s| == 0 then []
    else
      assert LoadArgIndicesOk(s[1..], |args|) by {
        forall k | 0 <= k < |s[1..]| && s[1..][k].op == LoadArg
          ensures LoadArgWellIndexed(s[1..][k], |args|)
        {
          assert s[1..][k] == s[k + 1];
        }
      }
      RefInstr(s[0], args, M) + RefStream(s[1..], args, M)
  }

  predicate AllLoadArg(s: seq<Instr>)
  {
    forall k :: 0 <= k < |s| ==> s[k].op == LoadArg
  }

  predicate NoLoadArg(s: seq<Instr>)
  {
    forall k :: 0 <= k < |s| ==> s[k].op != LoadArg
  }

  lemma LoadArgIndicesOkConcat(a: seq<Instr>, b: seq<Instr>, n: nat)
    ensures LoadArgIndicesOk(a + b, n) <==> LoadArgIndicesOk(a, n) && LoadArgIndicesOk(b, n)
  {
    if LoadArgIndicesOk(a, n) && LoadArgIndicesOk(b, n) {
      forall k | 0 <= k < |a + b| && (a + b)[k].op == LoadArg
        ensures LoadArgWellIndexed((a + b)[k], n)
      {
        if k >= |a| {
          assert (a + b)[k] == b[k - |a|];
        }
      }
    }
    if LoadArgIndicesOk(a + b, n) {
      forall k | 0 <= k < |b| && b[k].op == LoadArg
        ensures LoadArgWellIndexed(b[k], n)
      {
        assert (a + b)[k + |a|] == b[k];
      }
      forall k | 0 <= k < |a| && a[k].op == LoadArg
        ensures LoadArgWellIndexed(a[k], n)
      {
        assert (a + b)[k] == a[k];
      }
    }
  }

  lemma {:induction false} LoadArgIndicesOkFlatten(bs: seq<Block>, n: nat)
    ensures LoadArgIndicesOk(Flatten(bs), n) <==> forall j :: 0 <= j < |bs| ==> LoadArgIndicesOk(bs[j].instrs, n)
  {
    if |bs| > 0 {
      LoadArgIndicesOkConcat(bs[0].instrs, Flatten(bs[1..]), n);
      LoadArgIndicesOkFlatten(bs[1..], n);
      assert forall j :: 1 <= j < |bs| ==> bs[1..][j - 1] == bs[j];
    }
  }

  lemma LoadArgPrefixConcat(a: seq<Instr>, b: seq<Instr>)
    requires LoadArgPrefix(a + b)
    ensures LoadArgPrefix(a) && LoadArgPrefix(b)
    ensures AllLoadArg(a) || NoLoadArg(b)
  {
    forall i, j | 0 <= i < j < |b| && b[j].op == LoadArg
      ensures b[i].op == LoadArg
    {
      assert (a + b)[|a| + i] == b[i] && (a + b)[|a| + j] == b[j];
    }
    forall i, j | 0 <= i < j < |a| && a[j].op == LoadArg
      ensures a[i].op == LoadArg
    {
      assert (a + b)[i] == a[i] && (a + b)[j] == a[j];
    }
    if !AllLoadArg(a) {
      var i :| 0 <= i < |a| && a[i].op != LoadArg;
      forall k | 0 <= k < |b|
        ensures b[k].op != LoadArg
      {
        assert (a + b)[i] == a[i] && (a + b)[|a| + k] == b[k];
      }
    }
  }

  lemma {:induction false} BindingsConcat(a: seq<Instr>, b: seq<Instr>, args: seq<Operand>, m: VregMap)
    requires LoadArgIndicesOk(a, |args|) && LoadArgIndicesOk(b, |args|)
    ensures LoadArgIndicesOk(a + b, |args|)
    ensures Bindings(a + b, args, m) == Bindings(b, args, Bindings(a, args, m))
    decreases |a|
  {
    LoadArgIndicesOkConcat(a, b, |args|);
    if |a| > 0 {
      assert (a + b)[1..] == a[1..] + b;
      assert (a + b)[0] == a[0];
      LoadArgIndicesOkConcat(a[..1], a[1..], |args|);
      assert a == a[..1] + a[1..];
      var m1 := if a[0].op == LoadArg && args[a[0].inputs[0].value].Linked?
                then Emplace(m, a[0].id, args[a[0].inputs[0].value].def) else m;
      BindingsConcat(a[1..], b, args, m1);
    } else {
      assert a + b == b;
    }
  }

  lemma {:induction false} BindingsNoLoadArg(s: seq<Instr>, args: seq<Operand>, m: VregMap)
    requires LoadArgIndicesOk(s, |args|) && NoLoadArg(s)
    ensures Bindings(s, args, m) == m
    decreases |s|
  {
    if |s| > 0 {
      LoadArgIndicesOkConcat(s[..1], s[1..], |args|);
      assert s == s[..1] + s[1..];
      BindingsNoLoadArg(s[1..], args, m);
    }
  }

  lemma {:induction false} RefStreamAllLoadArg(s: seq<Instr>, args: seq<Operand>, M1: VregMap, M2: VregMap)
    requires LoadArgIndicesOk(s, |args|) && AllLoadArg(s)
    ensures RefStream(s, args, M1) == RefStream(s, args, M2)
    decreases |s|
  {
    if |s| > 0 {
      LoadArgIndicesOkConcat(s[..1], s[1..], |args|);
      assert s == s[..1] + s[1..];
      RefStreamAllLoadArg(s[1..], args, M1, M2);
    }
  }

  /** On a stream whose LoadArgs form a prefix, sequential resolution equals
      resolving every instruction with the complete binding: every use of a
      LoadArg output sees its binding. */
  lemma {:induction false} ResolveInstrsMatchesReference(s: seq<Instr>, args: seq<Operand>, m: VregMap)
    requires ArgsImmOrVreg(args) && LoadArgIndicesOk(s, |args|) && LoadArgPrefix(s)
    ensures ResolveInstrs(s, args, m) == (RefStream(s, args, Bindings(s, args, m)), Bindings(s, args, m))
    decreases |s|
  {
    if |s| > 0 {
      var i := s[0];
      LoadArgIndicesOkConcat(s[..1], s[1..], |args|);
      assert s == s[..1] + s[1..];
      LoadArgPrefixConcat(s[..1], s[1..]);
      if i.op == LoadArg {
        var (kept, m1) := ResolveLoadArg(i, args, m);
        ResolveInstrsMatchesReference(s[1..], args, m1);
      } else {
        ResolveInstrsMatchesReference(s[1..], args, m);
        BindingsNoLoadArg(s[1..], args, m);
      }
    }
  }

  lemma {:induction false} ResolveRangeMatchesReference(bs: seq<Block>, lo: nat, hi: nat, args: seq<Operand>, m: VregMap)
    requires lo <= hi <= |bs|
    requires ArgsImmOrVreg(args)
    requires forall j :: lo <= j < hi ==> LoadArgIndicesOk(bs[j].instrs, |args|)
    requires LoadArgIndicesOk(Flatten(bs[lo..hi]), |args|)
    requires LoadArgPrefix(Flatten(bs[lo..hi]))
    ensures var M := Bindings(Flatten(bs[lo..hi]), args, m);
            var r := ResolveRange(bs, lo, hi, args, m);
            && r.1 == M
            && forall j :: lo <= j < hi ==> r.0[j].instrs == RefStream(bs[j].instrs, args, M)
    decreases hi - lo
  {
    if lo < hi {
      var a := bs[lo].instrs;
      var rest := Flatten(bs[lo + 1..hi]);
      assert bs[lo..hi][0] == bs[lo] && bs[lo..hi][1..] == bs[lo + 1..hi];
      assert Flatten(bs[lo..hi]) == a + rest;
      LoadArgIndicesOkConcat(a, rest, |args|);
      LoadArgPrefixConcat(a, rest);
      var (out, m1) := ResolveInstrs(a, args, m);
      ResolveInstrsMatchesReference(a, args, m);
      var bs' := bs[lo := bs[lo].(instrs := out)];
      assert bs'[lo + 1..hi] == bs[lo + 1..hi];
      ResolveRangeMatchesReference(bs', lo + 1, hi, args, m1);
      BindingsConcat(a, rest, args, m);
      var M := Bindings(Flatten(bs[lo..hi]), args, m);
      if AllLoadArg(a) {
        RefStreamAllLoadArg(a, args, m1, M);
      } else {
        BindingsNoLoadArg(rest, args, m1);
      }
    }
  }

  /** Argument resolution over `[begin, end)` agrees with the reference:
      each block becomes `RefStream` of its instructions under the binding of
      the whole range's stream. */
  lemma ResolveArgumentsMatchesReference(f: Function, begin: nat, end: nat, args: seq<Operand>)
    requires begin <= end <= |f.blocks|
    requires ArgsImmOrVreg(args)
    requires LoadArgIndicesOk(Flatten(f.blocks[begin..end]), |args|)
    requires LoadArgPrefix(Flatten(f.blocks[begin..end]))
    ensures forall j :: begin <= j < end ==> LoadArgIndicesOk(f.blocks[j].instrs, |args|)
    ensures var M := Bindings(Flatten(f.blocks[begin..end]), args, map[]);
            forall j :: begin <= j < end ==>
              ResolveArguments(f, begin, end, args).blocks[j].instrs == RefStream(f.blocks[j].instrs, args, M)
  {
    LoadArgIndicesOkFlatten(f.blocks[begin..end], |args|);
    assert forall j :: begin <= j < end ==> f.blocks[begin..end][j - begin] == f.blocks[j];
    ResolveRangeMatchesReference(f.blocks, begin, end, args, map[]);
  }

  /** The blocks of `bs` resolved in order, one binding threaded through all
      of them: `ResolveRange` with the blocks outside the range dropped. */
  function ResolveBlocks(bs: seq<Block>, args: seq<Operand>, m: VregMap): (r: seq<Block>)
    requires ArgsImmOrVreg(args)
    requires forall j :: 0 <= j < |bs| ==> LoadArgIndicesOk(bs[j].instrs, |args|)
    ensures |r| == |bs|
  {
    if |bs| == 0 then []
    else
      var (out, m1) := ResolveInstrs(bs[0].instrs, args, m);
      [bs[0].(instrs := out)] + ResolveBlocks(bs[1..], args, m1)
  }

  /** Resolution of a range depends only on the blocks in it. */
  lemma {:induction false} ResolveRangeIsResolveBlocks(bs: seq<Block>, lo: nat, hi: nat,
                                                       args: seq<Operand>, m: VregMap, i: nat)
    requires lo <= hi <= |bs| && i < hi - lo
    requires ArgsImmOrVreg(args)
    requires forall j :: lo <= j < hi ==> LoadArgIndicesOk(bs[j].instrs, |args|)
    ensures forall j :: 0 <= j < hi - lo ==> LoadArgIndicesOk(bs[lo..hi][j].instrs, |args|)
    ensures ResolveRange(bs, lo, hi, args, m).0[lo + i] == ResolveBlocks(bs[lo..hi], args, m)[i]
    decreases hi - lo
  {
    assert forall j :: 0 <= j < hi - lo ==> bs[lo..hi][j] == bs[lo + j];
    var (out, m1) := ResolveInstrs(bs[lo].instrs, args, m);
    var bs' := bs[lo := bs[lo].(instrs := out)];
    if i > 0 {
      assert bs'[lo + 1..hi] == bs[lo..hi][1..];
      ResolveRangeIsResolveBlocks(bs', lo + 1, hi, args, m1, i - 1);
    }
  }

  /** The callee's blocks as the splice leaves them before merging returns:
      copied to `begin` with instruction ids moved by `idOff`, between
      `before` and `after`, and then argument-resolved in order. */
  function ResolvedCopy(callee: Function, args: seq<Operand>, begin: nat, idOff: nat,
                        before: BlockId, after: BlockId): (r: seq<Block>)
    requires ArgsImmOrVreg(args)
    requires forall j :: 0 <= j < |callee.blocks| ==> LoadArgIndicesOk(callee.blocks[j].instrs, |args|)
    ensures |r| == |callee.blocks|
  {
    var cs := CopiedBlocks(callee, begin, idOff, before, after);
    assert forall j :: 0 <= j < |cs| ==> LoadArgIndicesOk(cs[j].instrs, |args|) by {
      forall j | 0 <= j < |cs| {
        LoadArgIndicesOkRename(callee.blocks[j].instrs, |args|, begin, idOff);
      }
    }
    ResolveBlocks(cs, args, map[])
  }

  /** Block `k` of `ResolvedCopy`. */
  function ResolvedCopyBlock(callee: Function, args: seq<Operand>, begin: nat, idOff: nat,
                             before: BlockId, after: BlockId, k: nat): Block
    requires ArgsImmOrVreg(args) && k < |callee.blocks|
    requires forall j :: 0 <= j < |callee.blocks| ==> LoadArgIndicesOk(callee.blocks[j].instrs, |args|)
  {
    ResolvedCopy(callee, args, begin, idOff, before, after)[k]
  }

  /** Resolving the arguments of a copy of the callee gives, block by block,
      `ResolvedCopy`. */
  lemma ResolveCopyAt(copied: Function, callee: Function, args: seq<Operand>, begin: nat, idOff: nat,
                      before: BlockId, after: BlockId, j: nat)
    requires CopiesAt(copied, callee, begin, idOff, before, after) && j < |callee.blocks|
    requires ArgsImmOrVreg(args)
    requires forall j :: 0 <= j < |callee.blocks| ==> LoadArgIndicesOk(callee.blocks[j].instrs, |args|)
    requires forall j :: begin <= j < |copied.blocks| ==> LoadArgIndicesOk(copied.blocks[j].instrs, |args|)
    ensures ResolveArguments(copied, begin, |copied.blocks|, args).blocks[begin + j]
              == ResolvedCopy(callee, args, begin, idOff, before, after)[j]
  {
    var cs := CopiedBlocks(callee, begin, idOff, before, after);
    forall k | 0 <= k < |cs|
      ensures cs[k] == copied.blocks[begin..][k]
    {
      assert copied.blocks[begin + k] == CopiedBlock(callee, k, begin, idOff, before, after);
    }
    assert cs == copied.blocks[begin..|copied.blocks|];
    ResolveRangeIsResolveBlocks(copied.blocks, begin, |copied.blocks|, args, map[], j);
  }

  // -------------------------------------------------------------------------
  // Return merging

  predicate EndsInReturn(b: Block)
  {
    |b.instrs| > 0 && b.instrs[|b.instrs| - 1].op == Return
  }

  function LastInstr(b: Block): Instr
    requires |b.instrs| > 0
  {
    b.instrs[|b.instrs| - 1]
  }

  function DropLast(b: Block): Block
    requires |b.instrs| > 0
  {
    b.(instrs := b.instrs[..|b.instrs| - 1])
  }

  predicate IsPrefix<T(==)>(a: seq<T>, b: seq<T>)
  {
    |a| <= |b| && a == b[..|a|]
  }

  /** Same edges and section: only the instruction list may differ. */
  predicate SameFrame(a: Block, b: Block)
  {
    a.preds == b.preds && a.succs == b.succs && a.section == b.section
  }

  /** Every entry of `s` names a block of `f`. */
  predicate InRange(f: Function, s: seq<BlockId>)
  {
    forall k :: 0 <= k < |s| ==> s[k] < |f.blocks|
  }

  /** No block that ends in a Return is listed twice: each Return reaching
      the epilogue comes along exactly one edge. Blocks without a Return may
      be listed any number of times (a conditional branch with both arms to
      the exit, say). */
  predicate ReturnsOnce(f: Function, preds: seq<BlockId>)
    requires InRange(f, preds)
  {
    forall i, j :: 0 <= i < j < |preds| && preds[i] == preds[j] ==> !EndsInReturn(f.blocks[preds[i]])
  }

  /** `g` differs from `f` at most in block `x`. */
  predicate AgreeExcept(f: Function, g: Function, x: BlockId)
  {
    |g.blocks| == |f.blocks| && forall j :: 0 <= j < |f.blocks| && j != x ==> g.blocks[j] == f.blocks[j]
  }

  /** `f` with block `b`'s last instruction removed. */
  function DropReturn(f: Function, b: BlockId): (r: Function)
    requires b < |f.blocks| && |f.blocks[b].instrs| > 0
    ensures AgreeExcept(f, r, b) && r.blocks[b] == DropLast(f.blocks[b])
  {
    f.(blocks := f.blocks[b := DropLast(f.blocks[b])])
  }

  /** `g` is `f` with instructions possibly cut from the end of some blocks:
      same blocks, same edges, each block's instructions a prefix of the
      original's. */
  predicate Trimmed(f: Function, g: Function)
  {
    && |g.blocks| == |f.blocks|
    && forall j :: 0 <= j < |f.blocks| ==>
         SameFrame(g.blocks[j], f.blocks[j]) && IsPrefix(g.blocks[j].instrs, f.blocks[j].instrs)
  }

  lemma TrimmedTrans(f: Function, g: Function, h: Function)
    requires Trimmed(f, g) && Trimmed(g, h)
    ensures Trimmed(f, h)
  {
    forall j | 0 <= j < |f.blocks|
      ensures IsPrefix(h.blocks[j].instrs, f.blocks[j].instrs)
    {
      var a, b := h.blocks[j].instrs, g.blocks[j].instrs;
      assert a == b[..|a|] && b == f.blocks[j].instrs[..|b|];
      assert a == f.blocks[j].instrs[..|a|];
    }
  }

  /** Visits the predecessors in order; each one whose last instruction is a
      Return loses it and contributes its label and returned value to `ins`.
      `None` when a Return without an input is met (a fatal check). */
  function MergeReturns(f: Function, preds: seq<BlockId>, ins: seq<Operand>): Option<(Function, seq<Operand>)>
    requires InRange(f, preds)
    decreases |preds|
  {
    if |preds| == 0 then Some((f, ins))
    else
      var p := preds[0];
      var b := f.blocks[p];
      assert forall k :: 0 <= k < |preds[1..]| ==> preds[1..][k] == preds[k + 1];
      if EndsInReturn(b) then
        var ret := LastInstr(b);
        if |ret.inputs| == 0 then None
        else MergeReturns(DropReturn(f, p), preds[1..], ins + [Label(p), ret.inputs[0]])
      else
        MergeReturns(f, preds[1..], ins)
  }

  /** Whatever the list, a successful merge only cuts instructions from the
      end of blocks. */
  lemma {:induction false} MergeReturnsTrims(f: Function, preds: seq<BlockId>, ins: seq<Operand>)
    requires InRange(f, preds)
    ensures var r := MergeReturns(f, preds, ins); r.Some? ==> Trimmed(f, r.value.0)
    decreases |preds|
  {
    if |preds| > 0 {
      var p, tl := preds[0], preds[1..];
      var b := f.blocks[p];
      InRangeTail(f, preds);
      if EndsInReturn(b) && |LastInstr(b).inputs| > 0 {
        var f1 := DropReturn(f, p);
        var r := MergeReturns(f1, tl, ins + [Label(p), LastInstr(b).inputs[0]]);
        MergeReturnsTrims(f1, tl, ins + [Label(p), LastInstr(b).inputs[0]]);
        if r.Some? {
          assert Trimmed(f, f1);
          TrimmedTrans(f, f1, r.value.0);
        }
      } else if !EndsInReturn(b) {
        MergeReturnsTrims(f, tl, ins);
      }
    }
  }

  /** A successful merge leaves unlisted blocks, and listed blocks that do
      not end in a Return, as they were. */
  lemma {:induction false} MergeReturnsFrame(f: Function, preds: seq<BlockId>, ins: seq<Operand>)
    requires InRange(f, preds)
    ensures var r := MergeReturns(f, preds, ins);
            r.Some? ==> forall j :: 0 <= j < |f.blocks| && (j !in preds || !EndsInReturn(f.blocks[j])) ==>
                          |r.value.0.blocks| == |f.blocks| && r.value.0.blocks[j] == f.blocks[j]
    decreases |preds|
  {
    if |preds| > 0 {
      var p, tl := preds[0], preds[1..];
      var b := f.blocks[p];
      InRangeTail(f, preds);
      assert forall j :: j in tl ==> j in preds;
      if EndsInReturn(b) && |LastInstr(b).inputs| > 0 {
        MergeReturnsFrame(DropReturn(f, p), tl, ins + [Label(p), LastInstr(b).inputs[0]]);
      } else if !EndsInReturn(b) {
        MergeReturnsFrame(f, tl, ins);
      }
    }
  }

  /** A successful merge extends `ins`, and extends it exactly when some
      listed block ends in a Return. */
  lemma {:induction false} MergeReturnsExtends(f: Function, preds: seq<BlockId>, ins: seq<Operand>)
    requires InRange(f, preds)
    ensures var r := MergeReturns(f, preds, ins);
            && (r.Some? ==> IsPrefix(ins, r.value.1))
            && (r.Some? ==> (|r.value.1| == |ins| <==> forall k :: 0 <= k < |preds| ==> !EndsInReturn(f.blocks[preds[k]])))
    decreases |preds|
  {
    if |preds| > 0 {
      var p, tl := preds[0], preds[1..];
      var b := f.blocks[p];
      InRangeTail(f, preds);
      if EndsInReturn(b) && |LastInstr(b).inputs| > 0 {
        var ins1 := ins + [Label(p), LastInstr(b).inputs[0]];
        var r := MergeReturns(DropReturn(f, p), tl, ins1);
        MergeReturnsExtends(DropReturn(f, p), tl, ins1);
        if r.Some? {
          assert ins == ins1[..|ins|];
          assert ins == r.value.1[..|ins|];
        }
      } else if !EndsInReturn(b) {
        MergeReturnsExtends(f, tl, ins);
        assert forall k :: 1 <= k < |preds| ==> tl[k - 1] == preds[k];
      }
    }
  }

  lemma {:induction false} MergeReturnsPairs(f: Function, preds: seq<BlockId>, ins: seq<Operand>)
    requires InRange(f, preds)
    requires |ins| % 2 == 0
    ensures var r := MergeReturns(f, preds, ins); r.Some? ==> |r.value.1| % 2 == 0
    decreases |preds|
  {
    if |preds| > 0 {
      var p := preds[0];
      var b := f.blocks[p];
      assert InRange(f, preds[1..]) by {
        assert forall k :: 0 <= k < |preds[1..]| ==> preds[1..][k] == preds[k + 1];
      }
      if EndsInReturn(b) && |LastInstr(b).inputs| > 0 {
        MergeReturnsPairs(DropReturn(f, p), preds[1..], ins + [Label(p), LastInstr(b).inputs[0]]);
      } else if !EndsInReturn(b) {
        MergeReturnsPairs(f, preds[1..], ins);
      }
    }
  }

  /** Every listed block that ends in a Return returns a value. */
  predicate ReturnsHaveValues(f: Function, preds: seq<BlockId>)
    requires InRange(f, preds)
  {
    forall k :: 0 <= k < |preds| && EndsInReturn(f.blocks[preds[k]]) ==> |LastInstr(f.blocks[preds[k]]).inputs| > 0
  }

  /** For each listed block that ends in a Return, in list order: its label
      followed by the value it returns. */
  function PhiInputs(f: Function, preds: seq<BlockId>): (r: seq<Operand>)
    requires InRange(f, preds) && ReturnsHaveValues(f, preds)
    decreases |preds|
  {
    if |preds| == 0 then []
    else
      var b := f.blocks[preds[0]];
      assert forall k :: 0 <= k < |preds[1..]| ==> preds[1..][k] == preds[k + 1];
      (if EndsInReturn(b) then [Label(preds[0]), LastInstr(b).inputs[0]] else []) + PhiInputs(f, preds[1..])
  }

  /** `f` with the trailing Return of every listed block removed. */
  function DropReturns(f: Function, preds: seq<BlockId>): (r: Function)
    ensures |r.blocks| == |f.blocks|
  {
    Function(seq(|f.blocks|, j requires 0 <= j < |f.blocks| =>
      if j in preds && EndsInReturn(f.blocks[j]) then DropLast(f.blocks[j]) else f.blocks[j]))
  }

  lemma InRangeTail(f: Function, preds: seq<BlockId>)
    requires |preds| > 0 && InRange(f, preds)
    ensures InRange(f, preds[1..])
    ensures ReturnsHaveValues(f, preds) ==> ReturnsHaveValues(f, preds[1..])
  {
    assert forall k :: 0 <= k < |preds[1..]| ==> preds[1..][k] == preds[k + 1];
  }

  /** The tail of a list whose returning blocks are listed once keeps that
      property, and a returning head does not occur in it again. */
  lemma ReturnsOnceTail(f: Function, preds: seq<BlockId>)
    requires |preds| > 0 && InRange(f, preds) && ReturnsOnce(f, preds)
    ensures InRange(f, preds[1..]) && ReturnsOnce(f, preds[1..])
    ensures EndsInReturn(f.blocks[preds[0]]) ==> preds[0] !in preds[1..]
  {
    var tl := preds[1..];
    assert forall k :: 0 <= k < |tl| ==> tl[k] == preds[k + 1];
    forall i, j | 0 <= i < j < |tl| && tl[i] == tl[j]
      ensures !EndsInReturn(f.blocks[tl[i]])
    {
      assert tl[i] == preds[i + 1] && tl[j] == preds[j + 1];
    }
    forall k | 0 <= k < |tl| && EndsInReturn(f.blocks[preds[0]])
      ensures tl[k] != preds[0]
    {
      assert tl[k] == preds[k + 1];
    }
  }

  /** Blocks other than `x` decide which returns a list not naming `x`
      contributes. */
  lemma PhiInputsFrame(f: Function, g: Function, x: BlockId, preds: seq<BlockId>)
    requires InRange(f, preds) && AgreeExcept(f, g, x) && x !in preds
    ensures InRange(g, preds)
    ensures ReturnsHaveValues(g, preds) <==> ReturnsHaveValues(f, preds)
    ensures ReturnsOnce(g, preds) <==> ReturnsOnce(f, preds)
    ensures ReturnsHaveValues(f, preds) ==> PhiInputs(g, preds) == PhiInputs(f, preds)
  {
    forall k | 0 <= k < |preds|
      ensures preds[k] < |g.blocks| && g.blocks[preds[k]] == f.blocks[preds[k]]
    {
      assert preds[k] in preds;
    }
    if ReturnsHaveValues(f, preds) {
      PhiInputsAgree(f, g, preds);
    }
  }

  /** Two functions with the same listed blocks have the same phi inputs. */
  lemma {:induction false} PhiInputsAgree(f: Function, g: Function, preds: seq<BlockId>)
    requires InRange(f, preds) && InRange(g, preds)
    requires forall k :: 0 <= k < |preds| ==> g.blocks[preds[k]] == f.blocks[preds[k]]
    requires ReturnsHaveValues(f, preds) && ReturnsHaveValues(g, preds)
    ensures PhiInputs(g, preds) == PhiInputs(f, preds)
    decreases |preds|
  {
    if |preds| > 0 {
      var tl := preds[1..];
      assert forall k :: 0 <= k < |tl| ==> tl[k] == preds[k + 1];
      PhiInputsAgree(f, g, tl);
    }
  }

  lemma ReturnsHaveValuesCons(f: Function, preds: seq<BlockId>)
    requires |preds| > 0 && InRange(f, preds)
    ensures InRange(f, preds[1..])
    ensures ReturnsHaveValues(f, preds) <==>
              && (EndsInReturn(f.blocks[preds[0]]) ==> |LastInstr(f.blocks[preds[0]]).inputs| > 0)
              && ReturnsHaveValues(f, preds[1..])
  {
    assert forall k :: 0 <= k < |preds[1..]| ==> preds[1..][k] == preds[k + 1];
  }

  lemma DropReturnsSkip(f: Function, preds: seq<BlockId>)
    requires |preds| > 0 && preds[0] < |f.blocks| && !EndsInReturn(f.blocks[preds[0]])
    ensures DropReturns(f, preds) == DropReturns(f, preds[1..])
  {
    assert preds == [preds[0]] + preds[1..];
    forall j | 0 <= j < |f.blocks|
      ensures DropReturns(f, preds).blocks[j] == DropReturns(f, preds[1..]).blocks[j]
    {
      if j != preds[0] {
        assert j in preds <==> j in preds[1..];
      }
    }
  }

  lemma DropReturnsHead(f: Function, preds: seq<BlockId>)
    requires |preds| > 0 && preds[0] < |f.blocks| && EndsInReturn(f.blocks[preds[0]])
    requires preds[0] !in preds[1..]
    ensures DropReturns(DropReturn(f, preds[0]), preds[1..]) == DropReturns(f, preds)
  {
    var p := preds[0];
    var f1 := DropReturn(f, p);
    assert preds == [p] + preds[1..];
    forall j | 0 <= j < |f.blocks|
      ensures DropReturns(f1, preds[1..]).blocks[j] == DropReturns(f, preds).blocks[j]
    {
      if j != p {
        assert j in preds <==> j in preds[1..];
      }
    }
  }

  /** With no returning predecessor listed twice, merging meets each Return
      once: it fails exactly when some returning predecessor returns no
      value, and otherwise removes exactly the returning predecessors'
      Returns and appends one (label, value) pair per returning predecessor. */
  lemma {:induction false} MergeReturnsOnce(f: Function, preds: seq<BlockId>, ins: seq<Operand>)
    requires InRange(f, preds) && ReturnsOnce(f, preds)
    ensures MergeReturns(f, preds, ins) ==
              if ReturnsHaveValues(f, preds) then Some((DropReturns(f, preds), ins + PhiInputs(f, preds))) else None
    decreases |preds|, 1
  {
    if |preds| == 0 {
      assert DropReturns(f, preds).blocks == f.blocks;
      assert DropReturns(f, preds) == f;
      assert ins + PhiInputs(f, preds) == ins;
    } else if !EndsInReturn(f.blocks[preds[0]]) {
      var tl := preds[1..];
      ReturnsHaveValuesCons(f, preds);
      ReturnsOnceTail(f, preds);
      assert MergeReturns(f, preds, ins) == MergeReturns(f, tl, ins);
      if ReturnsHaveValues(f, preds) {
        assert PhiInputs(f, preds) == PhiInputs(f, tl);
      }
      MergeReturnsOnce(f, tl, ins);
      DropReturnsSkip(f, preds);
    } else {
      MergeReturnsOnceAtReturn(f, preds, ins);
    }
  }

  /** The step of `MergeReturnsOnce` where the first predecessor ends in a
      Return. */
  lemma {:induction false} MergeReturnsOnceAtReturn(f: Function, preds: seq<BlockId>, ins: seq<Operand>)
    requires InRange(f, preds) && ReturnsOnce(f, preds)
    requires |preds| > 0 && EndsInReturn(f.blocks[preds[0]])
    ensures MergeReturns(f, preds, ins) ==
              if ReturnsHaveValues(f, preds) then Some((DropReturns(f, preds), ins + PhiInputs(f, preds))) else None
    decreases |preds|, 0
  {
    var p, tl := preds[0], preds[1..];
    var b := f.blocks[p];
    ReturnsHaveValuesCons(f, preds);
    if |LastInstr(b).inputs| > 0 {
      ReturnsOnceTail(f, preds);
      var f1 := DropReturn(f, p);
      var pair := [Label(p), LastInstr(b).inputs[0]];
      assert MergeReturns(f, preds, ins) == MergeReturns(f1, tl, ins + pair);
      PhiInputsFrame(f, f1, p, tl);
      MergeReturnsOnce(f1, tl, ins + pair);
      DropReturnsHead(f, preds);
      if ReturnsHaveValues(f, preds) {
        assert PhiInputs(f, preds) == pair + PhiInputs(f, tl);
        assert (ins + pair) + PhiInputs(f, tl) == ins + (pair + PhiInputs(f, tl));
      }
    }
  }

  /** The predecessors, in order, whose last instruction is a Return. */
  function ReturningPreds(f: Function, preds: seq<BlockId>): (rp: seq<BlockId>)
    requires InRange(f, preds)
    ensures InRange(f, rp) && |rp| <= |preds|
    ensures forall k :: 0 <= k < |rp| ==> EndsInReturn(f.blocks[rp[k]])
    decreases |preds|
  {
    if |preds| == 0 then []
    else
      assert forall k :: 0 <= k < |preds[1..]| ==> preds[1..][k] == preds[k + 1];
      (if EndsInReturn(f.blocks[preds[0]]) then [preds[0]] else []) + ReturningPreds(f, preds[1..])
  }

  /** The returning predecessors are exactly the listed blocks that end in a
      Return. */
  lemma {:induction false} ReturningPredsMembers(f: Function, preds: seq<BlockId>, x: BlockId)
    requires InRange(f, preds)
    ensures x in ReturningPreds(f, preds) <==> x in preds && x < |f.blocks| && EndsInReturn(f.blocks[x])
    decreases |preds|
  {
    if |preds| > 0 {
      assert preds == [preds[0]] + preds[1..];
      InRangeTail(f, preds);
      ReturningPredsMembers(f, preds[1..], x);
    }
  }

  /** Pair `k` of the phi inputs is the label of the `k`-th returning
      predecessor and the value that predecessor's Return returns. */
  lemma {:induction false} PhiInputsAt(f: Function, preds: seq<BlockId>, k: nat)
    requires InRange(f, preds) && ReturnsHaveValues(f, preds)
    requires k < |ReturningPreds(f, preds)|
    ensures var rp := ReturningPreds(f, preds);
            && |PhiInputs(f, preds)| == 2 * |rp|
            && PhiInputs(f, preds)[2 * k] == Label(rp[k])
            && |LastInstr(f.blocks[rp[k]]).inputs| > 0
            && PhiInputs(f, preds)[2 * k + 1] == LastInstr(f.blocks[rp[k]]).inputs[0]
    decreases |preds|
  {
    PhiInputsLength(f, preds);
    InRangeTail(f, preds);
    var b := f.blocks[preds[0]];
    if EndsInReturn(b) {
      if k > 0 {
        PhiInputsAt(f, preds[1..], k - 1);
      }
    } else {
      PhiInputsAt(f, preds[1..], k);
    }
  }

  /** Two phi inputs per returning predecessor. */
  lemma {:induction false} PhiInputsLength(f: Function, preds: seq<BlockId>)
    requires InRange(f, preds) && ReturnsHaveValues(f, preds)
    ensures |PhiInputs(f, preds)| == 2 * |ReturningPreds(f, preds)|
    decreases |preds|
  {
    if |preds| > 0 {
      InRangeTail(f, preds);
      PhiInputsLength(f, preds[1..]);
    }
  }

  /** There are no phi inputs exactly when no listed block ends in a Return. */
  lemma PhiInputsEmpty(f: Function, preds: seq<BlockId>)
    requires InRange(f, preds) && ReturnsHaveValues(f, preds)
    ensures PhiInputs(f, preds) == [] <==> !AnyReturn(ReturnsOf(f, preds))
  {
    PhiInputsLength(f, preds);
    var rs := ReturnsOf(f, preds);
    if AnyReturn(rs) {
      var k :| 0 <= k < |rs| && rs[k].Some?;
      assert preds[k] in preds;
      ReturningPredsMembers(f, preds, preds[k]);
    }
    if |ReturningPreds(f, preds)| > 0 {
      var x := ReturningPreds(f, preds)[0];
      ReturningPredsMembers(f, preds, x);
      var k :| 0 <= k < |preds| && preds[k] == x;
      assert rs[k].Some?;
    }
  }

  /** Functions whose listed blocks hold the same instructions have the
      same phi inputs: edges and sections are not read. */
  lemma {:induction false} PhiInputsSameInstrs(f: Function, g: Function, preds: seq<BlockId>)
    requires InRange(f, preds) && InRange(g, preds) && ReturnsHaveValues(f, preds)
    requires forall k :: 0 <= k < |preds| ==> g.blocks[preds[k]].instrs == f.blocks[preds[k]].instrs
    ensures ReturnsHaveValues(g, preds) && PhiInputs(g, preds) == PhiInputs(f, preds)
    decreases |preds|
  {
    if |preds| > 0 {
      InRangeTail(f, preds);
      InRangeTail(g, preds);
      var tl := preds[1..];
      assert forall k :: 0 <= k < |tl| ==> tl[k] == preds[k + 1];
      PhiInputsSameInstrs(f, g, tl);
    }
  }

  /** Two functions that agree on block `cb`'s instructions and on the
      blocks `lo .. lo + m` agree on the instructions of every listed block
      that lies there. */
  lemma InstrsAgreeOn(f: Function, g: Function, ps: seq<BlockId>, cb: BlockId, lo: nat, m: nat)
    requires cb < |f.blocks| && cb < |g.blocks| && lo + m <= |f.blocks| && lo + m <= |g.blocks|
    requires f.blocks[cb].instrs == g.blocks[cb].instrs
    requires forall j :: lo <= j < lo + m ==> f.blocks[j] == g.blocks[j]
    requires forall k :: 0 <= k < |ps| ==> ps[k] == cb || lo <= ps[k] < lo + m
    ensures InRange(f, ps) && InRange(g, ps)
    ensures forall k :: 0 <= k < |ps| ==> g.blocks[ps[k]].instrs == f.blocks[ps[k]].instrs
  {
  }

  /** Some predecessor of `epi` other than `epi` itself ends in a Return. */
  predicate ReturnsInto(f: Function, epi: BlockId)
    requires epi < |f.blocks| && InRange(f, f.blocks[epi].preds)
  {
    var ps := f.blocks[epi].preds;
    exists k :: 0 <= k < |ps| && ps[k] != epi && EndsInReturn(f.blocks[ps[k]])
  }

  /** `f` with an empty phi `phiId` appended to the epilogue `epi`. */
  function WithPhi(f: Function, epi: BlockId, phiId: InstrId): (r: Function)
    requires epi < |f.blocks|
    ensures AgreeExcept(f, r, epi)
    ensures r.blocks[epi] == f.blocks[epi].(instrs := f.blocks[epi].instrs + [Instr(phiId, Phi, [])])
  {
    f.(blocks := f.blocks[epi := f.blocks[epi].(instrs := f.blocks[epi].instrs + [Instr(phiId, Phi, [])])])
  }

  /** Appends a phi with id `phiId` to the epilogue `epi`, moves every
      predecessor's trailing Return value into it, then either drops the empty
      phi and turns the call (first in block `tail`) into a Nop, or turns the
      call into a Move of the phi. `None` when a Return has no input. */
  function ResolveReturnValue(f: Function, epi: BlockId, tail: BlockId, phiId: InstrId): (r: Option<Function>)
    requires epi < |f.blocks| && tail < |f.blocks| && epi != tail
    requires |f.blocks[tail].instrs| > 0
    requires InRange(f, f.blocks[epi].preds)
    ensures r.Some? ==> |r.value.blocks| == |f.blocks|
  {
    var e := f.blocks[epi];
    var f1 := WithPhi(f, epi, phiId);
    var merged := MergeReturns(f1, e.preds, []);
    if merged.None? then None
    else
      var f2 := merged.value.0;
      var ins := merged.value.1;
      assert |f2.blocks| == |f.blocks| by {
        MergeReturnsTrims(f1, e.preds, []);
      }
      var t := f.blocks[tail];
      var call := t.instrs[0];
      if |ins| == 0 then
        var f3 := f2.blocks[epi := e];
        Some(Function(f3[tail := t.(instrs := t.instrs[0 := call.(op := Nop)])]))
      else
        var f3 := f2.blocks[epi := e.(instrs := e.instrs + [Instr(phiId, Phi, ins)])];
        Some(Function(f3[tail := t.(instrs := t.instrs[0 := Instr(call.id, Move, [Linked(phiId)])])]))
  }

  /** Return merging only trims the epilogue's predecessors, keeps every
      edge, and leaves every other block but the epilogue and the call's
      block as it was. */
  lemma ResolveReturnValueFrame(f: Function, epi: BlockId, tail: BlockId, phiId: InstrId)
    requires epi < |f.blocks| && tail < |f.blocks| && epi != tail
    requires |f.blocks[tail].instrs| > 0
    requires InRange(f, f.blocks[epi].preds)
    ensures var r := ResolveReturnValue(f, epi, tail, phiId);
            && (r.Some? ==> forall j :: 0 <= j < |f.blocks| ==> SameFrame(r.value.blocks[j], f.blocks[j]))
            && (r.Some? ==> forall j :: 0 <= j < |f.blocks| && j != epi && j != tail ==>
                  IsPrefix(r.value.blocks[j].instrs, f.blocks[j].instrs))
            && (r.Some? ==> forall j ::
                  0 <= j < |f.blocks| && j != epi && j != tail && (j !in f.blocks[epi].preds || !EndsInReturn(f.blocks[j])) ==>
                  r.value.blocks[j] == f.blocks[j])
  {
    var e := f.blocks[epi];
    var f1 := WithPhi(f, epi, phiId);
    MergeReturnsTrims(f1, e.preds, []);
    MergeReturnsFrame(f1, e.preds, []);
  }

  /** After return merging the call keeps its id and its place, and either
      became a Nop with the epilogue untouched, when no predecessor of the
      epilogue returns, or became a Move of the new phi, the epilogue's last
      instruction, which holds one (label, value) pair per Return. */
  lemma ResolveReturnValueCall(f: Function, epi: BlockId, tail: BlockId, phiId: InstrId)
    requires epi < |f.blocks| && tail < |f.blocks| && epi != tail
    requires |f.blocks[tail].instrs| > 0
    requires tail !in f.blocks[epi].preds
    requires InRange(f, f.blocks[epi].preds)
    ensures var r := ResolveReturnValue(f, epi, tail, phiId);
            && (r.Some? ==> |r.value.blocks[tail].instrs| == |f.blocks[tail].instrs|)
            && (r.Some? ==> r.value.blocks[tail].instrs[1..] == f.blocks[tail].instrs[1..])
            && (r.Some? ==> r.value.blocks[tail].instrs[0].id == f.blocks[tail].instrs[0].id)
            && (r.Some? && !ReturnsInto(f, epi) ==>
                  && r.value.blocks[tail].instrs[0] == f.blocks[tail].instrs[0].(op := Nop)
                  && r.value.blocks[epi] == f.blocks[epi])
            && (r.Some? && ReturnsInto(f, epi) ==>
                  && r.value.blocks[tail].instrs[0].op == Move
                  && r.value.blocks[tail].instrs[0].inputs == [Linked(phiId)]
                  && |r.value.blocks[epi].instrs| == |f.blocks[epi].instrs| + 1
                  && r.value.blocks[epi].instrs[..|f.blocks[epi].instrs|] == f.blocks[epi].instrs
                  && LastInstr(r.value.blocks[epi]).id == phiId
                  && LastInstr(r.value.blocks[epi]).op == Phi
                  && |LastInstr(r.value.blocks[epi]).inputs| > 0
                  && |LastInstr(r.value.blocks[epi]).inputs| % 2 == 0)
  {
    var e := f.blocks[epi];
    var f1 := WithPhi(f, epi, phiId);
    var merged := MergeReturns(f1, e.preds, []);
    if merged.Some? {
      var f2 := merged.value.0;
      var ins := merged.value.1;
      MergeReturnsTrims(f1, e.preds, []);
      MergeReturnsFrame(f1, e.preds, []);
      MergeReturnsExtends(f1, e.preds, []);
      MergeReturnsPairs(f1, e.preds, []);
      assert !EndsInReturn(f1.blocks[epi]);
      assert |ins| > 0 <==> ReturnsInto(f, epi) by {
        assert forall k :: 0 <= k < |e.preds| && e.preds[k] != epi ==> f1.blocks[e.preds[k]] == f.blocks[e.preds[k]];
      }
    }
  }

  /** When each returning predecessor of the epilogue is listed once and the
      epilogue is not its own predecessor, return merging fails exactly when a
      returning predecessor returns no value; otherwise each returning
      predecessor loses exactly its Return and, when there is one, the
      epilogue gains a phi holding one (label, value) pair per returning
      predecessor. */
  lemma ResolveReturnValueOnce(f: Function, epi: BlockId, tail: BlockId, phiId: InstrId)
    requires epi < |f.blocks| && tail < |f.blocks| && epi != tail
    requires |f.blocks[tail].instrs| > 0
    requires tail !in f.blocks[epi].preds && epi !in f.blocks[epi].preds
    requires InRange(f, f.blocks[epi].preds) && ReturnsOnce(f, f.blocks[epi].preds)
    ensures var r := ResolveReturnValue(f, epi, tail, phiId);
            var preds := f.blocks[epi].preds;
            && (r.Some? <==> ReturnsHaveValues(f, preds))
            && (r.Some? ==> forall k :: 0 <= k < |preds| && EndsInReturn(f.blocks[preds[k]]) ==>
                  r.value.blocks[preds[k]] == DropLast(f.blocks[preds[k]]))
            && (r.Some? && ReturnsInto(f, epi) ==>
                  r.value.blocks[epi].instrs == f.blocks[epi].instrs + [Instr(phiId, Phi, PhiInputs(f, preds))])
  {
    var preds := f.blocks[epi].preds;
    var f1 := WithPhi(f, epi, phiId);
    PhiInputsFrame(f, f1, epi, preds);
    MergeReturnsOnce(f1, preds, []);
    var r := ResolveReturnValue(f, epi, tail, phiId);
    ResolveReturnValueCall(f, epi, tail, phiId);
    if r.Some? {
      var f2 := DropReturns(f1, preds);
      forall k | 0 <= k < |preds| && EndsInReturn(f.blocks[preds[k]])
        ensures r.value.blocks[preds[k]] == DropLast(f.blocks[preds[k]])
      {
        var q := preds[k];
        assert q in preds;
        assert f1.blocks[q] == f.blocks[q];
        assert f2.blocks[q] == DropLast(f.blocks[q]);
      }
      if ReturnsInto(f, epi) {
        assert [] + PhiInputs(f1, preds) == PhiInputs(f, preds);
      }
    }
  }

  // -------------------------------------------------------------------------
  // Returns reaching the exit

  /** The number of inputs of the Return that ends `s`, if `s` ends in one. */
  function TrailingReturn(s: seq<Instr>): Option<nat>
  {
    if |s| > 0 && s[|s| - 1].op == Return then Some(|s[|s| - 1].inputs|) else None
  }

  /** For each listed block, in list order, the number of inputs of the
      Return that ends it, if one does. */
  function ReturnsOf(f: Function, preds: seq<BlockId>): (r: seq<Option<nat>>)
    requires InRange(f, preds)
    ensures |r| == |preds|
  {
    seq(|preds|, k requires 0 <= k < |preds| => TrailingReturn(f.blocks[preds[k]].instrs))
  }

  /** Every Return in the list returns a value. */
  predicate AllReturnValues(rs: seq<Option<nat>>)
  {
    forall k :: 0 <= k < |rs| && rs[k].Some? ==> rs[k].value > 0
  }

  /** Some entry of the list is a Return. */
  predicate AnyReturn(rs: seq<Option<nat>>)
  {
    exists k :: 0 <= k < |rs| && rs[k].Some?
  }

  /** The list of trailing Returns decides whether every returning block
      returns a value and whether some block returns into `epi`. */
  lemma ReturnsOfMeans(f: Function, preds: seq<BlockId>, epi: BlockId)
    requires InRange(f, preds)
    ensures ReturnsHaveValues(f, preds) <==> AllReturnValues(ReturnsOf(f, preds))
    ensures epi < |f.blocks| && f.blocks[epi].preds == preds && epi !in preds ==>
              (ReturnsInto(f, epi) <==> AnyReturn(ReturnsOf(f, preds)))
  {
    var rs := ReturnsOf(f, preds);
    assert forall k :: 0 <= k < |preds| ==>
             (EndsInReturn(f.blocks[preds[k]]) <==> rs[k].Some?) &&
             (rs[k].Some? ==> rs[k].value == |LastInstr(f.blocks[preds[k]]).inputs|);
    if epi < |f.blocks| && f.blocks[epi].preds == preds && epi !in preds {
      assert forall k :: 0 <= k < |preds| ==> preds[k] != epi by {
        assert forall k :: 0 <= k < |preds| ==> preds[k] in preds;
      }
    }
  }

  /** Two functions whose listed blocks end in the same Returns agree on
      whether a returning block is listed twice. */
  lemma ReturnsOnceOf(f: Function, g: Function, preds: seq<BlockId>)
    requires InRange(f, preds) && InRange(g, preds) && ReturnsOf(f, preds) == ReturnsOf(g, preds)
    ensures ReturnsOnce(f, preds) <==> ReturnsOnce(g, preds)
  {
    assert forall k :: 0 <= k < |preds| ==>
             (EndsInReturn(f.blocks[preds[k]]) <==> ReturnsOf(f, preds)[k].Some?) &&
             (EndsInReturn(g.blocks[preds[k]]) <==> ReturnsOf(g, preds)[k].Some?);
  }

  /** Resolving a stream whose LoadArgs come first keeps its trailing
      Return and that Return's input count, and empties only a stream of
      LoadArgs. */
  lemma {:induction false} ResolveInstrsKeepsReturn(s: seq<Instr>, args: seq<Operand>, m: VregMap)
    requires ArgsImmOrVreg(args) && LoadArgIndicesOk(s, |args|) && LoadArgPrefix(s)
    ensures TrailingReturn(ResolveInstrs(s, args, m).0) == TrailingReturn(s)
    ensures |ResolveInstrs(s, args, m).0| == 0 ==> AllLoadArg(s)
    decreases |s|
  {
    if |s| > 0 {
      var tl := s[1..];
      LoadArgIndicesOkConcat(s[..1], tl, |args|);
      assert s == [s[0]] + tl;
      LoadArgPrefixConcat([s[0]], tl);
      TrailingReturnConcat([s[0]], tl);
      var r := ResolveInstrs(s, args, m).0;
      if s[0].op == LoadArg {
        var (kept, m1) := ResolveLoadArg(s[0], args, m);
        var rest := ResolveInstrs(tl, args, m1).0;
        ResolveInstrsKeepsReturn(tl, args, m1);
        var head := if kept.Some? then [kept.value] else [];
        assert r == head + rest;
        TrailingReturnConcat(head, rest);
      } else {
        var rest := ResolveInstrs(tl, args, m).0;
        ResolveInstrsKeepsReturn(tl, args, m);
        var head := [ResolveLinkedUses(s[0], m)];
        assert r == head + rest;
        TrailingReturnConcat(head, rest);
        if |tl| > 0 {
          assert tl[0].op != LoadArg;
        }
      }
    }
  }

  lemma TrailingReturnConcat(a: seq<Instr>, b: seq<Instr>)
    ensures TrailingReturn(a + b) == if |b| > 0 then TrailingReturn(b) else TrailingReturn(a)
  {
    if |b| == 0 {
      assert a + b == a;
    } else {
      assert (a + b)[|a + b| - 1] == b[|b| - 1];
    }
  }

  /** Each block of a resolved range is its own instructions resolved
      under the map threaded into it. */
  lemma {:induction false} ResolveRangeAt(bs: seq<Block>, lo: nat, hi: nat, args: seq<Operand>, m: VregMap, j: nat)
      returns (mj: VregMap)
    requires lo <= j < hi <= |bs| && ArgsImmOrVreg(args)
    requires forall i :: lo <= i < hi ==> LoadArgIndicesOk(bs[i].instrs, |args|)
    ensures ResolveRange(bs, lo, hi, args, m).0[j].instrs == ResolveInstrs(bs[j].instrs, args, mj).0
    decreases hi - lo
  {
    var (out, m1) := ResolveInstrs(bs[lo].instrs, args, m);
    var bs' := bs[lo := bs[lo].(instrs := out)];
    assert ResolveRange(bs', lo + 1, hi, args, m1).0 == ResolveRange(bs, lo, hi, args, m).0;
    if j == lo {
      mj := m;
    } else {
      assert bs'[j] == bs[j];
      mj := ResolveRangeAt(bs', lo + 1, hi, args, m1, j);
    }
  }

  /** Argument resolution keeps every block's trailing Return and its input
      count, so it changes neither which Returns reach a block nor how many
      inputs they carry. */
  lemma ResolveArgumentsKeepsReturns(f: Function, begin: nat, end: nat, args: seq<Operand>, preds: seq<BlockId>)
    requires begin <= end <= |f.blocks| && ArgsImmOrVreg(args)
    requires forall j :: begin <= j < end ==> LoadArgIndicesOk(f.blocks[j].instrs, |args|) && LoadArgPrefix(f.blocks[j].instrs)
    requires InRange(f, preds)
    ensures var r := ResolveArguments(f, begin, end, args);
            && InRange(r, preds)
            && ReturnsOf(r, preds) == ReturnsOf(f, preds)
            && (ReturnsOnce(r, preds) <==> ReturnsOnce(f, preds))
  {
    var r := ResolveArguments(f, begin, end, args);
    forall k | 0 <= k < |preds|
      ensures ReturnsOf(r, preds)[k] == ReturnsOf(f, preds)[k]
    {
      if begin <= preds[k] < end {
        var mj := ResolveRangeAt(f.blocks, begin, end, args, map[], preds[k]);
        ResolveInstrsKeepsReturn(f.blocks[preds[k]].instrs, args, mj);
      }
    }
    ReturnsOnceOf(f, r, preds);
  }

  /** Renaming keeps every opcode and input count, hence the trailing
      Return and the LoadArg prefix. */
  lemma RenameKeepsReturn(s: seq<Instr>, blockOff: nat, idOff: nat)
    ensures TrailingReturn(RenameInstrs(s, blockOff, idOff)) == TrailingReturn(s)
    ensures LoadArgPrefix(RenameInstrs(s, blockOff, idOff)) <==> LoadArgPrefix(s)
  {
    var t := RenameInstrs(s, blockOff, idOff);
    assert forall k :: 0 <= k < |s| ==> t[k].op == s[k].op && |t[k].inputs| == |s[k].inputs|;
  }

  /** LoadArgs that open the whole stream open every block's stream. */
  lemma {:induction false} LoadArgPrefixBlocks(bs: seq<Block>)
    requires LoadArgPrefix(Flatten(bs))
    ensures forall j {:trigger LoadArgPrefix(bs[j].instrs)} :: 0 <= j < |bs| ==> LoadArgPrefix(bs[j].instrs)
    decreases |bs|
  {
    if |bs| > 0 {
      LoadArgPrefixConcat(bs[0].instrs, Flatten(bs[1..]));
      LoadArgPrefixBlocks(bs[1..]);
      assert forall j :: 1 <= j < |bs| ==> bs[1..][j - 1] == bs[j];
    }
  }

  /** In a well-linked callee that passed the entry/exit check the exit is
      not its own predecessor and no block that ends in a Return is listed
      twice among the exit's predecessors: its only successor is the exit,
      and the edge is recorded once at each end. */
  lemma CalleeReturnsOnce(callee: Function)
    requires WellLinked(callee) && EntryExitReturnOk(callee)
    ensures var x := |callee.blocks| - 1;
            var ps := callee.blocks[x].preds;
            && InRange(callee, ps) && x !in ps && ReturnsOnce(callee, ps)
  {
    var bs := callee.blocks;
    var x := |bs| - 1;
    var ps := bs[x].preds;
    assert forall k :: 0 <= k < |ps| ==> ps[k] in ps;
    assert multiset(ps)[x] == multiset(bs[x].succs)[x];
    forall i, j | 0 <= i < j < |ps| && ps[i] == ps[j]
      ensures !EndsInReturn(bs[ps[i]])
    {
      var p := ps[i];
      assert ps == ps[..i] + [ps[i]] + ps[i + 1..j] + [ps[j]] + ps[j + 1..];
      assert multiset(ps)[p] >= 2;
      assert multiset(bs[p].succs)[x] >= 2;
      assert bs[p].succs != [x];
      assert BlockShapeOk(bs, p);
    }
  }

  /** What the Returns that reach the copied exit return, one entry per edge
      into it. A callee of several blocks reaches its exit from its own
      predecessors of the exit; the exit of a single-block callee is entered
      straight from the block the call was split off, so the instructions
      `before` the call count. */
  function ExitFeed(before: seq<Instr>, callee: Function): (r: seq<Option<nat>>)
    requires EdgesInRange(callee) && |callee.blocks| > 0
  {
    if |callee.blocks| == 1 then [TrailingReturn(before)] else ExitReturns(callee)
  }

  /** For each predecessor of the callee's exit, the number of inputs of
      the Return that ends it, if one does. */
  function ExitReturns(callee: Function): (r: seq<Option<nat>>)
    requires EdgesInRange(callee) && |callee.blocks| > 0
  {
    var ps := callee.blocks[|callee.blocks| - 1].preds;
    assert forall k :: 0 <= k < |ps| ==> ps[k] in ps;
    ReturnsOf(callee, ps)
  }

  /** The last block of `f` is entered from `before` or from blocks
      `[begin, |f.blocks| - 1)`, never from itself; no block that ends in a
      Return enters it twice; and the Returns entering it are the ones
      `ExitFeed` lists for a call preceded by `beforeInstrs`. */
  predicate ExitFedBy(f: Function, before: BlockId, begin: nat, beforeInstrs: seq<Instr>, callee: Function)
    requires EdgesInRange(callee) && |callee.blocks| > 0 && |f.blocks| > 0
  {
    var x := |f.blocks| - 1;
    var ps := f.blocks[x].preds;
    && (forall k :: 0 <= k < |ps| ==> ps[k] == before || begin <= ps[k] < x)
    && InRange(f, ps) && x !in ps && ReturnsOnce(f, ps)
    && ReturnsOf(f, ps) == ExitFeed(beforeInstrs, callee)
  }

  /** In any function whose blocks from `begin` on are the callee's copies,
      the copy's exit is entered along the edges `ExitFeed` lists, from blocks
      that end in the same Returns, each returning one listed once; it is
      entered from `before` or from other copied blocks, never from itself. */
  lemma CopyExitReturns(copied: Function, beforeInstrs: seq<Instr>, begin: nat, idOff: nat,
                        before: BlockId, after: BlockId, callee: Function)
    requires WellLinked(callee) && EntryExitReturnOk(callee)
    requires before < begin && CopiesAt(copied, callee, begin, idOff, before, after)
    requires copied.blocks[before].instrs == beforeInstrs
    ensures ExitFedBy(copied, before, begin, beforeInstrs, callee)
  {
    var m := |callee.blocks|;
    assert copied.blocks[begin + (m - 1)] == CopiedBlock(callee, m - 1, begin, idOff, before, after);
    if m == 1 {
      CopyExitReturnsSingle(copied, beforeInstrs, begin, idOff, before, after, callee);
    } else {
      CopiedExitReturnsMany(copied, begin, idOff, before, after, callee);
    }
  }

  lemma CopyExitReturnsSingle(copied: Function, beforeInstrs: seq<Instr>, begin: nat, idOff: nat,
                              before: BlockId, after: BlockId, callee: Function)
    requires WellLinked(callee) && EntryExitReturnOk(callee) && |callee.blocks| == 1
    requires before < begin && |copied.blocks| == begin + 1
    requires copied.blocks[before].instrs == beforeInstrs
    requires copied.blocks[begin] == CopiedBlock(callee, 0, begin, idOff, before, after)
    ensures var ps := copied.blocks[begin].preds;
            && ps == [before]
            && InRange(copied, ps)
            && ReturnsOf(copied, ps) == [TrailingReturn(beforeInstrs)]
  {
    CopiedExitPreds(callee, begin, idOff, before, after);
  }

  /** The predecessors of the copied exit: the block before the copy for a
      single-block callee, the shifted predecessors of the callee's exit
      otherwise, none of which is the exit. */
  lemma CopiedExitPreds(callee: Function, begin: nat, idOff: nat, before: BlockId, after: BlockId)
    requires WellLinked(callee) && EntryExitReturnOk(callee)
    ensures var m := |callee.blocks|;
            var cps := callee.blocks[m - 1].preds;
            && CopiedBlock(callee, m - 1, begin, idOff, before, after).preds ==
                 (if m == 1 then [before] else Shift(cps, begin))
            && forall k :: 0 <= k < |cps| ==> cps[k] < m - 1
  {
    CalleeReturnsOnce(callee);
    var m := |callee.blocks|;
    var cps := callee.blocks[m - 1].preds;
    assert forall k :: 0 <= k < |cps| ==> cps[k] in cps;
    if m == 1 {
      assert Shift(cps, begin) == [];
    }
  }

  /** `CopyExitReturns` for a callee of several blocks, stated for any
      function whose blocks from `begin` on are the callee's copies. */
  lemma CopiedExitReturnsMany(copied: Function, begin: nat, idOff: nat, before: BlockId, after: BlockId,
                              callee: Function)
    requires WellLinked(callee) && EntryExitReturnOk(callee) && |callee.blocks| > 1
    requires CopiesAt(copied, callee, begin, idOff, before, after)
    ensures var x := |copied.blocks| - 1;
            var ps := copied.blocks[x].preds;
            && (forall k :: 0 <= k < |ps| ==> begin <= ps[k] < x)
            && InRange(copied, ps) && ReturnsOnce(copied, ps)
            && ReturnsOf(copied, ps) == ExitReturns(callee)
  {
    var m := |callee.blocks|;
    var x := begin + m - 1;
    var cps := callee.blocks[m - 1].preds;
    var ps := copied.blocks[x].preds;
    CopiedExitPredsAt(copied, begin, idOff, before, after, callee);
    forall k | 0 <= k < |ps|
      ensures TrailingReturn(copied.blocks[ps[k]].instrs) == TrailingReturn(callee.blocks[cps[k]].instrs)
    {
      CopiedBlockReturn(callee, cps[k], begin, idOff, before, after);
    }
    CalleeReturnsOnce(callee);
    ReturnsOfShifted(copied, ps, callee, cps, begin);
  }

  /** Blocks listed in `ps` that end in the same Returns as the blocks
      listed in `cps`, entry by entry, with `ps` repeating an entry exactly
      where `cps` does. */
  lemma ReturnsOfShifted(f: Function, ps: seq<BlockId>, g: Function, cps: seq<BlockId>, off: nat)
    requires |ps| == |cps| && InRange(g, cps)
    requires forall k :: 0 <= k < |ps| ==>
               ps[k] == off + cps[k] && ps[k] < |f.blocks| &&
               TrailingReturn(f.blocks[ps[k]].instrs) == TrailingReturn(g.blocks[cps[k]].instrs)
    ensures InRange(f, ps) && ReturnsOf(f, ps) == ReturnsOf(g, cps)
    ensures ReturnsOnce(g, cps) ==> ReturnsOnce(f, ps)
  {
    var rs, crs := ReturnsOf(f, ps), ReturnsOf(g, cps);
    assert forall k :: 0 <= k < |ps| ==> rs[k] == crs[k];
    if ReturnsOnce(g, cps) {
      forall i, j | 0 <= i < j < |ps| && ps[i] == ps[j]
        ensures !EndsInReturn(f.blocks[ps[i]])
      {
        assert cps[i] == cps[j];
        assert EndsInReturn(f.blocks[ps[i]]) <==> rs[i].Some?;
        assert EndsInReturn(g.blocks[cps[i]]) <==> crs[i].Some?;
      }
    }
  }

  /** The copied exit of a callee of several blocks is entered from the
      copies of the callee's predecessors of its exit. */
  lemma CopiedExitPredsAt(copied: Function, begin: nat, idOff: nat, before: BlockId, after: BlockId,
                          callee: Function)
    requires WellLinked(callee) && EntryExitReturnOk(callee) && |callee.blocks| > 1
    requires CopiesAt(copied, callee, begin, idOff, before, after)
    ensures var m := |callee.blocks|;
            var cps := callee.blocks[m - 1].preds;
            var ps := copied.blocks[begin + m - 1].preds;
            && |ps| == |cps|
            && forall k :: 0 <= k < |ps| ==> ps[k] == begin + cps[k] && cps[k] < m - 1
  {
    var m := |callee.blocks|;
    CopiedExitPreds(callee, begin, idOff, before, after);
    assert copied.blocks[begin + (m - 1)] == CopiedBlock(callee, m - 1, begin, idOff, before, after);
  }

  /** A copied block ends in the same Return as the callee's block. */
  lemma CopiedBlockReturn(callee: Function, q: nat, begin: nat, idOff: nat, before: BlockId, after: BlockId)
    requires q < |callee.blocks|
    ensures TrailingReturn(CopiedBlock(callee, q, begin, idOff, before, after).instrs) ==
              TrailingReturn(callee.blocks[q].instrs)
  {
    RenameKeepsReturn(callee.blocks[q].instrs, begin, idOff);
  }

  // -------------------------------------------------------------------------
  // The whole inline

  datatype Status =
    | Declined  // no callee, or the callee failed a check: nothing changed
    | Inlined   // the callee was spliced in
    | Fatal     // a Return without an input: the source aborts the process

  /** Every function of `fs` is a well-linked graph. */
  predicate AllWellLinked(fs: map<string, Function>)
  {
    forall n :: n in fs ==> WellLinked(fs[n])
  }

  lemma LoadArgIndicesOkRename(s: seq<Instr>, n: nat, blockOff: nat, idOff: nat)
    ensures LoadArgIndicesOk(RenameInstrs(s, blockOff, idOff), n) <==> LoadArgIndicesOk(s, n)
  {
    var t := RenameInstrs(s, blockOff, idOff);
    assert forall k :: 0 <= k < |s| ==> t[k].op == s[k].op && |t[k].inputs| == |s[k].inputs|;
    assert forall k :: 0 <= k < |s| && |s[k].inputs| >= 1 ==> t[k].inputs[0] == RenameOperand(s[k].inputs[0], blockOff, idOff);
  }

  /** The index the argument lookup uses is always in range: in a callee
      that passed the LoadArg check every block's LoadArgs name an argument
      below the number of collected arguments. */
  lemma LoadArgIndexInRange(callee: Function, call: Instr)
    requires |call.inputs| >= 1
    requires LoadArgOk(callee, WrappedArgCount(call))
    ensures forall j :: 0 <= j < |callee.blocks| ==> LoadArgIndicesOk(callee.blocks[j].instrs, |ArgumentList(call)|)
  {
    LoadArgIndicesOkFlatten(callee.blocks, |ArgumentList(call)|);
  }

  lemma PrefixNoLoadArg(a: seq<Instr>, b: seq<Instr>)
    requires IsPrefix(a, b) && NoLoadArg(b)
    ensures NoLoadArg(a)
  {
    forall k | 0 <= k < |a|
      ensures a[k].op != LoadArg
    {
      assert a[k] == b[k];
    }
  }

  /** What a completed inline of the call at `(cb, ci)` looks like: every
      caller block is its `SplicedCallerBlock`; a new block holds the call and
      what followed it, is entered from the copied exit and leaves where `cb`
      left; the copied blocks hold no LoadArg; the call reads the epilogue's
      phi, or became a Nop when no Return value reached the epilogue. */
  predicate SpliceShape(caller: Function, cb: BlockId, ci: nat, callee: Function, after: Function)
    requires cb < |caller.blocks| && ci < |caller.blocks[cb].instrs|
  {
    var call := caller.blocks[cb].instrs[ci];
    var n := |caller.blocks|;
    var end := n + 1 + |callee.blocks|;
    && |after.blocks| == end
    && (forall j :: 0 <= j < n ==> after.blocks[j] == SplicedCallerBlock(caller, cb, ci, |callee.blocks|, j))
    && (forall j :: n < j < end ==> NoLoadArg(after.blocks[j].instrs))
    && after.blocks[n].preds == [end - 1]
    && after.blocks[n].succs == caller.blocks[cb].succs
    && after.blocks[n].section == caller.blocks[cb].section
    && |after.blocks[n].instrs| == |caller.blocks[cb].instrs| - ci
    && after.blocks[n].instrs[1..] == caller.blocks[cb].instrs[ci + 1..]
    && after.blocks[n].instrs[0].id == call.id
    && (after.blocks[n].instrs[0].op == Nop ==>
          after.blocks[n].instrs[0].inputs == call.inputs && |after.blocks[end - 1].instrs| == 0)
    && (after.blocks[n].instrs[0].op != Nop ==>
          && after.blocks[n].instrs[0].op == Move
          && |after.blocks[end - 1].instrs| == 1
          && after.blocks[end - 1].instrs[0].op == Phi
          && after.blocks[n].instrs[0].inputs == [Linked(after.blocks[end - 1].instrs[0].id)])
  }

  /** Caller block `j` once the call at `(cb, ci)` is inlined from an
      `m`-block callee. The call's block keeps the instructions before the
      call and jumps only to the copied entry, block `n + 1`; when the callee
      has a single block, that block is the callee's exit, so a Return ending
      the kept instructions is merged into the phi and removed. Every
      successor of `cb` names the new block `n` in `cb`'s place among its
      predecessors (`SplitPreds`). Nothing else changes. */
  function SplicedCallerBlock(caller: Function, cb: BlockId, ci: nat, m: nat, j: BlockId): Block
    requires cb < |caller.blocks| && ci < |caller.blocks[cb].instrs| && j < |caller.blocks|
  {
    var b := caller.blocks[j];
    if j != cb then b.(preds := SplitPreds(caller, cb, j))
    else
      var head := b.instrs[..ci];
      var kept := if m == 1 && TrailingReturn(head).Some? then head[..ci - 1] else head;
      Block(kept, SplitPreds(caller, cb, cb), [|caller.blocks| + 1], b.section)
  }

  /** The blocks return merging reads, as the splice hands them over to it:
      the call's block `cb` holding the instructions before the call, and the
      callee's blocks resolved and placed after the caller's blocks and the
      new block `n`. Merging reads only the instructions of the epilogue's
      predecessors, which are among these; the rest is kept from `caller`. */
  function BeforeMerge(caller: Function, cb: BlockId, ci: nat, callee: Function, args: seq<Operand>): (r: Function)
    requires cb < |caller.blocks| && ci <= |caller.blocks[cb].instrs|
    requires ArgsImmOrVreg(args)
    requires forall j :: 0 <= j < |callee.blocks| ==> LoadArgIndicesOk(callee.blocks[j].instrs, |args|)
    ensures |r.blocks| == |caller.blocks| + 1 + |callee.blocks|
  {
    var n := |caller.blocks|;
    var head := caller.blocks[cb].(instrs := caller.blocks[cb].instrs[..ci]);
    Function(caller.blocks[cb := head] + [EmptyBlock()] + ResolvedCopy(callee, args, n + 1, FreshInstrId(caller), cb, n))
  }

  /** What return merging leaves in the epilogue, the last block, read
      against `BeforeMerge`: every predecessor of the epilogue that ends in a
      Return returns a value; the epilogue is empty when there are no phi
      inputs, and otherwise holds one phi whose inputs are `PhiInputs` of its
      predecessors in order, one (label, value) pair per returning
      predecessor. */
  predicate ReturnsMerged(caller: Function, cb: BlockId, ci: nat, callee: Function, args: seq<Operand>, after: Function)
    requires cb < |caller.blocks| && ci <= |caller.blocks[cb].instrs|
    requires ArgsImmOrVreg(args)
    requires forall j :: 0 <= j < |callee.blocks| ==> LoadArgIndicesOk(callee.blocks[j].instrs, |args|)
  {
    var src := BeforeMerge(caller, cb, ci, callee, args);
    var epi := |src.blocks| - 1;
    && |after.blocks| == |src.blocks|
    && var ps := after.blocks[epi].preds;
       && InRange(src, ps) && ReturnsHaveValues(src, ps)
       && var ins := PhiInputs(src, ps);
          && (ins == [] ==> after.blocks[epi].instrs == [])
          && (ins != [] ==> |after.blocks[epi].instrs| == 1
                            && after.blocks[epi].instrs[0].op == Phi && after.blocks[epi].instrs[0].inputs == ins)
  }

  /** The callee's blocks as a successful splice leaves them: with `n` the
      caller's block count, blocks `n + 1` onward of `after` are
      `ResolvedCopy` of the callee placed there, its instruction ids above
      every id of the caller, entered from the call's block `cb` and leaving
      to the tail `n`. The epilogue, last, keeps its copied edges; every other
      copied block is exactly its resolved copy, less its Return when that
      Return enters the epilogue. */
  predicate CalleePlaced(caller: Function, cb: BlockId, callee: Function, args: seq<Operand>, after: Function)
  {
    var n, m := |caller.blocks|, |callee.blocks|;
    && ArgsImmOrVreg(args)
    && (forall j :: 0 <= j < m ==> LoadArgIndicesOk(callee.blocks[j].instrs, |args|))
    && m > 0 && |after.blocks| == n + 1 + m
    && var begin, off := n + 1, FreshInstrId(caller);
       forall k :: 0 <= k < m ==> PlacedCopy(after, n, m, k, ResolvedCopyBlock(callee, args, begin, off, cb, n, k))
  }

  /** Block `k` of an `m`-block callee, whose copy before return merging is
      `b`, as `after` holds it after the caller's `n` blocks and the tail: the
      epilogue, last, keeps the copy's edges; any other block is the copy,
      less its Return when that Return enters the epilogue. */
  predicate PlacedCopy(after: Function, n: nat, m: nat, k: nat, b: Block)
    requires k < m && |after.blocks| == n + 1 + m
  {
    if k == m - 1 then SameFrame(after.blocks[n + m], b)
    else after.blocks[n + 1 + k] == if n + 1 + k in after.blocks[n + m].preds && EndsInReturn(b)
                                    then DropLast(b) else b
  }

  /** Every copied block of the resolved copy is its `ResolvedCopy`. */
  lemma ResolveCopyAll(copied: Function, resolved: Function, callee: Function, args: seq<Operand>, begin: nat,
                       idOff: nat, before: BlockId, after: BlockId)
    requires CopiesAt(copied, callee, begin, idOff, before, after)
    requires ArgsImmOrVreg(args)
    requires forall j :: 0 <= j < |callee.blocks| ==> LoadArgIndicesOk(callee.blocks[j].instrs, |args|)
    requires forall j :: begin <= j < |copied.blocks| ==> LoadArgIndicesOk(copied.blocks[j].instrs, |args|)
    requires resolved == ResolveArguments(copied, begin, |copied.blocks|, args)
    ensures forall k :: 0 <= k < |callee.blocks| ==>
              resolved.blocks[begin + k] == ResolvedCopyBlock(callee, args, begin, idOff, before, after, k)
  {
    forall k | 0 <= k < |callee.blocks|
      ensures resolved.blocks[begin + k] == ResolvedCopyBlock(callee, args, begin, idOff, before, after, k)
    {
      ResolveCopyAt(copied, callee, args, begin, idOff, before, after, k);
    }
  }

  /** The copies placed after the split are those `ResolvedCopyBlock` places
      after the caller itself, when the split created no instruction id. */
  lemma CopyAtCallerOffsets(caller: Function, split: Function, cb: BlockId, callee: Function, args: seq<Operand>,
                            resolved: Function)
    requires |split.blocks| == |caller.blocks| + 1 && FreshInstrId(split) == FreshInstrId(caller)
    requires ArgsImmOrVreg(args)
    requires forall j :: 0 <= j < |callee.blocks| ==> LoadArgIndicesOk(callee.blocks[j].instrs, |args|)
    requires |resolved.blocks| == |split.blocks| + |callee.blocks|
    requires var begin, tail := |split.blocks|, |split.blocks| - 1;
             forall k :: 0 <= k < |callee.blocks| ==>
               resolved.blocks[begin + k] == ResolvedCopyBlock(callee, args, begin, FreshInstrId(split), cb, tail, k)
    ensures var n := |caller.blocks|;
            var begin, off := n + 1, FreshInstrId(caller);
            forall k :: 0 <= k < |callee.blocks| ==>
              resolved.blocks[begin + k] == ResolvedCopyBlock(callee, args, begin, off, cb, n, k)
  {
    var n := |caller.blocks|;
    var begin, off := n + 1, FreshInstrId(caller);
    forall k | 0 <= k < |callee.blocks|
      ensures resolved.blocks[begin + k] == ResolvedCopyBlock(callee, args, begin, off, cb, n, k)
    {
      assert resolved.blocks[|split.blocks| + k]
               == ResolvedCopyBlock(callee, args, |split.blocks|, FreshInstrId(split), cb, |split.blocks| - 1, k);
    }
  }

  /** Return merging, as its frame and its trimming of returning exit
      predecessors describe it, per block past the tail `n`. */
  lemma MergedCopies(n: nat, resolved: Function, after: Function)
    requires n < |resolved.blocks| == |after.blocks|
    requires InRange(resolved, resolved.blocks[|resolved.blocks| - 1].preds)
    requires var epi, ps := |resolved.blocks| - 1, resolved.blocks[|resolved.blocks| - 1].preds;
             forall j :: n < j < epi && (j !in ps || !EndsInReturn(resolved.blocks[j])) ==>
               after.blocks[j] == resolved.blocks[j]
    requires var ps := resolved.blocks[|resolved.blocks| - 1].preds;
             forall k :: 0 <= k < |ps| && EndsInReturn(resolved.blocks[ps[k]]) ==>
               after.blocks[ps[k]] == DropLast(resolved.blocks[ps[k]])
    ensures var epi, ps := |resolved.blocks| - 1, resolved.blocks[|resolved.blocks| - 1].preds;
            forall j :: n < j < epi ==>
              after.blocks[j] == if j in ps && EndsInReturn(resolved.blocks[j]) then DropLast(resolved.blocks[j])
                                 else resolved.blocks[j]
  {
    var epi, ps := |resolved.blocks| - 1, resolved.blocks[|resolved.blocks| - 1].preds;
    forall j | n < j < epi && j in ps && EndsInReturn(resolved.blocks[j])
      ensures after.blocks[j] == DropLast(resolved.blocks[j])
    {
      var k :| 0 <= k < |ps| && ps[k] == j;
    }
  }

  /** `CalleePlaced` from the resolved copies at the caller's offsets and
      what return merging kept or trimmed of them. */
  lemma PlacedFromResolved(caller: Function, cb: BlockId, callee: Function, args: seq<Operand>,
                           resolved: Function, after: Function)
    requires |callee.blocks| > 0
    requires ArgsImmOrVreg(args)
    requires forall j :: 0 <= j < |callee.blocks| ==> LoadArgIndicesOk(callee.blocks[j].instrs, |args|)
    requires |resolved.blocks| == |caller.blocks| + 1 + |callee.blocks| == |after.blocks|
    requires var n := |caller.blocks|;
             var begin, off := n + 1, FreshInstrId(caller);
             forall k :: 0 <= k < |callee.blocks| ==>
               resolved.blocks[begin + k] == ResolvedCopyBlock(callee, args, begin, off, cb, n, k)
    requires SameFrame(after.blocks[|resolved.blocks| - 1], resolved.blocks[|resolved.blocks| - 1])
    requires var epi, ps := |resolved.blocks| - 1, resolved.blocks[|resolved.blocks| - 1].preds;
             forall j :: |caller.blocks| < j < epi ==>
               after.blocks[j] == if j in ps && EndsInReturn(resolved.blocks[j]) then DropLast(resolved.blocks[j])
                                  else resolved.blocks[j]
    ensures CalleePlaced(caller, cb, callee, args, after)
  {
    var n, m := |caller.blocks|, |callee.blocks|;
    var begin, off := n + 1, FreshInstrId(caller);
    forall k | 0 <= k < m
      ensures PlacedCopy(after, n, m, k, ResolvedCopyBlock(callee, args, begin, off, cb, n, k))
    {
      assert resolved.blocks[begin + k] == ResolvedCopyBlock(callee, args, begin, off, cb, n, k);
    }
  }

  /** The predecessors of caller block `j` once the call's block `cb` is
      split: a block `cb` jumped to lists the new block `|caller.blocks|` in
      `cb`'s place. */
  function SplitPreds(caller: Function, cb: BlockId, j: BlockId): seq<BlockId>
    requires cb < |caller.blocks| && j < |caller.blocks|
  {
    var b := caller.blocks[j];
    if j in caller.blocks[cb].succs then Replace(b.preds, cb, |caller.blocks|) else b.preds
  }

  /** Step one of the splice: the caller's block `cb` split before the call.
      `cb` keeps the instructions before the call and jumps only to the new
      last block, which holds the call and the rest, is entered only from
      `cb` and takes over `cb`'s successors, whose predecessor lists name it
      in `cb`'s place. Nothing else changes, and the graph stays well
      linked. */
  method SplitAtCall(caller: Function, cb: BlockId, ci: nat) returns (split: Function)
    requires cb < |caller.blocks| && ci < |caller.blocks[cb].instrs|
    ensures |split.blocks| == |caller.blocks| + 1
    ensures var b := caller.blocks[cb];
            split.blocks[cb] == Block(b.instrs[..ci], SplitPreds(caller, cb, cb), [|caller.blocks|], b.section)
    ensures var b := caller.blocks[cb];
            split.blocks[|caller.blocks|] == Block(b.instrs[ci..], [cb], b.succs, b.section)
    ensures forall j :: 0 <= j < |caller.blocks| && j != cb ==>
              split.blocks[j] == caller.blocks[j].(preds := SplitPreds(caller, cb, j))
    ensures WellLinked(caller) ==> WellLinked(split)
  {
    var orig := caller.blocks[cb];
    var n := |caller.blocks|;
    split := SplitBefore(caller, cb, ci);
    assert split.blocks[cb].instrs + split.blocks[n].instrs == orig.instrs;
    assert split.blocks[cb].instrs == orig.instrs[..ci];
    if WellLinked(caller) {
      SplitBeforeWellLinked(caller, cb, ci);
    }
  }

  /** Step two of the splice: the callee copied between the two halves of
      the split block `cb`, the tail being the split's last block. The copy's
      last block, the epilogue, is empty and is entered only from `cb` or
      from other copied blocks, along edges whose Returns `ExitFeed` lists. */
  method CopyCallee(split: Function, cb: BlockId, callee: Function, nargs: nat) returns (copied: Function)
    requires |split.blocks| > 0 && cb < |split.blocks| - 1
    requires split.blocks[cb].succs == [|split.blocks| - 1] && split.blocks[|split.blocks| - 1].preds == [cb]
    requires WellLinked(callee) && EntryExitReturnOk(callee)
    requires forall j {:trigger LoadArgIndicesOk(callee.blocks[j].instrs, nargs)} :: 0 <= j < |callee.blocks| ==> LoadArgIndicesOk(callee.blocks[j].instrs, nargs)
    requires LoadArgPrefix(Flatten(callee.blocks))
    ensures |copied.blocks| == |split.blocks| + |callee.blocks|
    ensures forall j :: 0 <= j < |split.blocks| - 1 && j != cb ==> copied.blocks[j] == split.blocks[j]
    ensures copied.blocks[cb] == split.blocks[cb].(succs := [|split.blocks|])
    ensures var tail := |split.blocks| - 1;
            copied.blocks[tail] == split.blocks[tail].(preds := [|copied.blocks| - 1])
    ensures cb in copied.blocks[|copied.blocks| - 1].preds <==> |callee.blocks| == 1
    ensures WellLinked(split) ==> WellLinked(copied)
    ensures forall j {:trigger LoadArgIndicesOk(copied.blocks[j].instrs, nargs)} :: |split.blocks| <= j < |copied.blocks| ==> LoadArgIndicesOk(copied.blocks[j].instrs, nargs)
    ensures forall j {:trigger LoadArgPrefix(copied.blocks[j].instrs)} ::
              |split.blocks| <= j < |copied.blocks| ==> LoadArgPrefix(copied.blocks[j].instrs)
    ensures |copied.blocks[|copied.blocks| - 1].instrs| == 0
    ensures ExitFedBy(copied, cb, |split.blocks|, split.blocks[cb].instrs, callee)
    ensures CopiesAt(copied, callee, |split.blocks|, FreshInstrId(split), cb, |split.blocks| - 1)
  {
    var begin, tail, off := |split.blocks|, |split.blocks| - 1, FreshInstrId(split);
    LoadArgPrefixBlocks(callee.blocks);
    copied := CopyBlocks(split, callee, cb, tail);
    assert Replace([tail], tail, begin) == [begin];
    assert Replace([cb], cb, |copied.blocks| - 1) == [|copied.blocks| - 1];
    CopyKeepsLoadArgIndices(copied, callee, begin, off, cb, tail, nargs);
    CopiedEpilogue(copied, callee, begin, off, cb, tail);
    CopyExitReturns(copied, split.blocks[cb].instrs, begin, off, cb, tail, callee);
    CopiedExitEnteredFrom(copied, callee, begin, off, cb, tail);
  }

  /** The copied exit is entered from the block before the copy exactly when
      the callee has a single block, its entry being its exit. */
  lemma CopiedExitEnteredFrom(copied: Function, callee: Function, begin: nat, idOff: nat, before: BlockId, after: BlockId)
    requires WellLinked(callee) && EntryExitReturnOk(callee) && before < begin
    requires CopiesAt(copied, callee, begin, idOff, before, after)
    ensures before in copied.blocks[|copied.blocks| - 1].preds <==> |callee.blocks| == 1
  {
    var m := |callee.blocks|;
    assert copied.blocks[begin + (m - 1)] == CopiedBlock(callee, m - 1, begin, idOff, before, after);
    CopiedExitPreds(callee, begin, idOff, before, after);
  }

  lemma CopyKeepsLoadArgIndices(copied: Function, callee: Function, begin: nat, idOff: nat,
                                 before: BlockId, after: BlockId, nargs: nat)
    requires CopiesAt(copied, callee, begin, idOff, before, after)
    requires forall j :: 0 <= j < |callee.blocks| ==> LoadArgIndicesOk(callee.blocks[j].instrs, nargs)
    requires forall j :: 0 <= j < |callee.blocks| ==> LoadArgPrefix(callee.blocks[j].instrs)
    ensures forall j :: begin <= j < |copied.blocks| ==>
              LoadArgIndicesOk(copied.blocks[j].instrs, nargs) && LoadArgPrefix(copied.blocks[j].instrs)
  {
    forall j | begin <= j < |copied.blocks|
      ensures LoadArgIndicesOk(copied.blocks[j].instrs, nargs) && LoadArgPrefix(copied.blocks[j].instrs)
    {
      var k := j - begin;
      assert copied.blocks[begin + k] == CopiedBlock(callee, k, begin, idOff, before, after);
      LoadArgIndicesOkRename(callee.blocks[k].instrs, nargs, begin, idOff);
      RenameKeepsReturn(callee.blocks[k].instrs, begin, idOff);
    }
  }

  /** The copy of a callee whose exit block is empty has an empty epilogue,
      entered from the block before the copy or from copied blocks. */
  lemma CopiedEpilogue(copied: Function, callee: Function, begin: nat, idOff: nat, before: BlockId, after: BlockId)
    requires EdgesInRange(callee) && EntryExitReturnOk(callee)
    requires CopiesAt(copied, callee, begin, idOff, before, after)
    ensures var ps := copied.blocks[|copied.blocks| - 1].preds;
            && |copied.blocks[|copied.blocks| - 1].instrs| == 0
            && forall k :: 0 <= k < |ps| ==> ps[k] == before || begin <= ps[k] < |copied.blocks|
  {
    var m := |callee.blocks|;
    assert copied.blocks[begin + (m - 1)] == CopiedBlock(callee, m - 1, begin, idOff, before, after);
    CopiedExit(callee, begin, idOff, before, after);
  }

  lemma CopiedExit(callee: Function, begin: nat, idOff: nat, before: BlockId, after: BlockId)
    requires EdgesInRange(callee) && EntryExitReturnOk(callee)
    ensures var m := |callee.blocks|;
            var c := CopiedBlock(callee, m - 1, begin, idOff, before, after);
            && |c.instrs| == 0
            && forall k :: 0 <= k < |c.preds| ==> c.preds[k] == before || begin <= c.preds[k] < begin + m
  {
    var m := |callee.blocks|;
    var c := CopiedBlock(callee, m - 1, begin, idOff, before, after);
    var cp := callee.blocks[m - 1].preds;
    forall k | 0 <= k < |c.preds|
      ensures c.preds[k] == before || begin <= c.preds[k] < begin + m
    {
      if k < |cp| {
        assert c.preds[k] == cp[k] + begin;
        assert cp[k] in cp;
      }
    }
  }

  /** Step three of the splice: argument resolution over the copied blocks
      from `begin` on, which hold the copy of `callee` that `CopiesAt`
      describes. Every block before `begin` is kept; every copied block keeps
      its edges and section, becomes its `ResolvedCopyBlock`, and keeps its
      trailing Return. */
  method ResolveCopy(copied: Function, begin: nat, args: seq<Operand>, ghost callee: Function, ghost idOff: nat,
                     ghost before: BlockId, ghost after: BlockId)
    returns (resolved: Function)
    requires 0 < begin <= |copied.blocks| && ArgsImmOrVreg(args)
    requires CopiesAt(copied, callee, begin, idOff, before, after)
    requires forall j {:trigger LoadArgIndicesOk(callee.blocks[j].instrs, |args|)} :: 0 <= j < |callee.blocks| ==> LoadArgIndicesOk(callee.blocks[j].instrs, |args|)
    requires forall j {:trigger LoadArgIndicesOk(copied.blocks[j].instrs, |args|)} {:trigger LoadArgPrefix(copied.blocks[j].instrs)} :: begin <= j < |copied.blocks| ==>
               LoadArgIndicesOk(copied.blocks[j].instrs, |args|) && LoadArgPrefix(copied.blocks[j].instrs)
    requires InRange(copied, copied.blocks[|copied.blocks| - 1].preds)
    requires before < begin
    ensures |resolved.blocks| == |copied.blocks|
    ensures forall j :: 0 <= j < begin ==> resolved.blocks[j] == copied.blocks[j]
    ensures forall j :: begin <= j < |copied.blocks| ==>
              resolved.blocks[j] == copied.blocks[j].(instrs := resolved.blocks[j].instrs)
              && |resolved.blocks[j].instrs| <= |copied.blocks[j].instrs|
    ensures forall j :: begin <= j < |copied.blocks| ==> NoLoadArg(resolved.blocks[j].instrs)
    ensures forall k :: 0 <= k < |callee.blocks| ==>
              resolved.blocks[begin + k] == ResolvedCopyBlock(callee, args, begin, idOff, before, after, k)
    ensures var epi := |copied.blocks| - 1;
            var ps := copied.blocks[epi].preds;
            && resolved.blocks[epi].preds == ps
            && InRange(resolved, ps)
            && ReturnsOf(resolved, ps) == ReturnsOf(copied, ps)
            && (ReturnsOnce(resolved, ps) <==> ReturnsOnce(copied, ps))
    ensures WellLinked(copied) ==> WellLinked(resolved)
    ensures var bi := copied.blocks[before].instrs;
            EdgesInRange(callee) && |callee.blocks| > 0 && ExitFedBy(copied, before, begin, bi, callee) ==>
              ExitFedBy(resolved, before, begin, bi, callee)
  {
    var epi := |copied.blocks| - 1;
    var ps := copied.blocks[epi].preds;
    resolved := ResolveArguments(copied, begin, |copied.blocks|, args);
    ResolveArgumentsKeepsReturns(copied, begin, |copied.blocks|, args, ps);
    ResolveCopyAll(copied, resolved, callee, args, begin, idOff, before, after);
    if WellLinked(copied) {
      SameEdgesWellLinked(copied, resolved);
    }
    var bi := copied.blocks[before].instrs;
    if EdgesInRange(callee) && |callee.blocks| > 0 && ExitFedBy(copied, before, begin, bi, callee) {
      ExitFedByResolved(copied, resolved, before, begin, bi, callee);
    }
  }

  /** Steps two and three of the splice together: the callee copied between
      the two halves of the split block `cb` and its arguments resolved. The
      copied blocks are `ResolvedCopy` of the callee, with ids above every
      id of `split`. */
  method CopyAndResolve(split: Function, cb: BlockId, callee: Function, args: seq<Operand>)
    returns (resolved: Function)
    requires |split.blocks| > 0 && cb < |split.blocks| - 1
    requires split.blocks[cb].succs == [|split.blocks| - 1] && split.blocks[|split.blocks| - 1].preds == [cb]
    requires WellLinked(callee) && EntryExitReturnOk(callee)
    requires ArgsImmOrVreg(args)
    requires forall j {:trigger LoadArgIndicesOk(callee.blocks[j].instrs, |args|)} :: 0 <= j < |callee.blocks| ==> LoadArgIndicesOk(callee.blocks[j].instrs, |args|)
    requires LoadArgPrefix(Flatten(callee.blocks))
    ensures |resolved.blocks| == |split.blocks| + |callee.blocks|
    ensures forall j :: 0 <= j < |split.blocks| - 1 && j != cb ==> resolved.blocks[j] == split.blocks[j]
    ensures resolved.blocks[cb] == split.blocks[cb].(succs := [|split.blocks|])
    ensures var tail := |split.blocks| - 1;
            resolved.blocks[tail] == split.blocks[tail].(preds := [|resolved.blocks| - 1])
    ensures cb in resolved.blocks[|resolved.blocks| - 1].preds <==> |callee.blocks| == 1
    ensures WellLinked(split) ==> WellLinked(resolved)
    ensures |resolved.blocks[|resolved.blocks| - 1].instrs| == 0
    ensures forall j :: |split.blocks| <= j < |resolved.blocks| ==>
              NoLoadArg(resolved.blocks[j].instrs)
    ensures ExitFedBy(resolved, cb, |split.blocks|, split.blocks[cb].instrs, callee)
    ensures var begin, tail := |split.blocks|, |split.blocks| - 1;
            forall k :: 0 <= k < |callee.blocks| ==>
              resolved.blocks[begin + k] == ResolvedCopyBlock(callee, args, begin, FreshInstrId(split), cb, tail, k)
  {
    var copied := CopyCallee(split, cb, callee, |args|);
    resolved := ResolveCopy(copied, |split.blocks|, args, callee, FreshInstrId(split), cb, |split.blocks| - 1);
  }

  /** Resolution keeps the exit's predecessors and the Returns they end in. */
  lemma ExitFedByResolved(copied: Function, resolved: Function, before: BlockId, begin: nat,
                          beforeInstrs: seq<Instr>, callee: Function)
    requires EdgesInRange(callee) && |callee.blocks| > 0 && |copied.blocks| > 0
    requires ExitFedBy(copied, before, begin, beforeInstrs, callee)
    requires |resolved.blocks| == |copied.blocks|
    requires var epi := |copied.blocks| - 1;
             var ps := copied.blocks[epi].preds;
             && resolved.blocks[epi].preds == ps
             && ReturnsOf(resolved, ps) == ReturnsOf(copied, ps)
             && (ReturnsOnce(resolved, ps) <==> ReturnsOnce(copied, ps))
    ensures ExitFedBy(resolved, before, begin, beforeInstrs, callee)
  {
  }

  /** Step four of the splice: return merging into the empty epilogue (the
      last block), with the call first in block `tail`. It fails exactly when
      a Return reaching the epilogue has no input; otherwise every such
      Return is removed, and the call reads a phi of their values, or becomes
      a Nop when there is no such Return. */
  method MergeIntoEpilogue(resolved: Function, cb: BlockId, tail: BlockId, ghost feed: seq<Option<nat>>)
    returns (r: Option<Function>)
    requires cb < tail < |resolved.blocks| - 1
    requires |resolved.blocks[tail].instrs| > 0
    requires |resolved.blocks[|resolved.blocks| - 1].instrs| == 0
    requires var ps := resolved.blocks[|resolved.blocks| - 1].preds;
             forall k :: 0 <= k < |ps| ==> ps[k] == cb || tail < ps[k] < |resolved.blocks| - 1
    requires ReturnsOnce(resolved, resolved.blocks[|resolved.blocks| - 1].preds)
    requires ReturnsOf(resolved, resolved.blocks[|resolved.blocks| - 1].preds) == feed
    requires forall j :: tail < j < |resolved.blocks| ==> NoLoadArg(resolved.blocks[j].instrs)
    ensures r.Some? ==> |r.value.blocks| == |resolved.blocks|
    ensures r.Some? ==> SameEdges(resolved, r.value)
    ensures r.Some? ==> forall j :: 0 <= j < tail && j != cb ==> r.value.blocks[j] == resolved.blocks[j]
    ensures var ps := resolved.blocks[|resolved.blocks| - 1].preds;
            r.Some? ==> r.value.blocks[cb] == if cb in ps && EndsInReturn(resolved.blocks[cb])
                                              then DropLast(resolved.blocks[cb]) else resolved.blocks[cb]
    ensures r.Some? ==> SameFrame(r.value.blocks[cb], resolved.blocks[cb]) && SameFrame(r.value.blocks[tail], resolved.blocks[tail])
    ensures r.Some? ==> forall j :: tail < j < |resolved.blocks| ==> NoLoadArg(r.value.blocks[j].instrs)
    ensures r.Some? ==> |r.value.blocks[tail].instrs| == |resolved.blocks[tail].instrs|
    ensures r.Some? ==> r.value.blocks[tail].instrs[1..] == resolved.blocks[tail].instrs[1..]
    ensures r.Some? ==> r.value.blocks[tail].instrs[0].id == resolved.blocks[tail].instrs[0].id
    ensures r.Some? && r.value.blocks[tail].instrs[0].op == Nop ==>
              r.value.blocks[tail].instrs[0].inputs == resolved.blocks[tail].instrs[0].inputs
              && |r.value.blocks[|resolved.blocks| - 1].instrs| == 0
    ensures r.Some? && r.value.blocks[tail].instrs[0].op != Nop ==>
              var e := r.value.blocks[|resolved.blocks| - 1];
              && r.value.blocks[tail].instrs[0].op == Move
              && |e.instrs| == 1
              && e.instrs[0].op == Phi
              && r.value.blocks[tail].instrs[0].inputs == [Linked(e.instrs[0].id)]
    ensures r.Some? <==> AllReturnValues(feed)
    ensures var ps := resolved.blocks[|resolved.blocks| - 1].preds;
            r.Some? ==> forall k :: 0 <= k < |ps| && EndsInReturn(resolved.blocks[ps[k]]) ==>
                          r.value.blocks[ps[k]] == DropLast(resolved.blocks[ps[k]])
    ensures r.Some? ==> (r.value.blocks[tail].instrs[0].op == Nop <==> !AnyReturn(feed))
    ensures var epi, ps := |resolved.blocks| - 1, resolved.blocks[|resolved.blocks| - 1].preds;
            r.Some? ==> && ReturnsHaveValues(resolved, ps)
                        && (PhiInputs(resolved, ps) == [] <==> !AnyReturn(feed))
                        && r.value.blocks[epi].instrs ==
                             if PhiInputs(resolved, ps) == [] then []
                             else [Instr(FreshInstrId(resolved), Phi, PhiInputs(resolved, ps))]
    ensures var epi, ps := |resolved.blocks| - 1, resolved.blocks[|resolved.blocks| - 1].preds;
            r.Some? ==> forall j {:trigger r.value.blocks[j], resolved.blocks[j]} ::
                          tail < j < epi && (j !in ps || !EndsInReturn(resolved.blocks[j])) ==>
                          r.value.blocks[j] == resolved.blocks[j]
    ensures r.Some? ==> SameFrame(r.value.blocks[|resolved.blocks| - 1], resolved.blocks[|resolved.blocks| - 1])
  {
    var epi := |resolved.blocks| - 1;
    var epiPreds := resolved.blocks[epi].preds;
    assert tail !in epiPreds;
    r := ResolveReturnValue(resolved, epi, tail, FreshInstrId(resolved));
    ResolveReturnValueFrame(resolved, epi, tail, FreshInstrId(resolved));
    ResolveReturnValueCall(resolved, epi, tail, FreshInstrId(resolved));
    ResolveReturnValueOnce(resolved, epi, tail, FreshInstrId(resolved));
    ReturnsOfMeans(resolved, epiPreds, epi);
    if r.None? {
      return;
    }
    var after := r.value;
    forall j | 0 <= j < tail && j != cb
      ensures after.blocks[j] == resolved.blocks[j]
    {
      assert j !in epiPreds;
    }
    if cb in epiPreds && EndsInReturn(resolved.blocks[cb]) {
      var k :| 0 <= k < |epiPreds| && epiPreds[k] == cb;
    }
    PhiInputsEmpty(resolved, epiPreds);
    forall j | tail < j < |resolved.blocks|
      ensures NoLoadArg(after.blocks[j].instrs)
    {
      if j != epi {
        PrefixNoLoadArg(after.blocks[j].instrs, resolved.blocks[j].instrs);
      } else if ReturnsInto(resolved, epi) {
        assert after.blocks[epi].instrs == [LastInstr(after.blocks[epi])];
      }
    }
    if ReturnsInto(resolved, epi) {
      assert after.blocks[epi].instrs == [LastInstr(after.blocks[epi])];
    }
  }

  /** The splice proper, once every check has passed: split the caller at the
      call, copy the callee in between, resolve its arguments, merge its
      returns. `None` exactly when a Return reaching the copied exit has no
      input; the call becomes a Nop exactly when no Return reaches it. */
  method Splice(caller: Function, cb: BlockId, ci: nat, callee: Function, args: seq<Operand>)
    returns (r: Option<Function>)
    requires cb < |caller.blocks| && ci < |caller.blocks[cb].instrs|
    requires WellLinked(callee) && EntryExitReturnOk(callee)
    requires ArgsImmOrVreg(args)
    requires forall j :: 0 <= j < |callee.blocks| ==> LoadArgIndicesOk(callee.blocks[j].instrs, |args|)
    requires LoadArgPrefix(Flatten(callee.blocks))
    ensures r.Some? ==> SpliceShape(caller, cb, ci, callee, r.value)
    ensures r.Some? <==> AllReturnValues(ExitFeed(caller.blocks[cb].instrs[..ci], callee))
    ensures r.Some? ==>
              (r.value.blocks[|caller.blocks|].instrs[0].op == Nop <==>
                 !AnyReturn(ExitFeed(caller.blocks[cb].instrs[..ci], callee)))
    ensures r.Some? ==> CalleePlaced(caller, cb, callee, args, r.value)
    ensures r.Some? ==> ReturnsMerged(caller, cb, ci, callee, args, r.value)
    ensures r.Some? && WellLinked(caller) ==> WellLinked(r.value)
  {
    var n := |caller.blocks|;
    var resolved := SplitAndCopy(caller, cb, ci, callee, args);
    r := MergeIntoEpilogue(resolved, cb, n, ExitFeed(caller.blocks[cb].instrs[..ci], callee));
    if r.Some? {
      MergedCopies(n, resolved, r.value);
      PlacedFromResolved(caller, cb, callee, args, resolved, r.value);
      CallerBlocksSpliced(caller, cb, ci, |callee.blocks|, resolved, r.value);
      SpliceShapeOfMerged(caller, cb, ci, callee, resolved, r.value);
      PhiFromResolved(caller, cb, ci, callee, args, resolved, r.value);
      if WellLinked(caller) {
        SameEdgesWellLinked(resolved, r.value);
      }
    }
  }

  /** Steps one to three of the splice, as the caller sees them: the call's
      block `cb` split before the call into itself and a new last block `n`,
      and the callee's blocks copied after it with their arguments resolved.
      `cb` keeps the instructions before the call and jumps to the copied
      entry; `n` holds the call and what followed it and is entered from the
      copied exit; every successor of `cb` names `n` in its place. */
  method SplitAndCopy(caller: Function, cb: BlockId, ci: nat, callee: Function, args: seq<Operand>)
    returns (resolved: Function)
    requires cb < |caller.blocks| && ci < |caller.blocks[cb].instrs|
    requires WellLinked(callee) && EntryExitReturnOk(callee)
    requires ArgsImmOrVreg(args)
    requires forall j :: 0 <= j < |callee.blocks| ==> LoadArgIndicesOk(callee.blocks[j].instrs, |args|)
    requires LoadArgPrefix(Flatten(callee.blocks))
    ensures |resolved.blocks| == |caller.blocks| + 1 + |callee.blocks|
    ensures forall j :: 0 <= j < |caller.blocks| && j != cb ==>
              resolved.blocks[j] == caller.blocks[j].(preds := SplitPreds(caller, cb, j))
    ensures var b := caller.blocks[cb];
            resolved.blocks[cb] == Block(b.instrs[..ci], SplitPreds(caller, cb, cb), [|caller.blocks| + 1], b.section)
    ensures var b, n := caller.blocks[cb], |caller.blocks|;
            resolved.blocks[n] == Block(b.instrs[ci..], [|resolved.blocks| - 1], b.succs, b.section)
    ensures cb in resolved.blocks[|resolved.blocks| - 1].preds <==> |callee.blocks| == 1
    ensures WellLinked(caller) ==> WellLinked(resolved)
    ensures |resolved.blocks[|resolved.blocks| - 1].instrs| == 0
    ensures forall j :: |caller.blocks| < j < |resolved.blocks| ==> NoLoadArg(resolved.blocks[j].instrs)
    ensures ExitFedBy(resolved, cb, |caller.blocks| + 1, caller.blocks[cb].instrs[..ci], callee)
    ensures var n := |caller.blocks|;
            var begin, off := n + 1, FreshInstrId(caller);
            forall k :: 0 <= k < |callee.blocks| ==>
              resolved.blocks[begin + k] == ResolvedCopyBlock(callee, args, begin, off, cb, n, k)
  {
    var split := SplitAtCall(caller, cb, ci);
    resolved := CopyAndResolve(split, cb, callee, args);
    SplitKeepsFreshInstrId(caller, split, cb);
    CopyAtCallerOffsets(caller, split, cb, callee, args, resolved);
  }

  /** `SpliceShape` from what return merging promises about the tail `n`,
      the block holding the call and what followed it, and about the copied
      blocks. */
  lemma SpliceShapeOfMerged(caller: Function, cb: BlockId, ci: nat, callee: Function, resolved: Function, after: Function)
    requires cb < |caller.blocks| && ci < |caller.blocks[cb].instrs|
    requires |resolved.blocks| == |after.blocks| == |caller.blocks| + 1 + |callee.blocks|
    requires var b, n := caller.blocks[cb], |caller.blocks|;
             resolved.blocks[n] == Block(b.instrs[ci..], [|resolved.blocks| - 1], b.succs, b.section)
    requires forall j :: 0 <= j < |caller.blocks| ==>
               after.blocks[j] == SplicedCallerBlock(caller, cb, ci, |callee.blocks|, j)
    requires forall j :: |caller.blocks| < j < |resolved.blocks| ==> NoLoadArg(after.blocks[j].instrs)
    requires var n := |caller.blocks|;
             && SameFrame(after.blocks[n], resolved.blocks[n])
             && |after.blocks[n].instrs| == |resolved.blocks[n].instrs|
             && after.blocks[n].instrs[1..] == resolved.blocks[n].instrs[1..]
             && after.blocks[n].instrs[0].id == resolved.blocks[n].instrs[0].id
    requires var n := |caller.blocks|;
             after.blocks[n].instrs[0].op == Nop ==>
               after.blocks[n].instrs[0].inputs == resolved.blocks[n].instrs[0].inputs
               && |after.blocks[|resolved.blocks| - 1].instrs| == 0
    requires var n := |caller.blocks|;
             after.blocks[n].instrs[0].op != Nop ==>
               var e := after.blocks[|resolved.blocks| - 1];
               && after.blocks[n].instrs[0].op == Move
               && |e.instrs| == 1
               && e.instrs[0].op == Phi
               && after.blocks[n].instrs[0].inputs == [Linked(e.instrs[0].id)]
    ensures SpliceShape(caller, cb, ci, callee, after)
  {
    var b := caller.blocks[cb];
    assert b.instrs[ci..][1..] == b.instrs[ci + 1..];
  }

  /** The caller's blocks after return merging, from what splitting,
      copying and merging did to them: `SplicedCallerBlock`. */
  lemma CallerBlocksSpliced(caller: Function, cb: BlockId, ci: nat, m: nat, resolved: Function, after: Function)
    requires cb < |caller.blocks| && ci < |caller.blocks[cb].instrs| && m > 0
    requires |resolved.blocks| == |after.blocks| == |caller.blocks| + 1 + m
    requires forall j :: 0 <= j < |caller.blocks| && j != cb ==>
               resolved.blocks[j] == caller.blocks[j].(preds := SplitPreds(caller, cb, j))
    requires var b := caller.blocks[cb];
             resolved.blocks[cb] == Block(b.instrs[..ci], SplitPreds(caller, cb, cb), [|caller.blocks| + 1], b.section)
    requires cb in resolved.blocks[|resolved.blocks| - 1].preds <==> m == 1
    requires forall j :: 0 <= j < |caller.blocks| && j != cb ==> after.blocks[j] == resolved.blocks[j]
    requires var ps := resolved.blocks[|resolved.blocks| - 1].preds;
             after.blocks[cb] == if cb in ps && EndsInReturn(resolved.blocks[cb])
                                 then DropLast(resolved.blocks[cb]) else resolved.blocks[cb]
    ensures forall j :: 0 <= j < |caller.blocks| ==> after.blocks[j] == SplicedCallerBlock(caller, cb, ci, m, j)
  {
    var head := caller.blocks[cb].instrs[..ci];
    assert EndsInReturn(resolved.blocks[cb]) <==> TrailingReturn(head).Some?;
  }

  /** The epilogue after return merging, read against `BeforeMerge`: the
      blocks merging read are the call's block cut before the call and the
      resolved copies, which `BeforeMerge` holds with the same
      instructions. */
  lemma PhiFromResolved(caller: Function, cb: BlockId, ci: nat, callee: Function, args: seq<Operand>,
                        resolved: Function, after: Function)
    requires cb < |caller.blocks| && ci <= |caller.blocks[cb].instrs|
    requires ArgsImmOrVreg(args)
    requires forall j :: 0 <= j < |callee.blocks| ==> LoadArgIndicesOk(callee.blocks[j].instrs, |args|)
    requires |resolved.blocks| == |after.blocks| == |caller.blocks| + 1 + |callee.blocks|
    requires resolved.blocks[cb].instrs == caller.blocks[cb].instrs[..ci]
    requires var n := |caller.blocks|;
             var begin, off := n + 1, FreshInstrId(caller);
             forall k :: 0 <= k < |callee.blocks| ==>
               resolved.blocks[begin + k] == ResolvedCopyBlock(callee, args, begin, off, cb, n, k)
    requires var epi, ps := |resolved.blocks| - 1, resolved.blocks[|resolved.blocks| - 1].preds;
             forall k :: 0 <= k < |ps| ==> ps[k] == cb || |caller.blocks| < ps[k] < epi
    requires SameFrame(after.blocks[|resolved.blocks| - 1], resolved.blocks[|resolved.blocks| - 1])
    requires InRange(resolved, resolved.blocks[|resolved.blocks| - 1].preds)
    requires var epi, ps := |resolved.blocks| - 1, resolved.blocks[|resolved.blocks| - 1].preds;
             && ReturnsHaveValues(resolved, ps)
             && after.blocks[epi].instrs ==
                  if PhiInputs(resolved, ps) == [] then []
                  else [Instr(FreshInstrId(resolved), Phi, PhiInputs(resolved, ps))]
    ensures ReturnsMerged(caller, cb, ci, callee, args, after)
  {
    var n := |caller.blocks|;
    var src := BeforeMerge(caller, cb, ci, callee, args);
    var epi, ps := |resolved.blocks| - 1, resolved.blocks[|resolved.blocks| - 1].preds;
    BeforeMergeAgrees(caller, cb, ci, callee, args, resolved);
    InstrsAgreeOn(resolved, src, ps, cb, n + 1, |callee.blocks|);
    PhiInputsSameInstrs(resolved, src, ps);
  }

  /** The blocks of `BeforeMerge` that return merging reads. */
  lemma BeforeMergeBlocks(caller: Function, cb: BlockId, ci: nat, callee: Function, args: seq<Operand>)
    requires cb < |caller.blocks| && ci <= |caller.blocks[cb].instrs|
    requires ArgsImmOrVreg(args)
    requires forall j :: 0 <= j < |callee.blocks| ==> LoadArgIndicesOk(callee.blocks[j].instrs, |args|)
    ensures var src := BeforeMerge(caller, cb, ci, callee, args);
            && src.blocks[cb].instrs == caller.blocks[cb].instrs[..ci]
            && var n := |caller.blocks|;
               var begin, off := n + 1, FreshInstrId(caller);
               forall k :: 0 <= k < |callee.blocks| ==> src.blocks[begin + k] == ResolvedCopyBlock(callee, args, begin, off, cb, n, k)
  {
  }

  /** A function holding the resolved copies at the caller's offsets agrees
      with `BeforeMerge` on those blocks and on the head's instructions. */
  lemma BeforeMergeAgrees(caller: Function, cb: BlockId, ci: nat, callee: Function, args: seq<Operand>,
                          resolved: Function)
    requires cb < |caller.blocks| && ci <= |caller.blocks[cb].instrs|
    requires ArgsImmOrVreg(args)
    requires forall j :: 0 <= j < |callee.blocks| ==> LoadArgIndicesOk(callee.blocks[j].instrs, |args|)
    requires |resolved.blocks| == |caller.blocks| + 1 + |callee.blocks|
    requires resolved.blocks[cb].instrs == caller.blocks[cb].instrs[..ci]
    requires var n := |caller.blocks|;
             var begin, off := n + 1, FreshInstrId(caller);
             forall k :: 0 <= k < |callee.blocks| ==>
               resolved.blocks[begin + k] == ResolvedCopyBlock(callee, args, begin, off, cb, n, k)
    ensures var src := BeforeMerge(caller, cb, ci, callee, args);
            && src.blocks[cb].instrs == resolved.blocks[cb].instrs
            && forall j :: |caller.blocks| < j < |src.blocks| ==> src.blocks[j] == resolved.blocks[j]
  {
    var n := |caller.blocks|;
    var src := BeforeMerge(caller, cb, ci, callee, args);
    BeforeMergeBlocks(caller, cb, ci, callee, args);
    forall j | n < j < |src.blocks|
      ensures src.blocks[j] == resolved.blocks[j]
    {
      var k := j - (|caller.blocks| + 1);
      var rc := ResolvedCopyBlock(callee, args, |caller.blocks| + 1, FreshInstrId(caller), cb, |caller.blocks|, k);
      assert |caller.blocks| + 1 + k == j;
      assert src.blocks[|caller.blocks| + 1 + k] == rc;
      assert resolved.blocks[|caller.blocks| + 1 + k] == rc;
    }
  }

  /** Inlines the call at instruction `ci` of block `cb` of `caller`: look up
      the callee, run the three checks, and splice. */
  method InlineCall(caller: Function, cb: BlockId, ci: nat, symbols: map<U64, string>,
                    library: map<string, Function>, cache: Cache)
    returns (status: Status, after: Function, callee: Option<Function>, cache': Cache)
    requires cb < |caller.blocks| && ci < |caller.blocks[cb].instrs|
    requires AllWellLinked(library) && AllWellLinked(cache)
    ensures (callee, cache') == FindFunction(caller.blocks[cb].instrs[ci], symbols, library, cache)
    ensures AllWellLinked(cache') && (callee.Some? ==> WellLinked(callee.value))
    ensures status.Declined? <==> callee.None? || !Inlineable(callee.value, caller.blocks[cb].instrs[ci])
    ensures status.Inlined? <==>
              && callee.Some? && Inlineable(callee.value, caller.blocks[cb].instrs[ci])
              && AllReturnValues(ExitFeed(caller.blocks[cb].instrs[..ci], callee.value))
    ensures !status.Inlined? ==> after == caller
    ensures status.Inlined? ==> callee.Some? && SpliceShape(caller, cb, ci, callee.value, after)
    ensures status.Inlined? ==>
              (after.blocks[|caller.blocks|].instrs[0].op == Nop <==>
                 !AnyReturn(ExitFeed(caller.blocks[cb].instrs[..ci], callee.value)))
    ensures status.Inlined? ==>
              var args := ArgumentList(caller.blocks[cb].instrs[ci]);
              CalleePlaced(caller, cb, callee.value, args, after) && ReturnsMerged(caller, cb, ci, callee.value, args, after)
    ensures WellLinked(caller) ==> WellLinked(after)
  {
    var call := caller.blocks[cb].instrs[ci];
    var found := FindFunction(call, symbols, library, cache);
    callee, cache' := found.0, found.1;
    after := caller;
    if callee.None? {
      return Declined, after, callee, cache';
    }
    var c := callee.value;
    assert WellLinked(c);
    var ok := CheckEntryExitReturn(c);
    if !ok {
      return Declined, after, callee, cache';
    }
    var args;
    ok, args := CheckArguments(call);
    if !ok {
      return Declined, after, callee, cache';
    }
    ok := CheckLoadArg(c, call);
    if !ok {
      return Declined, after, callee, cache';
    }
    LoadArgIndexInRange(c, call);
    var r := Splice(caller, cb, ci, c, args);
    if r.None? {
      return Fatal, after, callee, cache';
    }
    return Inlined, r.value, callee, cache';
  }
}

=== FILE: lir.dfy ===
/** The LIR graph the inliner and the block builder work on: operands,
    instructions, basic blocks and functions. The graph is an arena: a block
    is named by its position in its function's block list and an instruction
    by an id that is unique within its function. Linked operands and
    predecessor/successor lists are non-owning references written with those
    names. */
module Lir {
  import opened Wrappers

  type InstrId = nat
  type BlockId = nat

  /** An unsigned 64-bit constant: the type of an immediate's value. */
  type U64 = x: int | 0 <= x < 0x1_0000_0000_0000_0000

  const U64_MAX: U64 := 0xFFFF_FFFF_FFFF_FFFF

  datatype Opcode = Move | Phi | Call | LoadArg | Return | Nop | Other(code: nat)

  /** A base or index register of a memory-indirect operand. */
  datatype MemReg = VReg(def: InstrId) | PhysReg(num: nat)

  datatype Operand =
    | Imm(value: U64)                           // an immediate constant
    | Linked(def: InstrId)                      // the output of instruction `def`
    | Ind(base: MemReg, index: Option<MemReg>)  // a memory-indirect reference
    | Label(block: BlockId)                     // a basic-block reference (phi inputs)
    | Reg(num: nat)                             // a physical register or stack slot

  datatype Instr = Instr(id: InstrId, op: Opcode, inputs: seq<Operand>)

  /** The code section a block is placed in. */
  datatype Section = Hot | Cold

  datatype Block = Block(instrs: seq<Instr>, preds: seq<BlockId>, succs: seq<BlockId>, section: Section)

  /** A function: its blocks in layout order; block 0 is the entry. */
  datatype Function = Function(blocks: seq<Block>)

  /** A freshly allocated block: no instructions, no edges. */
  function EmptyBlock(): Block
  {
    Block([], [], [], Hot)
  }

  /** The instruction stream of a block list: blocks in order, each block's
      instructions in order. */
  function Flatten(bs: seq<Block>): seq<Instr>
  {
    if |bs| == 0 then [] else bs[0].instrs + Flatten(bs[1..])
  }

  lemma {:induction false} FlattenContains(bs: seq<Block>, j: nat, k: nat)
    requires j < |bs| && k < |bs[j].instrs|
    ensures bs[j].instrs[k] in Flatten(bs)
  {
    if j > 0 {
      FlattenContains(bs[1..], j - 1, k);
    } else {
      assert Flatten(bs)[k] == bs[0].instrs[k];
    }
  }

  lemma {:induction false} FlattenAppend(a: seq<Block>, b: seq<Block>)
    ensures Flatten(a + b) == Flatten(a) + Flatten(b)
  {
    if |a| > 0 {
      assert (a + b)[1..] == a[1..] + b;
      FlattenAppend(a[1..], b);
    } else {
      assert a + b == b;
    }
  }

  /** One more than the largest instruction id in `s`, or 0 for no instructions. */
  function IdBound(s: seq<Instr>): (r: nat)
    ensures forall x :: x in s ==> x.id < r
    ensures r == 0 || exists x :: x in s && x.id + 1 == r
  {
    if |s| == 0 then 0
    else
      var r := IdBound(s[1..]);
      assert forall x :: x in s ==> x == s[0] || x in s[1..];
      if r <= s[0].id then s[0].id + 1 else r
  }

  /** An instruction id that no instruction of `f` uses. */
  function FreshInstrId(f: Function): InstrId
  {
    IdBound(Flatten(f.blocks))
  }

  lemma FreshInstrIdIsFresh(f: Function, j: nat, k: nat)
    requires j < |f.blocks| && k < |f.blocks[j].instrs|
    ensures f.blocks[j].instrs[k].id < FreshInstrId(f)
  {
    FlattenContains(f.blocks, j, k);
  }

  /** Every predecessor and successor names a block of `f`: what holds of the
      source's pointer graph by construction. */
  predicate EdgesInRange(f: Function)
  {
    forall j :: 0 <= j < |f.blocks| ==>
      (forall p :: p in f.blocks[j].preds ==> p < |f.blocks|) &&
      (forall p :: p in f.blocks[j].succs ==> p < |f.blocks|)
  }

  /** Every edge is recorded at both of its ends, and as often at one as at
      the other: block `p` lists `j` among its successors exactly as many
      times as `j` lists `p` among its predecessors. */
  predicate EdgesMatch(f: Function)
  {
    forall j, p {:trigger multiset(f.blocks[j].preds)[p]} :: 0 <= j < |f.blocks| && 0 <= p < |f.blocks| ==>
      multiset(f.blocks[j].preds)[p] == multiset(f.blocks[p].succs)[j]
  }

  /** The edge lists form a graph over the blocks of `f`. */
  predicate WellLinked(f: Function)
  {
    EdgesInRange(f) && EdgesMatch(f)
  }

  /** `g` has `f`'s blocks with `f`'s edges; instructions and sections may
      differ. */
  predicate SameEdges(f: Function, g: Function)
  {
    && |g.blocks| == |f.blocks|
    && forall j :: 0 <= j < |f.blocks| ==> g.blocks[j].preds == f.blocks[j].preds && g.blocks[j].succs == f.blocks[j].succs
  }

  /** Rewriting instructions keeps a graph well linked. */
  lemma SameEdgesWellLinked(f: Function, g: Function)
    requires WellLinked(f) && SameEdges(f, g)
    ensures WellLinked(g)
  {
    forall j, p | 0 <= j < |g.blocks| && 0 <= p < |g.blocks|
      ensures multiset(g.blocks[j].preds)[p] == multiset(g.blocks[p].succs)[j]
    {
      assert multiset(f.blocks[j].preds)[p] == multiset(f.blocks[p].succs)[j];
    }
  }

  /** `s` with every occurrence of `a` replaced by `b`. */
  function Replace(s: seq<BlockId>, a: BlockId, b: BlockId): seq<BlockId>
  {
    seq(|s|, k requires 0 <= k < |s| => if s[k] == a then b else s[k])
  }

  /** `f` with block `b` split before its `k`-th instruction. The head keeps
      the instructions before it and gets the tail as its only successor; the
      tail takes the `k`-th instruction and the rest, `b`'s successors, and
      `b`'s place in each successor's predecessor list. The tail is appended
      to the arena, so its id is the old block count. */
  function SplitBefore(f: Function, b: BlockId, k: nat): (r: Function)
    requires b < |f.blocks| && k < |f.blocks[b].instrs|
    ensures |r.blocks| == |f.blocks| + 1
    ensures |r.blocks[b].instrs| == k
    ensures r.blocks[b].instrs + r.blocks[|f.blocks|].instrs == f.blocks[b].instrs
    ensures r.blocks[|f.blocks|].instrs[0] == f.blocks[b].instrs[k]
    ensures r.blocks[b].succs == [|f.blocks|] && r.blocks[|f.blocks|].preds == [b]
    ensures r.blocks[|f.blocks|].succs == f.blocks[b].succs
    ensures r.blocks[b].section == f.blocks[b].section && r.blocks[|f.blocks|].section == f.blocks[b].section
    ensures forall j :: 0 <= j < |f.blocks| && j != b ==>
              r.blocks[j].instrs == f.blocks[j].instrs && r.blocks[j].succs == f.blocks[j].succs
    ensures forall j :: 0 <= j < |f.blocks| ==>
              r.blocks[j].preds == if j in f.blocks[b].succs then Replace(f.blocks[j].preds, b, |f.blocks|)
                                   else f.blocks[j].preds
  {
    var n := |f.blocks|;
    var orig := f.blocks[b];
    var rewired := seq(n, j requires 0 <= j < n =>
      var x := f.blocks[j];
      var x1 := if j in orig.succs then x.(preds := Replace(x.preds, b, n)) else x;
      if j == b then x1.(instrs := orig.instrs[..k], succs := [n]) else x1);
    assert orig.instrs[..k] + orig.instrs[k..] == orig.instrs;
    Function(rewired + [Block(orig.instrs[k..], [b], orig.succs, orig.section)])
  }

  /** How often `x` occurs in `s` once every `a` is replaced by `b`. */
  lemma {:induction false} CountReplace(s: seq<BlockId>, a: BlockId, b: BlockId, x: BlockId)
    requires a != b
    ensures multiset(Replace(s, a, b))[x] ==
              if x == a then 0 else if x == b then multiset(s)[b] + multiset(s)[a] else multiset(s)[x]
  {
    if |s| > 0 {
      var t := s[..|s| - 1];
      assert s == t + [s[|s| - 1]];
      assert Replace(s, a, b) == Replace(t, a, b) + [Replace(s, a, b)[|s| - 1]];
      CountReplace(t, a, b, x);
    }
  }

  /** How often `x` occurs in `s` once every entry is moved up by `off`. */
  lemma {:induction false} CountShift(s: seq<BlockId>, off: nat, x: BlockId)
    ensures multiset(Shift(s, off))[x] == if x >= off then multiset(s)[x - off] else 0
  {
    if |s| > 0 {
      var t := s[..|s| - 1];
      assert s == t + [s[|s| - 1]];
      assert Shift(s, off) == Shift(t, off) + [s[|s| - 1] + off];
      CountShift(t, off, x);
    }
  }

  /** A block id beyond every entry of `s` does not occur in it. */
  lemma CountAbove(s: seq<BlockId>, n: nat, x: BlockId)
    requires forall p :: p in s ==> p < n
    requires x >= n
    ensures multiset(s)[x] == 0
  {
    assert x !in s;
    assert x !in multiset(s);
  }

  /** An entry of `Replace(s, a, c)` is `c` or an entry of `s`. */
  lemma ReplaceIn(s: seq<BlockId>, a: BlockId, c: BlockId, p: BlockId)
    requires p in Replace(s, a, c)
    ensures p == c || p in s
  {
    var i :| 0 <= i < |s| && Replace(s, a, c)[i] == p;
  }

  /** Splitting a block keeps every edge recorded at both ends: the edge
      from the head to the tail is new on both sides, and each edge that
      left the split block now leaves the tail, on both sides. */
  lemma SplitBeforeWellLinked(f: Function, b: BlockId, k: nat)
    requires b < |f.blocks| && k < |f.blocks[b].instrs| && WellLinked(f)
    ensures WellLinked(SplitBefore(f, b, k))
  {
    var r := SplitBefore(f, b, k);
    forall j | 0 <= j < |r.blocks|
      ensures (forall p :: p in r.blocks[j].preds ==> p < |r.blocks|)
      ensures (forall p :: p in r.blocks[j].succs ==> p < |r.blocks|)
    {
      SplitEdgesInRange(f, b, k, j);
    }
    forall j, p | 0 <= j < |r.blocks| && 0 <= p < |r.blocks|
      ensures multiset(r.blocks[j].preds)[p] == multiset(r.blocks[p].succs)[j]
    {
      SplitEdgeCount(f, b, k, j, p);
    }
  }

  lemma SplitEdgesInRange(f: Function, b: BlockId, k: nat, j: nat)
    requires b < |f.blocks| && k < |f.blocks[b].instrs| && EdgesInRange(f)
    requires j <= |f.blocks|
    ensures var r := SplitBefore(f, b, k);
            && (forall p :: p in r.blocks[j].preds ==> p < |r.blocks|)
            && (forall p :: p in r.blocks[j].succs ==> p < |r.blocks|)
  {
    var r := SplitBefore(f, b, k);
    var n := |f.blocks|;
    if j < n && j in f.blocks[b].succs {
      forall p | p in r.blocks[j].preds
        ensures p < |r.blocks|
      {
        ReplaceIn(f.blocks[j].preds, b, n, p);
      }
    }
  }

  /** The edge count from `p` to `j` after splitting block `b`. */
  lemma SplitEdgeCount(f: Function, b: BlockId, k: nat, j: nat, p: nat)
    requires b < |f.blocks| && k < |f.blocks[b].instrs| && WellLinked(f)
    requires j <= |f.blocks| && p <= |f.blocks|
    ensures var r := SplitBefore(f, b, k);
            multiset(r.blocks[j].preds)[p] == multiset(r.blocks[p].succs)[j]
  {
    var r := SplitBefore(f, b, k);
    var n := |f.blocks|;
    var bs := f.blocks;
    if j < n {
      CountReplace(bs[j].preds, b, n, p);
      CountAbove(bs[j].preds, n, n);
      if p < n {
        assert multiset(bs[j].preds)[p] == multiset(bs[p].succs)[j];
      } else {
        assert multiset(bs[j].preds)[b] == multiset(bs[b].succs)[j];
      }
      if j !in bs[b].succs {
        assert multiset(bs[j].preds)[b] == multiset(bs[b].succs)[j];
      }
    } else if p < n && p != b {
      CountAbove(bs[p].succs, n, n);
    } else if p == n {
      CountAbove(bs[b].succs, n, n);
    }
  }

  lemma {:induction false} FlattenMember(bs: seq<Block>, x: Instr)
    ensures x in Flatten(bs) <==> exists j :: 0 <= j < |bs| && x in bs[j].instrs
  {
    if |bs| > 0 {
      FlattenMember(bs[1..], x);
      if x in Flatten(bs[1..]) {
        var j :| 0 <= j < |bs[1..]| && x in bs[1..][j].instrs;
        assert x in bs[j + 1].instrs;
      }
      if exists j :: 0 <= j < |bs| && x in bs[j].instrs {
        var j :| 0 <= j < |bs| && x in bs[j].instrs;
        if j > 0 {
          assert x in bs[1..][j - 1].instrs;
        }
      }
    }
  }

  /** Splitting a block moves instructions but creates none, so the next
      fresh instruction id stays the same: `r` is `f` with block `b`'s
      instructions divided between `b` and a new last block. */
  lemma SplitKeepsFreshInstrId(f: Function, r: Function, b: BlockId)
    requires b < |f.blocks| && |r.blocks| == |f.blocks| + 1
    requires r.blocks[b].instrs + r.blocks[|f.blocks|].instrs == f.blocks[b].instrs
    requires forall j :: 0 <= j < |f.blocks| && j != b ==> r.blocks[j].instrs == f.blocks[j].instrs
    ensures FreshInstrId(r) == FreshInstrId(f)
  {
    var n := |f.blocks|;
    forall x
      ensures x in Flatten(r.blocks) <==> x in Flatten(f.blocks)
    {
      FlattenMember(r.blocks, x);
      FlattenMember(f.blocks, x);
      if x in f.blocks[b].instrs {
        assert x in r.blocks[b].instrs + r.blocks[n].instrs;
      }
      if x in r.blocks[n].instrs {
        assert x in r.blocks[b].instrs + r.blocks[n].instrs;
      }
      if x in r.blocks[b].instrs {
        assert x in r.blocks[b].instrs + r.blocks[n].instrs;
      }
    }
  }

  function RenameReg(r: MemReg, idOff: nat): MemReg
  {
    match r
    case VReg(d) => VReg(d + idOff)
    case PhysReg(_) => r
  }

  /** An operand of the callee as copied into the caller: instruction
      references move by `idOff`, block references by `blockOff`. */
  function RenameOperand(o: Operand, blockOff: nat, idOff: nat): Operand
  {
    match o
    case Linked(d) => Linked(d + idOff)
    case Ind(base, index) =>
      Ind(RenameReg(base, idOff), if index.Some? then Some(RenameReg(index.value, idOff)) else None)
    case Label(l) => Label(l + blockOff)
    case _ => o
  }

  function RenameInstr(i: Instr, blockOff: nat, idOff: nat): Instr
  {
    Instr(i.id + idOff, i.op, seq(|i.inputs|, k requires 0 <= k < |i.inputs| => RenameOperand(i.inputs[k], blockOff, idOff)))
  }

  function RenameInstrs(s: seq<Instr>, blockOff: nat, idOff: nat): seq<Instr>
  {
    seq(|s|, k requires 0 <= k < |s| => RenameInstr(s[k], blockOff, idOff))
  }

  function Shift(s: seq<BlockId>, off: nat): seq<BlockId>
  {
    seq(|s|, k requires 0 <= k < |s| => s[k] + off)
  }

  /** The copy of the callee's `j`-th block placed at `begin + j`; the copied
      entry gains `before` as a predecessor and the copied exit gains `after`
      as a successor. */
  function CopiedBlock(callee: Function, j: nat, begin: nat, idOff: nat, before: BlockId, after: BlockId): Block
    requires j < |callee.blocks|
  {
    var cb := callee.blocks[j];
    Block(RenameInstrs(cb.instrs, begin, idOff),
          Shift(cb.preds, begin) + (if j == 0 then [before] else []),
          Shift(cb.succs, begin) + (if j == |callee.blocks| - 1 then [after] else []),
          cb.section)
  }

  /** Every block of `callee`, copied as `CopiedBlock` copies it. */
  function CopiedBlocks(callee: Function, begin: nat, idOff: nat, before: BlockId, after: BlockId): (r: seq<Block>)
    ensures |r| == |callee.blocks|
  {
    seq(|callee.blocks|, j requires 0 <= j < |callee.blocks| => CopiedBlock(callee, j, begin, idOff, before, after))
  }

  /** `f` with a copy of every block of `callee` appended, so that the copy
      occupies `[|f.blocks|, |f.blocks| + |callee.blocks|)` with the callee's
      last block last, and with the edge `before -> after` rerouted through
      the copy. Copied instructions get ids no instruction of `f` has. */
  function CopyFrom(f: Function, callee: Function, before: BlockId, after: BlockId): (r: Function)
    requires before < |f.blocks| && after < |f.blocks| && before != after
    requires |callee.blocks| > 0
    ensures |r.blocks| == |f.blocks| + |callee.blocks|
  {
    var n := |f.blocks|;
    var m := |callee.blocks|;
    var off := FreshInstrId(f);
    var rewired := seq(n, j requires 0 <= j < n =>
      var x := f.blocks[j];
      if j == before then x.(succs := Replace(x.succs, after, n))
      else if j == after then x.(preds := Replace(x.preds, before, n + m - 1))
      else x);
    Function(rewired + seq(m, j requires 0 <= j < m => CopiedBlock(callee, j, n, off, before, after)))
  }

  /** The `j`-th copied block is the callee's `j`-th block with its
      instructions renamed, and every copied instruction has an id above all
      of `f`'s. */
  lemma CopyFromCopies(f: Function, callee: Function, before: BlockId, after: BlockId, j: nat)
    requires before < |f.blocks| && after < |f.blocks| && before != after
    requires j < |callee.blocks|
    ensures var r := CopyFrom(f, callee, before, after);
            && r.blocks[|f.blocks| + j] == CopiedBlock(callee, j, |f.blocks|, FreshInstrId(f), before, after)
            && r.blocks[|f.blocks| + j].instrs == RenameInstrs(callee.blocks[j].instrs, |f.blocks|, FreshInstrId(f))
            && forall x :: x in r.blocks[|f.blocks| + j].instrs ==> x.id >= FreshInstrId(f)
  {
  }

  /** Blocks `begin` onward of `r` are the copies of the callee's blocks,
      in order. */
  predicate CopiesAt(r: Function, callee: Function, begin: nat, idOff: nat, before: BlockId, after: BlockId)
  {
    && |r.blocks| == begin + |callee.blocks|
    && forall j {:trigger CopiedBlock(callee, j, begin, idOff, before, after)} :: 0 <= j < |callee.blocks| ==>
         r.blocks[begin + j] == CopiedBlock(callee, j, begin, idOff, before, after)
  }

  /** `CopyFromCopies` for every copied block at once. */
  lemma CopyFromCopiesAll(f: Function, callee: Function, before: BlockId, after: BlockId)
    requires before < |f.blocks| && after < |f.blocks| && before != after
    requires |callee.blocks| > 0
    ensures CopiesAt(CopyFrom(f, callee, before, after), callee, |f.blocks|, FreshInstrId(f), before, after)
  {
  }

  /** Copying reroutes the edge `before -> after` through the copy and leaves
      every other block of `f` as it was. */
  lemma CopyFromReroutes(f: Function, callee: Function, before: BlockId, after: BlockId)
    requires before < |f.blocks| && after < |f.blocks| && before != after
    requires |callee.blocks| > 0
    ensures var r := CopyFrom(f, callee, before, after);
            && r.blocks[before] == f.blocks[before].(succs := Replace(f.blocks[before].succs, after, |f.blocks|))
            && r.blocks[after] == f.blocks[after].(preds := Replace(f.blocks[after].preds, before, |f.blocks| + |callee.blocks| - 1))
            && forall j :: 0 <= j < |f.blocks| && j != before && j != after ==> r.blocks[j] == f.blocks[j]
  {
  }

  /** `r` is `f` with the edge `before -> after` rerouted through a copy of
      an `m`-block callee placed after `f`'s blocks; every other block of
      `f` is kept. */
  predicate Rerouted(r: Function, f: Function, m: nat, before: BlockId, after: BlockId)
    requires before < |f.blocks| && after < |f.blocks| && |r.blocks| == |f.blocks| + m
  {
    var n := |f.blocks|;
    && r.blocks[before].succs == Replace(f.blocks[before].succs, after, n)
    && r.blocks[before].preds == f.blocks[before].preds
    && r.blocks[after].preds == Replace(f.blocks[after].preds, before, n + m - 1)
    && r.blocks[after].succs == f.blocks[after].succs
    && forall j :: 0 <= j < n && j != before && j != after ==> r.blocks[j] == f.blocks[j]
  }

  /** Copying a well-linked callee into a well-linked function, along an
      edge `before -> after` recorded once, keeps every edge recorded at both
      ends: the copy's own edges are the callee's, and the rerouted edge
      enters the copied entry and leaves the copied exit. */
  lemma CopiedWellLinked(r: Function, f: Function, callee: Function, off: nat, before: BlockId, after: BlockId)
    requires before < |f.blocks| && after < |f.blocks| && before != after && |callee.blocks| > 0
    requires WellLinked(f) && WellLinked(callee)
    requires multiset(f.blocks[before].succs)[after] == 1
    requires CopiesAt(r, callee, |f.blocks|, off, before, after)
    requires Rerouted(r, f, |callee.blocks|, before, after)
    ensures WellLinked(r)
  {
    var n := |f.blocks|;
    forall j | 0 <= j < |r.blocks|
      ensures (forall p :: p in r.blocks[j].preds ==> p < |r.blocks|)
      ensures (forall p :: p in r.blocks[j].succs ==> p < |r.blocks|)
    {
      CopiedEdgesInRange(r, f, callee, off, before, after, j);
    }
    forall j, p | 0 <= j < |r.blocks| && 0 <= p < |r.blocks|
      ensures multiset(r.blocks[j].preds)[p] == multiset(r.blocks[p].succs)[j]
    {
      if j < n && p < n {
        CopiedEdgeCountCaller(r, f, |callee.blocks|, before, after, j, p);
      } else if j < n {
        CopiedEdgeCountInto(r, f, callee, off, before, after, j, p - n);
      } else if p < n {
        CopiedEdgeCountFrom(r, f, callee, off, before, after, j - n, p);
      } else {
        CopiedEdgeCountWithin(r, callee, n, off, before, after, j - n, p - n);
      }
    }
  }

  lemma CopiedEdgesInRange(r: Function, f: Function, callee: Function, off: nat, before: BlockId, after: BlockId, j: nat)
    requires before < |f.blocks| && after < |f.blocks| && |callee.blocks| > 0
    requires EdgesInRange(f) && EdgesInRange(callee)
    requires CopiesAt(r, callee, |f.blocks|, off, before, after)
    requires Rerouted(r, f, |callee.blocks|, before, after)
    requires j < |r.blocks|
    ensures (forall p :: p in r.blocks[j].preds ==> p < |r.blocks|)
    ensures (forall p :: p in r.blocks[j].succs ==> p < |r.blocks|)
  {
    var n := |f.blocks|;
    if j >= n {
      var q := j - n;
      var c := callee.blocks[q];
      assert r.blocks[n + q] == CopiedBlock(callee, q, n, off, before, after);
      forall p | p in Shift(c.preds, n) ensures p < |r.blocks| {
        var i :| 0 <= i < |c.preds| && Shift(c.preds, n)[i] == p;
        assert c.preds[i] in c.preds;
      }
      forall p | p in Shift(c.succs, n) ensures p < |r.blocks| {
        var i :| 0 <= i < |c.succs| && Shift(c.succs, n)[i] == p;
        assert c.succs[i] in c.succs;
      }
    } else if j == before {
      forall p | p in r.blocks[j].succs ensures p < |r.blocks| {
        ReplaceIn(f.blocks[before].succs, after, n, p);
      }
    }
    if j == after {
      forall p | p in r.blocks[j].preds ensures p < |r.blocks| {
        ReplaceIn(f.blocks[after].preds, before, n + |callee.blocks| - 1, p);
      }
    }
  }

  /** The edge count between two blocks of `f` after copying. */
  lemma CopiedEdgeCountCaller(r: Function, f: Function, m: nat, before: BlockId, after: BlockId, j: nat, p: nat)
    requires before < |f.blocks| && after < |f.blocks| && before != after && m > 0
    requires EdgesMatch(f) && |r.blocks| == |f.blocks| + m
    requires Rerouted(r, f, m, before, after)
    requires j < |f.blocks| && p < |f.blocks|
    ensures multiset(r.blocks[j].preds)[p] == multiset(r.blocks[p].succs)[j]
  {
    var n := |f.blocks|;
    var bs := f.blocks;
    CountReplace(bs[after].preds, before, n + m - 1, p);
    CountReplace(bs[before].succs, after, n, j);
    assert multiset(bs[j].preds)[p] == multiset(bs[p].succs)[j];
  }

  /** The edge count from copied block `q` to block `j` of `f`. */
  lemma CopiedEdgeCountInto(r: Function, f: Function, callee: Function, off: nat, before: BlockId, after: BlockId,
                            j: nat, q: nat)
    requires before < |f.blocks| && after < |f.blocks| && before != after && |callee.blocks| > 0
    requires EdgesMatch(f) && multiset(f.blocks[before].succs)[after] == 1
    requires CopiesAt(r, callee, |f.blocks|, off, before, after)
    requires Rerouted(r, f, |callee.blocks|, before, after)
    requires j < |f.blocks| && q < |callee.blocks|
    requires forall p :: p in f.blocks[j].preds ==> p < |f.blocks|
    requires forall p :: p in f.blocks[after].preds ==> p < |f.blocks|
    ensures multiset(r.blocks[j].preds)[|f.blocks| + q] == multiset(r.blocks[|f.blocks| + q].succs)[j]
  {
    var n, m := |f.blocks|, |callee.blocks|;
    var bs := f.blocks;
    assert r.blocks[n + q] == CopiedBlock(callee, q, n, off, before, after);
    assert multiset(bs[after].preds)[before] == multiset(bs[before].succs)[after];
    CopiedSuccCount(callee, q, n, off, before, after, j);
    CountReplace(bs[after].preds, before, n + m - 1, n + q);
    CountAbove(bs[j].preds, n, n + q);
    CountAbove(bs[after].preds, n, n + m - 1);
  }

  /** The edge count from block `p` of `f` to copied block `q`. */
  lemma CopiedEdgeCountFrom(r: Function, f: Function, callee: Function, off: nat, before: BlockId, after: BlockId,
                            q: nat, p: nat)
    requires before < |f.blocks| && after < |f.blocks| && before != after && |callee.blocks| > 0
    requires multiset(f.blocks[before].succs)[after] == 1
    requires CopiesAt(r, callee, |f.blocks|, off, before, after)
    requires Rerouted(r, f, |callee.blocks|, before, after)
    requires p < |f.blocks| && q < |callee.blocks|
    requires forall s :: s in f.blocks[p].succs ==> s < |f.blocks|
    requires forall s :: s in f.blocks[before].succs ==> s < |f.blocks|
    ensures multiset(r.blocks[|f.blocks| + q].preds)[p] == multiset(r.blocks[p].succs)[|f.blocks| + q]
  {
    var n := |f.blocks|;
    var bs := f.blocks;
    assert r.blocks[n + q] == CopiedBlock(callee, q, n, off, before, after);
    CopiedPredCount(callee, q, n, off, before, after, p);
    CountReplace(bs[before].succs, after, n, n + q);
    CountAbove(bs[p].succs, n, n + q);
    CountAbove(bs[before].succs, n, n);
  }

  /** The edge count between two copied blocks. */
  lemma CopiedEdgeCountWithin(r: Function, callee: Function, n: nat, off: nat, before: BlockId, after: BlockId,
                              q: nat, q': nat)
    requires before < n && after < n && EdgesMatch(callee)
    requires CopiesAt(r, callee, n, off, before, after)
    requires q < |callee.blocks| && q' < |callee.blocks|
    ensures multiset(r.blocks[n + q].preds)[n + q'] == multiset(r.blocks[n + q'].succs)[n + q]
  {
    CopiedCountsWithin(callee, n, off, before, after, q, q');
    assert r.blocks[n + q] == CopiedBlock(callee, q, n, off, before, after);
    assert r.blocks[n + q'] == CopiedBlock(callee, q', n, off, before, after);
  }

  /** `CopiedEdgeCountWithin` on the copied blocks themselves. */
  lemma CopiedCountsWithin(callee: Function, n: nat, off: nat, before: BlockId, after: BlockId, q: nat, q': nat)
    requires before < n && after < n && EdgesMatch(callee)
    requires q < |callee.blocks| && q' < |callee.blocks|
    ensures multiset(CopiedBlock(callee, q, n, off, before, after).preds)[n + q']
              == multiset(CopiedBlock(callee, q', n, off, before, after).succs)[n + q]
  {
    CopiedPredCount(callee, q, n, off, before, after, n + q');
    CopiedSuccCount(callee, q', n, off, before, after, n + q);
    assert multiset(callee.blocks[q].preds)[q'] == multiset(callee.blocks[q'].succs)[q];
  }

  /** How often a copied block lists `x` among its predecessors: as the
      callee's block lists `x - begin`, plus the edge from `before` into the
      copied entry. */
  lemma CopiedPredCount(callee: Function, q: nat, begin: nat, idOff: nat, before: BlockId, after: BlockId, x: BlockId)
    requires q < |callee.blocks|
    ensures multiset(CopiedBlock(callee, q, begin, idOff, before, after).preds)[x]
              == (if x >= begin then multiset(callee.blocks[q].preds)[x - begin] else 0)
                 + (if q == 0 && x == before then 1 else 0)
  {
    var s := callee.blocks[q].preds;
    CountShift(s, begin, x);
    var e: seq<BlockId> := if q == 0 then [before] else [];
    assert multiset(Shift(s, begin) + e) == multiset(Shift(s, begin)) + multiset(e);
  }

  /** How often a copied block lists `x` among its successors: as the
      callee's block lists `x - begin`, plus the edge from the copied exit
      to `after`. */
  lemma CopiedSuccCount(callee: Function, q: nat, begin: nat, idOff: nat, before: BlockId, after: BlockId, x: BlockId)
    requires q < |callee.blocks|
    ensures multiset(CopiedBlock(callee, q, begin, idOff, before, after).succs)[x]
              == (if x >= begin then multiset(callee.blocks[q].succs)[x - begin] else 0)
                 + (if q == |callee.blocks| - 1 && x == after then 1 else 0)
  {
    var s := callee.blocks[q].succs;
    CountShift(s, begin, x);
    var e: seq<BlockId> := if q == |callee.blocks| - 1 then [after] else [];
    assert multiset(Shift(s, begin) + e) == multiset(Shift(s, begin)) + multiset(e);
  }

  /** `CopyEdgeCount` between two blocks of `f`. */
  lemma CopyEdgeCountCaller(f: Function, callee: Function, before: BlockId, after: BlockId, j: nat, p: nat)
    requires before < |f.blocks| && after < |f.blocks| && before != after
    requires |callee.blocks| > 0
    requires WellLinked(f)
    requires j < |f.blocks| && p < |f.blocks|
    ensures var r := CopyFrom(f, callee, before, after);
            multiset(r.blocks[j].preds)[p] == multiset(r.blocks[p].succs)[j]
  {
    var n, m := |f.blocks|, |callee.blocks|;
    var bs := f.blocks;
    CopyFromReroutes(f, callee, before, after);
    CountReplace(bs[after].preds, before, n + m - 1, p);
    CountReplace(bs[before].succs, after, n, j);
    assert multiset(bs[j].preds)[p] == multiset(bs[p].succs)[j];
  }

  /** `CopyFrom` as the inliner performs it, characterised by what it does
      rather than by its definition: the callee's blocks copied in order
      after `f`'s, and the edge `before -> after` rerouted through them. */
  method CopyBlocks(f: Function, callee: Function, before: BlockId, after: BlockId) returns (r: Function)
    requires before < |f.blocks| && after < |f.blocks| && before != after
    requires |callee.blocks| > 0
    ensures CopiesAt(r, callee, |f.blocks|, FreshInstrId(f), before, after)
    ensures r.blocks[before] == f.blocks[before].(succs := Replace(f.blocks[before].succs, after, |f.blocks|))
    ensures r.blocks[after] == f.blocks[after].(preds := Replace(f.blocks[after].preds, before, |f.blocks| + |callee.blocks| - 1))
    ensures forall j :: 0 <= j < |f.blocks| && j != before && j != after ==> r.blocks[j] == f.blocks[j]
    ensures WellLinked(f) && WellLinked(callee) && multiset(f.blocks[before].succs)[after] == 1 ==> WellLinked(r)
  {
    r := CopyFrom(f, callee, before, after);
    CopyFromCopiesAll(f, callee, before, after);
    CopyFromReroutes(f, callee, before, after);
    if WellLinked(f) && WellLinked(callee) && multiset(f.blocks[before].succs)[after] == 1 {
      CopiedWellLinked(r, f, callee, FreshInstrId(f), before, after);
    }
  }
}

=== FILE: module_table.dfy ===
/** The static compiler's per-module namespace: the members a module binds,
    the declarations recorded during the first pass, the constants bound by
    `Final` declarations, and name resolution with a builtins fallback.
    Members are objects with an identity, because function overloads are
    grouped into one object that later declarations extend in place. */
module ModuleTable {
  import opened Wrappers

  /** The identity of a compiler-side object. */
  type ObjId = nat

  /** An AST node, by identity. */
  type NodeId = nat

  /** What kind of object a member is. A function group lists its
      functions, by identity, in declaration order. */
  datatype Kind = FunctionObj | FunctionGroupObj(functions: seq<ObjId>) | ClassObj | OtherObj

  datatype Member = Member(oid: ObjId, kind: Kind)

  /** A function to declare: its object, its name and its definition node. */
  datatype Func = Func(oid: ObjId, name: string, node: NodeId)

  /** A declaration recorded for the second pass: the node, and the name and
      member it bound, if any. */
  datatype Decl = Decl(node: NodeId, name: Option<string>, value: Option<ObjId>)

  /** A literal constant a `Final` name was bound to. */
  datatype Constant = Constant(node: NodeId)

  datatype Table = Table(
    name: string,
    children: map<string, Member>,
    decls: seq<Decl>,
    namedFinals: map<string, Constant>,
    firstPassDone: bool)

  datatype Error =
    | TypedSyntaxError(msg: string)  // a declaration conflicts with an existing member
    | KeyError(key: string)          // a deletion of a name that is no longer bound
    | AssertionError                 // annotations resolved before the first pass ended

  /** A table that binds exactly `m` and nothing else has changed. */
  predicate Rebinds(t: Table, r: Table, m: map<string, Member>)
  {
    r == t.(children := m, decls := r.decls)
  }

  // -------------------------------------------------------------------------
  // Declarations

  /** Binds `name` to the class `klass` and records the declaration. */
  function DeclareClass(t: Table, node: NodeId, name: string, klass: Member): (r: Table)
    requires klass.kind == ClassObj
    ensures name in r.children && r.children[name] == klass
    ensures forall n :: n != name ==> (n in r.children <==> n in t.children)
    ensures forall n :: n in t.children && n != name ==> r.children[n] == t.children[n]
    ensures r.decls == t.decls + [Decl(node, Some(name), Some(klass.oid))]
    ensures Rebinds(t, r, r.children)
  {
    t.(decls := t.decls + [Decl(node, Some(name), Some(klass.oid))], children := t.children[name := klass])
  }

  /** Binds a function, grouping it with an earlier function of the same
      name: an unbound name gets the function; a bound function becomes a
      new group (object `groupId`) of both; a bound group gets the function
      appended and stays the same object; any other member is a conflict. */
  function DeclareFunction(t: Table, f: Func, groupId: ObjId): (r: Result<Table, Error>)
    ensures r.Failure? <==> f.name in t.children && !t.children[f.name].kind.FunctionObj? && !t.children[f.name].kind.FunctionGroupObj?
    ensures r.Failure? ==> r.error.TypedSyntaxError?
    ensures r.Success? ==> f.name in r.value.children
    ensures r.Success? ==> forall n :: n != f.name ==> (n in r.value.children <==> n in t.children)
    ensures r.Success? ==> forall n :: n in t.children && n != f.name ==> r.value.children[n] == t.children[n]
    ensures r.Success? ==> r.value.decls == t.decls + [Decl(f.node, Some(f.name), Some(r.value.children[f.name].oid))]
    ensures r.Success? ==> Rebinds(t, r.value, r.value.children)
    ensures r.Success? && f.name !in t.children ==> r.value.children[f.name] == Member(f.oid, FunctionObj)
    ensures r.Success? && f.name in t.children && t.children[f.name].kind.FunctionObj? ==>
              r.value.children[f.name] == Member(groupId, FunctionGroupObj([t.children[f.name].oid, f.oid]))
    ensures r.Success? && f.name in t.children && t.children[f.name].kind.FunctionGroupObj? ==>
              r.value.children[f.name] ==
                Member(t.children[f.name].oid, FunctionGroupObj(t.children[f.name].kind.functions + [f.oid]))
  {
    var existing := if f.name in t.children then Some(t.children[f.name]) else None;
    var newMember :=
      if existing.None? then Some(Member(f.oid, FunctionObj))
      else match existing.value.kind
        case FunctionObj => Some(Member(groupId, FunctionGroupObj([existing.value.oid, f.oid])))
        case FunctionGroupObj(fs) => Some(Member(existing.value.oid, FunctionGroupObj(fs + [f.oid])))
        case _ => None;
    if newMember.None? then Failure(TypedSyntaxError("function conflicts with other member " + f.name + " in " + t.name))
    else
      Success(t.(decls := t.decls + [Decl(f.node, Some(f.name), Some(newMember.value.oid))],
                 children := t.children[f.name := newMember.value]))
  }

  /** Records an annotated assignment for the second pass; it binds nothing
      now. */
  function DeclareVariable(t: Table, node: NodeId): (r: Table)
    ensures r.decls == t.decls + [Decl(node, None, None)]
    ensures r.children == t.children && Rebinds(t, r, t.children)
  {
    t.(decls := t.decls + [Decl(node, None, None)])
  }

  /** Declares functions in turn, stopping at the first conflict. */
  function DeclareFunctions(t: Table, fs: seq<Func>, groupId: ObjId): (r: Result<Table, Error>)
    decreases |fs|
  {
    if |fs| == 0 then Success(t)
    else
      match DeclareFunction(t, fs[0], groupId)
      case Failure(e) => Failure(e)
      case Success(t1) => DeclareFunctions(t1, fs[1..], groupId)
  }

  function Oids(fs: seq<Func>): (r: seq<ObjId>)
    ensures |r| == |fs| && forall k :: 0 <= k < |fs| ==> r[k] == fs[k].oid
  {
    seq(|fs|, k requires 0 <= k < |fs| => fs[k].oid)
  }

  /** Overloads of one unbound name: one function is bound as itself; two or
      more end up as one group, created by the second declaration, that
      lists every function in declaration order. One declaration is
      recorded per function. */
  lemma {:induction false} DeclareFunctionsGroups(t: Table, fs: seq<Func>, groupId: ObjId, name: string)
    requires |fs| >= 1 && forall k :: 0 <= k < |fs| ==> fs[k].name == name
    requires name !in t.children
    ensures DeclareFunctions(t, fs, groupId).Success?
    ensures var r := DeclareFunctions(t, fs, groupId).value;
            && name in r.children
            && |r.decls| == |t.decls| + |fs|
            && (|fs| == 1 ==> r.children[name] == Member(fs[0].oid, FunctionObj))
            && (|fs| >= 2 ==> r.children[name] == Member(groupId, FunctionGroupObj(Oids(fs))))
  {
    var t1 := DeclareFunction(t, fs[0], groupId).value;
    if |fs| >= 2 {
      var t2 := DeclareFunction(t1, fs[1], groupId).value;
      assert fs[1..][1..] == fs[2..];
      assert Oids(fs[..2]) == [fs[0].oid, fs[1].oid];
      GroupAppends(t2, fs[2..], groupId, name, fs[..2]);
      assert fs[..2] + fs[2..] == fs;
    }
  }

  /** Once a name is bound to a group, every further function of that name
      is appended to the same group object. */
  lemma {:induction false} GroupAppends(t: Table, fs: seq<Func>, groupId: ObjId, name: string, before: seq<Func>)
    requires forall k :: 0 <= k < |fs| ==> fs[k].name == name
    requires name in t.children && t.children[name] == Member(groupId, FunctionGroupObj(Oids(before)))
    ensures DeclareFunctions(t, fs, groupId).Success?
    ensures var r := DeclareFunctions(t, fs, groupId).value;
            && name in r.children
            && |r.decls| == |t.decls| + |fs|
            && r.children[name] == Member(groupId, FunctionGroupObj(Oids(before + fs)))
    decreases |fs|
  {
    if |fs| == 0 {
      assert before + fs == before;
    } else {
      var t1 := DeclareFunction(t, fs[0], groupId).value;
      assert Oids(before) + [fs[0].oid] == Oids(before + [fs[0]]);
      GroupAppends(t1, fs[1..], groupId, name, before + [fs[0]]);
      assert before + [fs[0]] + fs[1..] == before + fs;
    }
  }

  // -------------------------------------------------------------------------
  // The second pass

  /** One recorded declaration processed: a member whose second-pass binding
      (`finish`, given the member's identity) is None is unbound, a
      different object replaces it, the same object leaves it. Unbinding a
      name that is no longer bound fails. A declaration that bound no
      member changes nothing here. */
  function FinishDecl(children: map<string, Member>, d: Decl, finish: ObjId -> Option<Member>): (r: Result<map<string, Member>, Error>)
    requires d.value.Some? ==> d.name.Some?
    ensures r.Failure? <==> d.value.Some? && finish(d.value.value).None? && d.name.value !in children
    ensures r.Success? && d.value.Some? && finish(d.value.value).None? ==> r.value == children - {d.name.value}
    ensures r.Success? && d.value.Some? && finish(d.value.value).Some? && finish(d.value.value).value.oid != d.value.value ==>
              r.value == children[d.name.value := finish(d.value.value).value]
    ensures d.value.None? || (finish(d.value.value).Some? && finish(d.value.value).value.oid == d.value.value) ==>
              r == Success(children)
    ensures r.Success? ==> forall n :: d.name != Some(n) ==>
              (n in r.value <==> n in children) && (n in children ==> r.value[n] == children[n])
  {
    match d.value
    case None => Success(children)
    case Some(v) =>
      var name := d.name.value;
      match finish(v)
      case None => if name in children then Success(children - {name}) else Failure(KeyError(name))
      case Some(nv) => if nv.oid != v then Success(children[name := nv]) else Success(children)
  }

  /** Every declaration that bound a member names it. */
  predicate DeclsNamed(decls: seq<Decl>)
  {
    forall k :: 0 <= k < |decls| ==> decls[k].value.Some? ==> decls[k].name.Some?
  }

  function FinishDecls(children: map<string, Member>, decls: seq<Decl>, finish: ObjId -> Option<Member>): (r: Result<map<string, Member>, Error>)
    requires DeclsNamed(decls)
    decreases |decls|
  {
    if |decls| == 0 then Success(children)
    else
      match FinishDecl(children, decls[0], finish)
      case Failure(e) => Failure(e)
      case Success(c1) => FinishDecls(c1, decls[1..], finish)
  }

  /** The second pass over the recorded declarations: the first pass is
      marked done, every declared member is replaced by its second-pass
      binding, and the declaration list is emptied. */
  function FinishBind(t: Table, finish: ObjId -> Option<Member>): (r: Result<Table, Error>)
    requires DeclsNamed(t.decls)
    ensures r.Success? ==> r.value.firstPassDone && r.value.decls == []
    ensures r.Success? ==> r.value == t.(firstPassDone := true, decls := [], children := r.value.children)
  {
    match FinishDecls(t.children, t.decls, finish)
    case Failure(e) => Failure(e)
    case Success(c) => Success(t.(firstPassDone := true, children := c, decls := []))
  }

  /** A name no declaration mentions keeps its binding through the second
      pass. */
  lemma {:induction false} FinishDeclsFrame(children: map<string, Member>, decls: seq<Decl>, finish: ObjId -> Option<Member>, n: string)
    requires DeclsNamed(decls)
    requires forall k :: 0 <= k < |decls| ==> decls[k].name != Some(n)
    requires FinishDecls(children, decls, finish).Success?
    ensures n in FinishDecls(children, decls, finish).value <==> n in children
    ensures n in children ==> FinishDecls(children, decls, finish).value[n] == children[n]
    decreases |decls|
  {
    if |decls| > 0 {
      var c1 := FinishDecl(children, decls[0], finish).value;
      assert n in c1 <==> n in children;
      assert n in children ==> c1[n] == children[n];
      assert forall k :: 1 <= k < |decls| ==> decls[1..][k - 1] == decls[k];
      FinishDeclsFrame(c1, decls[1..], finish, n);
    }
  }

  /** When every member's second-pass binding is the member itself, the
      second pass leaves the bindings as they were. */
  lemma {:induction false} FinishDeclsIdentity(children: map<string, Member>, decls: seq<Decl>, finish: ObjId -> Option<Member>)
    requires DeclsNamed(decls)
    requires forall k :: 0 <= k < |decls| && decls[k].value.Some? ==>
               finish(decls[k].value.value).Some? && finish(decls[k].value.value).value.oid == decls[k].value.value
    ensures FinishDecls(children, decls, finish) == Success(children)
    decreases |decls|
  {
    if |decls| > 0 {
      assert FinishDecl(children, decls[0], finish) == Success(children);
      assert forall k :: 1 <= k < |decls| ==> decls[1..][k - 1] == decls[k];
      FinishDeclsIdentity(children, decls[1..], finish);
    }
  }

  /** A declaration that bound no member, such as an annotated assignment,
      is passed over when the second pass re-binds members, wherever it was
      recorded last. */
  lemma {:induction false} FinishDeclsSkipsUnbound(children: map<string, Member>, decls: seq<Decl>, node: NodeId,
                                                  finish: ObjId -> Option<Member>)
    requires DeclsNamed(decls)
    ensures DeclsNamed(decls + [Decl(node, None, None)])
    ensures FinishDecls(children, decls + [Decl(node, None, None)], finish) == FinishDecls(children, decls, finish)
    decreases |decls|
  {
    var d := Decl(node, None, None);
    assert forall k :: 0 <= k < |decls| ==> (decls + [d])[k] == decls[k];
    if |decls| == 0 {
      assert [d][1..] == [];
    } else {
      assert (decls + [d])[1..] == decls[1..] + [d];
      assert forall k :: 1 <= k < |decls| ==> decls[1..][k - 1] == decls[k];
      match FinishDecl(children, decls[0], finish)
      case Failure(_) =>
      case Success(c1) => FinishDeclsSkipsUnbound(c1, decls[1..], node, finish);
    }
  }

  // -------------------------------------------------------------------------
  // Resolution

  /** Annotations are resolved by the annotation visitor (`visit`), and only
      once the first pass is done. */
  function ResolveAnnotation(t: Table, node: NodeId, visit: NodeId -> Option<Member>): (r: Result<Option<Member>, Error>)
    ensures r.Failure? <==> !t.firstPassDone
    ensures r.Failure? ==> r.error == AssertionError
    ensures r.Success? ==> r.value == visit(node)
  {
    if !t.firstPassDone then Failure(AssertionError) else Success(visit(node))
  }

  /** After a successful second pass annotations can always be resolved. */
  lemma FinishBindEnablesAnnotations(t: Table, finish: ObjId -> Option<Member>, node: NodeId, visit: NodeId -> Option<Member>)
    requires DeclsNamed(t.decls)
    requires FinishBind(t, finish).Success?
    ensures ResolveAnnotation(FinishBind(t, finish).value, node, visit).Success?
  {
  }

  /** Where a name is declared: the module's name and the member's name. */
  datatype Descr = Descr(moduleName: string, name: string)

  /** A name the module binds resolves to its member, described as the
      module's; otherwise a builtin of that name, with no description;
      otherwise nothing. */
  function ResolveNameWithDescr(t: Table, builtins: map<string, Member>, name: string): (r: (Option<Member>, Option<Descr>))
    ensures name in t.children ==> r == (Some(t.children[name]), Some(Descr(t.name, name)))
    ensures name !in t.children && name in builtins ==> r == (Some(builtins[name]), None)
    ensures name !in t.children && name !in builtins ==> r == (None, None)
  {
    if name in t.children then (Some(t.children[name]), Some(Descr(t.name, name)))
    else if name in builtins then (Some(builtins[name]), None)
    else (None, None)
  }

  function ResolveName(t: Table, builtins: map<string, Member>, name: string): (r: Option<Member>)
    ensures r.Some? <==> name in t.children || name in builtins
    ensures r.Some? ==> r.value == if name in t.children then t.children[name] else builtins[name]
  {
    ResolveNameWithDescr(t, builtins, name).0
  }

  /** A declared class resolves by name, ahead of any builtin of that name,
      and shadows nothing else. */
  lemma DeclareClassResolves(t: Table, node: NodeId, name: string, klass: Member, builtins: map<string, Member>, other: string)
    requires klass.kind == ClassObj
    ensures ResolveNameWithDescr(DeclareClass(t, node, name, klass), builtins, name) == (Some(klass), Some(Descr(t.name, name)))
    ensures other != name ==> ResolveName(DeclareClass(t, node, name, klass), builtins, other) == ResolveName(t, builtins, other)
  {
  }

  datatype ExprContext = Load | Store | Del

  /** The node a constant lookup is asked about: a name in some context, or
      any other expression. */
  datatype Node = NameNode(id: string, ctx: ExprContext) | OtherNode

  /** The scope the lookup happens in: the module scope, or a nested scope
      with the names it defines. */
  datatype Scope = ModuleScope | NestedScope(defs: set<string>)

  /** The literal a `Final` name was bound to, for a name loaded where no
      local definition shadows it. */
  function GetFinalLiteral(t: Table, node: Node, scope: Scope): (r: Option<Constant>)
    ensures r.Some? <==>
              && node.NameNode?
              && node.id in t.namedFinals
              && node.ctx == Load
              && (scope.ModuleScope? || node.id !in scope.defs)
    ensures r.Some? ==> r.value == t.namedFinals[node.id]
  {
    if !node.NameNode? then None
    else if node.id in t.namedFinals && node.ctx == Load && (scope.ModuleScope? || node.id !in scope.defs) then
      Some(t.namedFinals[node.id])
    else None
  }

  /** No declaration changes which `Final` literals are known: declaring a
      class, a function or a variable leaves every constant lookup answering
      as before. */
  lemma DeclarationsKeepFinalLiterals(t: Table, node: Node, scope: Scope, n: NodeId, name: string, klass: Member,
                                      f: Func, groupId: ObjId)
    requires klass.kind == ClassObj
    ensures GetFinalLiteral(DeclareClass(t, n, name, klass), node, scope) == GetFinalLiteral(t, node, scope)
    ensures DeclareFunction(t, f, groupId).Success? ==>
              GetFinalLiteral(DeclareFunction(t, f, groupId).value, node, scope) == GetFinalLiteral(t, node, scope)
    ensures GetFinalLiteral(DeclareVariable(t, n), node, scope) == GetFinalLiteral(t, node, scope)
  {
  }
}

=== FILE: scope.dfy ===
/** The strict-modules scope stack: the chain of scopes an analysis is
    inside, the class whose names are being mangled, and the manager that
    enters a scope for a region and leaves it again. A scope is known here
    by its name; its variables, symbol-table entry and data are not part of
    this model. */
module Scopes {
  import opened Wrappers

  datatype Scope = Scope(name: string)

  /** The scopes, outermost first (the first is always the top scope), and
      the class currently being analysed, if any. */
  datatype ScopeStack = ScopeStack(scopes: seq<Scope>, currentClass: Option<string>)

  /** A stack made from a list of scopes, with no current class. */
  function FromScopes(scopes: seq<Scope>): (r: ScopeStack)
    ensures r.scopes == scopes && r.currentClass.None?
  {
    ScopeStack(scopes, None)
  }

  /** A stack holding just the top scope. */
  function FromTop(top: Scope): (r: ScopeStack)
    ensures |r.scopes| == 1 && r.scopes[0] == top && r.currentClass.None?
  {
    ScopeStack([top], None)
  }

  /** The innermost scope: the one pushed last. */
  function CurrentScope(s: ScopeStack): (r: Scope)
    requires |s.scopes| > 0
    ensures r == s.scopes[|s.scopes| - 1]
  {
    s.scopes[|s.scopes| - 1]
  }

  function Push(s: ScopeStack, sc: Scope): (r: ScopeStack)
    ensures r.scopes == s.scopes + [sc] && r.currentClass == s.currentClass
  {
    s.(scopes := s.scopes + [sc])
  }

  function Pop(s: ScopeStack): (r: ScopeStack)
    requires |s.scopes| > 0
    ensures r.scopes == s.scopes[..|s.scopes| - 1] && r.currentClass == s.currentClass
  {
    s.(scopes := s.scopes[..|s.scopes| - 1])
  }

  /** Pushing then popping restores the stack. */
  lemma PopPush(s: ScopeStack, sc: Scope)
    ensures Pop(Push(s, sc)) == s
    ensures CurrentScope(Push(s, sc)) == sc
  {
    assert (s.scopes + [sc])[..|s.scopes|] == s.scopes;
  }

  function SetCurrentClass(s: ScopeStack, c: Option<string>): (r: ScopeStack)
    ensures r.currentClass == c && r.scopes == s.scopes
  {
    s.(currentClass := c)
  }

  /** The class read back is the class last set. */
  lemma SetThenGetCurrentClass(s: ScopeStack, c: Option<string>)
    ensures SetCurrentClass(s, c).currentClass == c
    ensures SetCurrentClass(SetCurrentClass(s, c), s.currentClass) == s
  {
  }

  /** A name as seen from the current class: unchanged outside any class,
      otherwise mangled with the class name by `mangle`. */
  function MangleName(s: ScopeStack, name: string, mangle: (string, string) -> string): (r: string)
    ensures s.currentClass.None? ==> r == name
    ensures s.currentClass.Some? ==> r == mangle(s.currentClass.value, name)
  {
    if s.currentClass.None? then name else mangle(s.currentClass.value, name)
  }

  // -------------------------------------------------------------------------
  // Qualified names

  /** The names joined with a dot between neighbours. */
  function JoinDot(ns: seq<string>): (r: string)
    decreases |ns|
  {
    if |ns| == 0 then ""
    else if |ns| == 1 then ns[0]
    else ns[0] + "." + JoinDot(ns[1..])
  }

  /** The pieces of `s` between dots, in order; at least one piece. */
  function SplitDot(s: string): (r: seq<string>)
    ensures |r| >= 1
    decreases |s|
  {
    if |s| == 0 then [""]
    else
      var rest := SplitDot(s[1..]);
      if s[0] == '.' then [""] + rest
      else [[s[0]] + rest[0]] + rest[1..]
  }

  predicate NoDot(n: string)
  {
    forall k :: 0 <= k < |n| ==> n[k] != '.'
  }

  lemma {:induction false} SplitDotNoDot(n: string, tl: string)
    requires NoDot(n)
    ensures SplitDot(n + tl) == [n + SplitDot(tl)[0]] + SplitDot(tl)[1..]
    decreases |n|
  {
    if |n| > 0 {
      assert (n + tl)[1..] == n[1..] + tl;
      assert NoDot(n[1..]) by {
        forall k | 0 <= k < |n[1..]| ensures n[1..][k] != '.' { assert n[1..][k] == n[k + 1]; }
      }
      SplitDotNoDot(n[1..], tl);
      var st := SplitDot(tl);
      var rest := SplitDot((n + tl)[1..]);
      assert rest == [n[1..] + st[0]] + st[1..];
      assert rest[0] == n[1..] + st[0] && rest[1..] == st[1..];
      assert [n[0]] + (n[1..] + st[0]) == n + st[0];
    } else {
      var st := SplitDot(tl);
      assert n + tl == tl && n + st[0] == st[0];
      assert st == [st[0]] + st[1..];
    }
  }

  /** Splitting a join of dot-free names at its dots gives the names back:
      the qualified name loses nothing. */
  lemma {:induction false} SplitJoin(ns: seq<string>)
    requires |ns| >= 1 && forall k :: 0 <= k < |ns| ==> NoDot(ns[k])
    ensures SplitDot(JoinDot(ns)) == ns
    decreases |ns|
  {
    if |ns| == 1 {
      SplitDotNoDot(ns[0], "");
      assert ns[0] + "" == ns[0];
    } else {
      var tl := JoinDot(ns[1..]);
      SplitJoin(ns[1..]);
      assert ns[0] + "." + tl == ns[0] + ("." + tl);
      SplitDotNoDot(ns[0], "." + tl);
      assert ("." + tl)[1..] == tl;
      assert SplitDot("." + tl) == [""] + ns[1..];
      assert ns[0] + "" == ns[0];
      assert [ns[0] + ""] + ns[1..] == ns;
    }
  }

  /** With non-empty names the join neither starts nor ends with a dot. */
  lemma {:induction false} JoinDotEnds(ns: seq<string>)
    requires |ns| >= 1 && forall k :: 0 <= k < |ns| ==> |ns[k]| > 0
    ensures |JoinDot(ns)| > 0
    ensures JoinDot(ns)[0] == ns[0][0]
    ensures JoinDot(ns)[|JoinDot(ns)| - 1] == ns[|ns| - 1][|ns[|ns| - 1]| - 1]
    decreases |ns|
  {
    if |ns| > 1 {
      JoinDotEnds(ns[1..]);
    }
  }

  function Names(scopes: seq<Scope>): (r: seq<string>)
    ensures |r| == |scopes| && forall k :: 0 <= k < |scopes| ==> r[k] == scopes[k].name
  {
    seq(|scopes|, k requires 0 <= k < |scopes| => scopes[k].name)
  }

  /** The qualified name of the current scope: the names of every scope but
      the top one, written out in order with a dot after each but the last. */
  method GetQualifiedScopeName(s: ScopeStack) returns (q: string)
    requires |s.scopes| > 0
    ensures q == JoinDot(Names(s.scopes[1..]))
  {
    q := "";
    var i := 1;
    while i < |s.scopes|
      invariant 1 <= i <= |s.scopes|
      invariant i < |s.scopes| ==> q + JoinDot(Names(s.scopes[i..])) == JoinDot(Names(s.scopes[1..]))
      invariant i == |s.scopes| ==> q == JoinDot(Names(s.scopes[1..]))
    {
      var ns := Names(s.scopes[i..]);
      assert ns[1..] == Names(s.scopes[i + 1..]);
      q := q + s.scopes[i].name;
      if i + 1 < |s.scopes| {
        assert JoinDot(ns) == ns[0] + "." + JoinDot(ns[1..]);
        q := q + ".";
      }
      i := i + 1;
    }
  }

  /** Only the top scope: the qualified name is empty. */
  lemma QualifiedNameOfTop(top: Scope)
    ensures JoinDot(Names(FromTop(top).scopes[1..])) == ""
  {
  }

  // -------------------------------------------------------------------------
  // Entering and leaving scopes

  /** What a scope manager remembers: the class current before it entered. */
  datatype ScopeManager = ScopeManager(scope: Scope, oldClass: Option<string>)

  /** Entering: the scope is pushed, and the current class changes only when
      a class is supplied. */
  function Enter(s: ScopeStack, sc: Scope, cls: Option<string>): (r: (ScopeStack, ScopeManager))
    ensures r.0.scopes == s.scopes + [sc] && CurrentScope(r.0) == sc
    ensures r.0.currentClass == if cls.Some? then cls else s.currentClass
    ensures r.1.oldClass == s.currentClass
  {
    var pushed := Push(s, sc);
    (if cls.Some? then SetCurrentClass(pushed, cls) else pushed, ScopeManager(sc, s.currentClass))
  }

  /** Leaving: the scope is popped and the saved class restored. */
  function Exit(s: ScopeStack, m: ScopeManager): (r: ScopeStack)
    requires |s.scopes| > 0
    ensures r.scopes == s.scopes[..|s.scopes| - 1] && r.currentClass == m.oldClass
  {
    SetCurrentClass(Pop(s), m.oldClass)
  }

  /** Entering then leaving leaves the stack and the current class as they
      were, whatever class was supplied. */
  lemma EnterExit(s: ScopeStack, sc: Scope, cls: Option<string>)
    ensures var (s1, m) := Enter(s, sc, cls); Exit(s1, m) == s
  {
    assert (s.scopes + [sc])[..|s.scopes|] == s.scopes;
  }

  /** Names are mangled with the class a scope was entered with, kept as they
      were when a scope is entered without a class, and mangled as before
      once the scope is left again. */
  lemma MangleAcrossEnterExit(s: ScopeStack, sc: Scope, cls: Option<string>, name: string,
                              mangle: (string, string) -> string)
    ensures cls.Some? ==> MangleName(Enter(s, sc, cls).0, name, mangle) == mangle(cls.value, name)
    ensures cls.None? ==> MangleName(Enter(s, sc, cls).0, name, mangle) == MangleName(s, name, mangle)
    ensures var (s1, m) := Enter(s, sc, cls); MangleName(Exit(s1, m), name, mangle) == MangleName(s, name, mangle)
  {
  }

  /** A sequence of scopes entered one inside the other. */
  function EnterAll(s: ScopeStack, scs: seq<(Scope, Option<string>)>): (r: (ScopeStack, seq<ScopeManager>))
    ensures |r.1| == |scs|
    ensures r.0.scopes == s.scopes + seq(|scs|, k requires 0 <= k < |scs| => scs[k].0)
    decreases |scs|
  {
    if |scs| == 0 then (s, [])
    else
      var (s1, m) := Enter(s, scs[0].0, scs[0].1);
      var (s2, ms) := EnterAll(s1, scs[1..]);
      assert s2.scopes == s.scopes + [scs[0].0] + seq(|scs| - 1, k requires 0 <= k < |scs| - 1 => scs[1..][k].0);
      (s2, [m] + ms)
  }

  /** Leaves with the managers innermost first. */
  function ExitAll(s: ScopeStack, ms: seq<ScopeManager>): (r: ScopeStack)
    requires |ms| <= |s.scopes|
    decreases |ms|
  {
    if |ms| == 0 then s
    else ExitAll(Exit(s, ms[|ms| - 1]), ms[..|ms| - 1])
  }

  /** Regions that nest restore everything: leaving every entered scope,
      innermost first, gives back the stack and current class from before. */
  lemma {:induction false} EnterAllExitAll(s: ScopeStack, scs: seq<(Scope, Option<string>)>)
    ensures var (s1, ms) := EnterAll(s, scs);
            |ms| <= |s1.scopes| && ExitAll(s1, ms) == s
    decreases |scs|
  {
    if |scs| > 0 {
      var (s1, m) := Enter(s, scs[0].0, scs[0].1);
      var (s2, ms) := EnterAll(s1, scs[1..]);
      EnterAllExitAll(s1, scs[1..]);
      ExitAllPrefix(s2, [m] + ms, s1);
      EnterExit(s, scs[0].0, scs[0].1);
    }
  }

  /** Leaving all of `[m] + ms` is leaving `ms` and then `m`. */
  lemma {:induction false} ExitAllPrefix(s: ScopeStack, mms: seq<ScopeManager>, mid: ScopeStack)
    requires |mms| >= 1 && |mms| <= |s.scopes|
    requires |mms[1..]| <= |s.scopes| && ExitAll(s, mms[1..]) == mid
    ensures |mid.scopes| >= 1
    ensures ExitAll(s, mms) == Exit(mid, mms[0])
    decreases |mms|
  {
    ExitAllLength(s, mms[1..]);
    if |mms| > 1 {
      var last := mms[|mms| - 1];
      var s1 := Exit(s, last);
      assert mms[1..][..|mms[1..]| - 1] == mms[..|mms| - 1][1..];
      ExitAllPrefix(s1, mms[..|mms| - 1], mid);
    }
  }

  lemma {:induction false} ExitAllLength(s: ScopeStack, ms: seq<ScopeManager>)
    requires |ms| <= |s.scopes|
    ensures |ExitAll(s, ms).scopes| == |s.scopes| - |ms|
    decreases |ms|
  {
    if |ms| > 0 {
      ExitAllLength(Exit(s, ms[|ms| - 1]), ms[..|ms| - 1]);
    }
  }
}

=== FILE: wrappers.dfy ===
/** Failure-compatible wrappers shared by every module of the model. */
module Wrappers {

  /** An optional value: the model's stand-in for a nullable pointer or `None`. */
  datatype Option<+T> = None | Some(value: T)

  /** A value or an error: the model's stand-in for a raised exception. */
  datatype Result<+T, +E> = Success(value: T) | Failure(error: E)
}
